=== FILE: README.md ===
# AgriConnect core, modelled in Dafny

AgriConnect helps smallholder farmers and lenders. It scores credit, estimates
post-harvest-loss (PHL) risk, and gives storage advice. Most of the repository is
Streamlit dashboard rendering. This project models the deterministic logic underneath
that rendering and proves properties about it:

- **Farmer portal store** (`farmers_portal.dfy`, module `FarmersPortal`). A `Store` class
  holds the four SQLite tables (users, facilities, crops, temp_logs) as sequences of rows,
  plus one autoincrement counter per table. The model covers:
  - `add_user`, including the UNIQUE username;
  - the append-only inserts;
  - the `get_*` queries (`get_temp_logs` has `ORDER BY log_time DESC LIMIT ?`);
  - the `phl_prompt` threshold rule;
  - the add-form guards and the PHL-prompts tab loop.
- **Demo seeding** (`demo_seeding.dfy`). `populate_farmer_with_full_crop_and_temps`:
  `INSERT OR IGNORE` against the UNIQUE username, re-inserted facility and crop rows, and
  the seven-day temperature loop.
- **Analytics page** (`analytics.dfy`, helpers in `grouping.dfy`, `frames.dfy`, `seqs.dfy`):
  - the region/score/intervention filter and the default selection;
  - the early stops;
  - the region-coordinate fallback;
  - the `nlargest`/`nsmallest` leaderboards and the intervention group count.
- **Credit/PHL merge pipeline** (`phl_credit_pipeline.dfy`):
  - the left merge on `farmer_id`, the fill policies and the `cat.codes` encodings;
  - the single-class probability fallback, the score column and the export projection.
  The classifier is an uninterpreted parameter.
- **Farmer credit scoring** (`farmer_credit_scoring.dfy`). `preprocess_data`: grouped
  means, merges, mean fills, lookup encodings and the final zero fill. `get_advice`: an
  ordered list built by successive appends.
- **Credit dashboard** (`credit_app.dfy`): the farmer picker, the selected row and the
  four-way `get_recommendation`.
- **Training-data preparation** (`train_export.dfy`): header stripping, the lookup
  encodings, the synthetic `creditworthy` label and the feature columns.
- **CSV repair** (`csv_repair.dfy`): `check_and_fix_csv`.
- **Schema repair** (`schema_repair.dfy`): the `add_missing_columns` loop over a
  `Database` class whose tables map to their column lists.

The shared vocabulary:

- A pandas frame is a `Frame(columns, rows)`. Its cells are `Null | Num(real) | Str(string)`.
- `Null` is NaN or an empty cell. A comparison with it is false, as in pandas.
- Scores are exact `real`s.
- The clock (`datetime.now()`) is a `DateTime` parameter. A stamped time is its
  `"%Y-%m-%d %H:%M:%S"` text (`timestamps.dfy`), whose string order is proved equal to
  clock order.
- A Python exception (`KeyError`, `IndexError`, `OverflowError`) becomes `None` or an error
  case of an outcome datatype.

## Model

| member | source | states |
|---|---|---|
| FarmersPortal.Store.constructor | agriconnect_farmers_portal.py:10-48 | init_db on a fresh file: the four tables are empty and the store invariant (unique usernames, ascending ids below the counters) holds |
| FarmersPortal.Store.AddUser | agriconnect_farmers_portal.py:61-71 | returns true and appends one user with a fresh id exactly when the username is not taken; otherwise returns false and the store is unchanged; usernames stay unique |
| FarmersPortal.SameUsernameSameRow | agriconnect_farmers_portal.py:16 | under the UNIQUE constraint two user rows with the same username are the same row |
| FarmersPortal.AppendFreshId | agriconnect_farmers_portal.py:15 | appending a row with the next counter value keeps ids strictly ascending and greater than every earlier id |
| FarmersPortal.GetUserSpec | agriconnect_farmers_portal.py:50-59 | of FarmersPortal.GetUser: get_user finds a user exactly when one matches the username and, only for a non-empty password, the password; with unique usernames it returns that user's (id, username) |
| FarmersPortal.EmptyPasswordLogsIn | agriconnect_farmers_portal.py:53-56 | with an empty password every registered username is found, whatever its stored password (the login at line 153 passes the typed text) |
| FarmersPortal.CheckedLogin | agriconnect_farmers_portal.py:150-159 | corrected login: a returned id belongs to a user with that username whose stored password equals the typed one |
| FarmersPortal.CheckedLoginNeedsPassword | agriconnect_farmers_portal.py:153 | for a registered user the corrected login succeeds exactly when the typed password is that user's password, empty or not |
| FarmersPortal.Store.AddFacility | agriconnect_farmers_portal.py:79-84 | appends exactly one facility row whose id is the next counter value, larger than every earlier id; the other tables are unchanged |
| FarmersPortal.Store.AddCrop | agriconnect_farmers_portal.py:92-97 | appends exactly one crop row whose id is the next counter value, larger than every earlier id; the other tables are unchanged |
| FarmersPortal.Store.AddTempLog | agriconnect_farmers_portal.py:108-114 | appends exactly one log with the next id, stamped with the formatted clock reading; the other tables are unchanged |
| FarmersPortal.GetFacilitiesSpec | agriconnect_farmers_portal.py:73-77 | of FarmersPortal.FacilitiesOf: get_facilities(u) is an order-preserving subsequence holding exactly the facilities of u, each as often as stored |
| FarmersPortal.NoFacilitiesSpec | agriconnect_farmers_portal.py:73-77 | get_facilities(u) is empty exactly when no facility belongs to u |
| FarmersPortal.GetCropsSpec | agriconnect_farmers_portal.py:86-90 | of FarmersPortal.CropsOf: get_crops(f) is an order-preserving subsequence holding exactly the crops of f, each as often as stored |
| FarmersPortal.FacilityNameSpec | agriconnect_farmers_portal.py:116-122 | of FarmersPortal.FacilityName: with unique facility ids: the name of the facility with that id, or "Unknown" when no facility has it |
| FarmersPortal.NewerFirstPreorder | agriconnect_farmers_portal.py:102 | the ORDER BY log_time DESC comparison is a total preorder, so the ordering is well defined |
| FarmersPortal.LogsOfSpec | agriconnect_farmers_portal.py:102 | the WHERE facility_id=? part keeps exactly that facility's logs, each as often as it is stored |
| FarmersPortal.GetTempLogsSpec | agriconnect_farmers_portal.py:99-106 | of FarmersPortal.LatestLogs: min(limit, n) logs taken from the table, all of the facility, newest first; no left-out log of the facility is newer than a returned one |
| FarmersPortal.UnlimitedTempLogs | agriconnect_farmers_portal.py:99-106 | with a negative LIMIT, exactly the facility's logs, newest first |
| FarmersPortal.LatestLogsAreNewest | agriconnect_farmers_portal.py:111 | for logs stamped by add_temp_log the text order is clock order: no left-out log was taken later than a returned one |
| Timestamps.FormatOrder | agriconnect_farmers_portal.py:111 | for valid times the fixed-width "%Y-%m-%d %H:%M:%S" texts compare as the times do, and equal texts mean equal times |
| Timestamps.Format | agriconnect_farmers_portal.py:111 | the "%Y-%m-%d %H:%M:%S" text of a valid time is always 19 characters |
| Timestamps.DaysBeforeOrdered | agriconnect_dashboard_info_expand.py:167 | when k days back is representable so is every j < k days back, and it is strictly later |
| Timestamps.DaysBeforeFormatted | agriconnect_dashboard_info_expand.py:167 | the text of j days back is strictly above the text of k days back for j < k |
| FarmersPortal.PhlPrompt | agriconnect_farmers_portal.py:134-138 | the prompt is about the given crop (its two cases are stated by PhlPromptSpec) |
| FarmersPortal.PhlPromptSpec | agriconnect_farmers_portal.py:134-138 | warns iff temp > the crop's threshold, so the threshold itself is safe; a warning carries the temperature and the threshold |
| FarmersPortal.ThresholdSpec | agriconnect_farmers_portal.py:125-135 | of FarmersPortal.Threshold: the lookup ignores case, and a crop whose lower-case name is not in the table gets 26 |
| FarmersPortal.MaizeThreshold | agriconnect_farmers_portal.py:126 | maize, in any capitalisation, has threshold 27 |
| FarmersPortal.LowerIdempotent | agriconnect_farmers_portal.py:135 | lower-casing twice equals lower-casing once |
| Text.Lower | agriconnect_farmers_portal.py:135 | `str.lower` on ASCII: letters A-Z become a-z, every other character is kept, the length is kept |
| FarmersPortal.Store.SubmitFacility | agriconnect_farmers_portal.py:190-196 | the facility insert happens exactly when name and location are both non-empty; otherwise nothing changes |
| FarmersPortal.Store.SubmitCrop | agriconnect_farmers_portal.py:220-226 | the crop insert happens exactly when the crop name is non-empty; otherwise nothing changes |
| FarmersPortal.PromptEachCrop | agriconnect_farmers_portal.py:256-260 | the loop yields, in crop order, one prompt per crop from the same latest temperature |
| FarmersPortal.FacilitySection | agriconnect_farmers_portal.py:252-264 | the loop body for one facility returns that facility's section as defined by the tab's three cases |
| FarmersPortal.BuildSections | agriconnect_farmers_portal.py:252-264 | one section per facility, in facility order |
| FarmersPortal.Store.PromptsTab | agriconnect_farmers_portal.py:248-266 | the page defined by the user's facilities, their crops and newest logs; "Add a storage facility first." exactly when the user has no facility |
| FarmersPortal.NewestLogExists | agriconnect_farmers_portal.py:255 | of FarmersPortal.NewestLog: get_temp_logs(f, limit=1) yields a log exactly when the facility has logs |
| FarmersPortal.NewestLogIsNewest | agriconnect_farmers_portal.py:255 | that log belongs to the facility and no log of the facility is newer |
| FarmersPortal.NewestLogUnique | agriconnect_farmers_portal.py:255 | a log strictly newer than every other log of its facility is the one returned |
| FarmersPortal.CropsOfEmpty | agriconnect_farmers_portal.py:256 | a facility's crop list is empty exactly when no crop row carries its id |
| FarmersPortal.SectionForCases | agriconnect_farmers_portal.py:256-264 | of FarmersPortal.SectionFor: prompts exactly when the facility has crops and logs; "No temperature logs yet." when it has crops but no logs; "No crops in this facility." otherwise |
| FarmersPortal.SectionForPrompts | agriconnect_farmers_portal.py:256-260 | the prompts are one per crop of the facility, in crop order, each judged on the newest log's temperature |
| DemoSeeding.PopulateDemoFarmer | agriconnect_dashboard_info_expand.py:150-170 | the whole seeding call: users after INSERT OR IGNORE; one new facility and crop; the seven logs when the date arithmetic succeeds, none otherwise; the id counters afterwards (users +1 only when the demo user was new, facilities and crops +1, logs +7 or +0) |
| DemoSeeding.SeedUser | agriconnect_dashboard_info_expand.py:153-157 | INSERT OR IGNORE then the id look-up: the demo user is found and only the users table changes |
| DemoSeeding.SeedFacility | agriconnect_dashboard_info_expand.py:158-161 | one more "Demo Storage" row on every call; the id looked up is the first such facility |
| DemoSeeding.SeedFarm | agriconnect_dashboard_info_expand.py:158-169 | the facility, crop and log inserts together; users unchanged |
| DemoSeeding.StockFacility | agriconnect_dashboard_info_expand.py:162-169 | one "Maize" crop of quantity 25 appended to the looked-up facility, then the week of logs |
| DemoSeeding.LogDemoWeek | agriconnect_dashboard_info_expand.py:164-169 | the loop appends exactly the seven demo logs, or none when six days before now is out of range |
| DemoSeeding.LogDemoDay | agriconnect_dashboard_info_expand.py:166-168 | one turn of the loop appends exactly the i-th demo log |
| DemoSeeding.UserIdOf | agriconnect_dashboard_info_expand.py:156-157 | a returned id belongs to a user with that username |
| DemoSeeding.UserIdOfTaken | agriconnect_dashboard_info_expand.py:156-157 | once the username is taken the look-up finds an id |
| DemoSeeding.FacilityIdOf | agriconnect_dashboard_info_expand.py:160-161 | a returned id belongs to a facility of that user with that name |
| DemoSeeding.DemoUserExactlyOnce | agriconnect_dashboard_info_expand.py:41 | after seeding usernames remain unique and "demo_farmer" occurs exactly once; a repeated call leaves users unchanged |
| DemoSeeding.ReseedAddsFacility | agriconnect_dashboard_info_expand.py:158-161 | each call adds one more "Demo Storage" row for the user, but the look-up still returns the first one |
| DemoSeeding.DemoTemperature | agriconnect_dashboard_info_expand.py:166 | the loop temperature lies in [25, 28] |
| DemoSeeding.DemoTemperatureValues | agriconnect_dashboard_info_expand.py:165-166 | over range(7) the temperatures are 25, 26, 27, 28, 25, 26, 27 |
| DemoSeeding.DemoDayExists | agriconnect_dashboard_info_expand.py:167 | when six days back is representable, so is every later day of the loop |
| DemoSeeding.DemoLogs | agriconnect_dashboard_info_expand.py:165-168 | one call's logs number seven |
| DemoSeeding.DemoLogsUpToSpec | agriconnect_dashboard_info_expand.py:165-168 | after n turns exactly the first n demo logs have been produced |
| DemoSeeding.DemoLogsSpec | agriconnect_dashboard_info_expand.py:165-168 | seven logs with consecutive fresh ids, all for the demo facility, the i-th at 25 + i % 4 degrees, the last stamped now |
| DemoSeeding.DemoLogTime | agriconnect_dashboard_info_expand.py:167 | the i-th log is stamped 6 - i days before now |
| DemoSeeding.DemoDaysOrdered | agriconnect_dashboard_info_expand.py:167 | an earlier turn stamps a strictly earlier day text |
| DemoSeeding.DemoLogOrder | agriconnect_dashboard_info_expand.py:167-168 | log i's time text is strictly below log j's for i < j |
| DemoSeeding.DemoLogTimes | agriconnect_dashboard_info_expand.py:167-168 | the seven log times strictly increase |
| DemoSeeding.DemoLogsBeforeNow | agriconnect_dashboard_info_expand.py:167 | the first six logs are stamped strictly before now |
| DemoSeeding.DemoNewestIsSafe | agriconnect_dashboard_info_expand.py:141-168 | when older logs of the facility are not newer, the newest log is the one at now with 27 degrees, and that is safe for maize |
| Analytics.Idx | agriconnect_dashboard_info_expand.py:200 | a required column has a position in the header |
| Analytics.FilterFrame | agriconnect_dashboard_info_expand.py:218-222 | an order-preserving subsequence keeping each row exactly when region is selected, score is within the inclusive range and intervention is selected; multiplicities kept |
| Analytics.NonNull | agriconnect_dashboard_info_expand.py:203 | the dropna of a column: exactly its non-missing cells |
| Analytics.MinOf | agriconnect_dashboard_info_expand.py:204 | the minimum is an element and at most every element |
| Analytics.MaxOf | agriconnect_dashboard_info_expand.py:205 | the maximum is an element and at least every element |
| Analytics.DefaultSelection | agriconnect_dashboard_info_expand.py:203-215 | every distinct non-missing region and intervention, each once; the range is [min, max] and covers every score |
| Analytics.DefaultKeepsComplete | agriconnect_dashboard_info_expand.py:203-222 | under the default selection a row is kept exactly when its region, score and intervention are all present |
| Analytics.Analyze | agriconnect_dashboard_info_expand.py:200-240 | stops on an empty table or a missing required column, stops when the filter keeps nothing, fails (the uncaught KeyError of line 240) when rows are kept but there is no phl_risk_score column, else shows the non-empty filtered table, which then has that column |
| Analytics.ShownRowsComplete | agriconnect_dashboard_info_expand.py:218-226 | with options taken from dropna every shown row has region, score and intervention |
| Analytics.RegionCoords | agriconnect_dashboard_info_expand.py:260-268 | a listed region gets its table position, any other cell (9.0, 8.0) |
| Analytics.CoordinatesDistinct | agriconnect_dashboard_info_expand.py:260-268 | the fallback is used exactly for unlisted regions; listed regions get pairwise distinct positions |
| Analytics.DescendingPreorder | agriconnect_dashboard_info_expand.py:464 | nlargest's order (larger first, missing last) is a total preorder |
| Analytics.AscendingPreorder | agriconnect_dashboard_info_expand.py:470 | nsmallest's order (smaller first, missing last) is a total preorder |
| Analytics.NLargestSpec | agriconnect_dashboard_info_expand.py:464 | of Analytics.NLargest: min(n, len) rows taken from the table, sorted descending; every number kept is at least every number dropped |
| Analytics.NSmallestSpec | agriconnect_dashboard_info_expand.py:470 | of Analytics.NSmallest: min(n, len) rows taken from the table, sorted ascending; every number kept is at most every number dropped |
| Seqs.TopKSpec | agriconnect_dashboard_info_expand.py:464-470 | taking the first k of a stable sort: size min(k, n), a sub-multiset, sorted, and no dropped element ranks before a kept one |
| Seqs.DistinctSpec | phl_credit_streamlit_app.py:20 | `unique()`: every value of the column, each once |
| Seqs.SortSorted | phl_credit_streamlit_app.py:21 | `sorted(...)` under a total preorder yields a sorted sequence |
| Analytics.TopFarmers | agriconnect_dashboard_info_expand.py:463-467 | the top-ten table exists exactly when the farmer_id column exists and the phl_risk_score column its display selects (a KeyError otherwise) |
| Analytics.LowPhl | agriconnect_dashboard_info_expand.py:470 | the lowest-risk table exists exactly when phl_risk_score exists |
| Analytics.LeaderboardSizes | agriconnect_dashboard_info_expand.py:464-470 | both leaderboards have min(10, n) rows |
| Analytics.KeyCells | agriconnect_dashboard_info_expand.py:481 | the key cell of every row, in row order |
| Analytics.GroupCount | agriconnect_dashboard_info_expand.py:481-485 | one entry per distinct non-missing key, listed in strictly increasing key order as groupby sorts them, each key present in the rows, paired with the number of its rows whose counted cell is present |
| Analytics.GroupKeys | agriconnect_dashboard_info_expand.py:481-485 | the group keys are exactly the non-missing key cells, without repeats, in strictly increasing order |
| Analytics.Tally | agriconnect_dashboard_info_expand.py:481-485 | one (key, count) pair per key, in key order; the count is the number of rows with that key whose counted cell is present |
| Analytics.TallyTotal | agriconnect_dashboard_info_expand.py:481-485 | with distinct keys the per-key counts add up to the count over all those keys |
| Analytics.GroupCountTotal | agriconnect_dashboard_info_expand.py:481-485 | the group counts add up to the number of rows whose key and counted cell are both present |
| Analytics.InterventionCounts | agriconnect_dashboard_info_expand.py:481-485 | the intervention table exists exactly when the phl_risk_score column its agg averages exists (a KeyError otherwise) |
| Analytics.InterventionCountsSum | agriconnect_dashboard_info_expand.py:481-485 | on a shown page the intervention table exists and its per-intervention counts add up to the number of filtered rows |
| Frames.LeftMerge | phl_credit_pipeline.py:12 | the merge fails (KeyError) exactly when `on` is not a column of both tables |
| Frames.MergeKeepsLeft | phl_credit_pipeline.py:12 | a left merge has at least one row per left row; its rows are exactly the left rows joined to each right row with equal keys (that row's non-key cells appended), or padded with missing cells when none matches |
| Frames.MergeUniqueRight | phl_credit_pipeline.py:12 | with unique keys on the right, exactly one output row per left row, in left order: the left row followed by the matching right row's non-key cells, or by missing cells when no right row matches |
| Frames.MergeLeftColumn | phl_credit_pipeline.py:12 | with unique right keys and only key names shared, a left column comes through the merge unchanged |
| Frames.MergeRightColumn | phl_credit_pipeline.py:12 | with unique right keys, a right non-key column holds for each left row the value of the right row with equal keys, or a missing cell when there is none |
| Frames.MergedColumnsNoClash | check_and_fix_integrated_csv.py:38 | when the two tables share only the key columns, the merged header holds exactly the left columns and the right non-key columns |
| PhlCreditPipeline.FillDefaults | phl_credit_pipeline.py:15-17 | the fills succeed exactly when the three columns exist, and keep columns and row count |
| Frames.FillMean | phl_credit_pipeline.py:15 | fillna(mean) replaces exactly the missing cells of the column with the mean of its numbers |
| PhlCreditPipeline.RiskScoreFilled | phl_credit_pipeline.py:15 | present risk scores are unchanged, missing ones equal the mean of the present ones, and none stay missing when one was present |
| Frames.MeanExists | phl_credit_pipeline.py:15 | the mean exists exactly when the column has a number |
| Frames.FillMeanBounds | phl_credit_pipeline.py:15 | if the numbers of a column lie in [lo, hi] so does every number after the mean fill |
| PhlCreditPipeline.RiskScoreBounded | phl_credit_pipeline.py:15 | if every present risk score lies in [lo, hi], every filled risk score does too |
| PhlCreditPipeline.ZeroFilled | phl_credit_pipeline.py:16-17 | the loss and interventions columns: present values unchanged, missing ones 0, none left missing |
| Frames.FillNaComplete | phl_credit_pipeline.py:16-17 | filling with a non-missing value leaves no missing cell |
| Frames.CatCodes | phl_credit_pipeline.py:20-24 | one code per cell |
| Frames.CodeRange | phl_credit_pipeline.py:20-24 | a missing cell gets -1, any other cell a code in 0..k-1 for k distinct values |
| Frames.CodeOrder | phl_credit_pipeline.py:20-24 | codes follow the sorted order of the categories |
| Frames.CodesInjective | phl_credit_pipeline.py:20-24 | two cells get equal codes exactly when they are equal |
| PhlCreditPipeline.CodeCells | phl_credit_pipeline.py:20-24 | the code column has one numeric cell per code |
| PhlCreditPipeline.Encode | phl_credit_pipeline.py:20 | encoding succeeds exactly when the column exists, replaces it with its category codes and keeps the shape |
| PhlCreditPipeline.EncodeOthers | phl_credit_pipeline.py:20 | encoding one column leaves every other column as it was |
| PhlCreditPipeline.EncodeAll | phl_credit_pipeline.py:20-24 | the five encodings succeed exactly when all five columns exist, and keep the shape |
| PhlCreditPipeline.EncodeAllOthers | phl_credit_pipeline.py:20-24 | a column that is not encoded comes out as it went in |
| PhlCreditPipeline.EncodedColumn | phl_credit_pipeline.py:20-24 | each encoded column holds the category codes of that column before encoding |
| PhlCreditPipeline.PrepareKeepsCredit | phl_credit_pipeline.py:12-24 | of PhlCreditPipeline.Prepare: merge, fills and encodings keep at least one row per credit row, exactly one when the PHL farmer ids are unique |
| PhlCreditPipeline.MergedFromPhl | phl_credit_pipeline.py:12 | after the merge, a PHL column holds for each credit row the PHL row's value with the same farmer_id, or a missing cell when no PHL row has it |
| PhlCreditPipeline.MatchedPhl | phl_credit_pipeline.py:12-17 | a credit row whose farmer_id has a PHL row with a present value gets that value in the prepared table |
| PhlCreditPipeline.UnmatchedPhl | phl_credit_pipeline.py:12-17 | a credit row with no PHL row gets the mean merged risk score, and 0 for losses and interventions |
| PhlCreditPipeline.YProba | phl_credit_pipeline.py:48-53 | one probability per test row |
| PhlCreditPipeline.YProbaSingleClass | phl_credit_pipeline.py:49-53 | with a single class the vector is constant: all 0 if that class is 1, else all 1 |
| PhlCreditPipeline.PredictedScores | phl_credit_pipeline.py:78 | each row's score is the class-1 probability with two classes, else column 0 |
| Frames.Project | phl_credit_pipeline.py:31 | selecting columns fails exactly when one is absent; otherwise exactly those columns with the same rows |
| Frames.ProjectColumn | phl_credit_pipeline.py:79 | a selected column keeps its values |
| PhlCreditPipeline.Export | phl_credit_pipeline.py:78-79 | succeeds exactly when every output column other than the score is in the table; then exactly output_cols, in order, one row per row, the score column holds the scores and every other column is the table's column |
| PhlCreditPipeline.Pipeline | phl_credit_pipeline.py:12-79 | a result means preparation, feature selection and the label lookup of line 32 succeeded; exactly output_cols, one row per prepared row |
| PhlCreditPipeline.PipelineOutput | phl_credit_pipeline.py:73-79 | the export has exactly output_cols, at least one row per credit row, exactly one when PHL ids are unique |
| PhlCreditPipeline.PipelineScores | phl_credit_pipeline.py:78 | the exported score column is the classifier's score of each prepared row's features |
| Grouping.KeyTuples | farmer_credit_scoring.py:16-17 | the key cells of every row, in row order |
| Grouping.Groups | farmer_credit_scoring.py:16-17 | the distinct key tuples without a missing key, each once (in order of first appearance) |
| Grouping.GroupValues | farmer_credit_scoring.py:16-17 | one value per row whose key tuple matches |
| Grouping.GroupMean | farmer_credit_scoring.py:16-17 | groupby(keys)[value].mean(): fails exactly when a column is absent; the columns are the keys then the value; one row per distinct complete key tuple |
| Grouping.GroupMeanRows | farmer_credit_scoring.py:16-17 | each output row is a complete key tuple of the input followed by its group's mean, and every complete key tuple has an output row |
| Grouping.GroupMeanUnique | farmer_credit_scoring.py:16-17 | with distinct key names other than the value, the grouped table has unique keys |
| Grouping.MergeGroupMean | farmer_credit_scoring.py:16-18 | a left merge onto the grouped means gives each left row the mean value of the rows with its key cells, or a missing cell when there are none |
| Grouping.MergeGroupMeanColumns | farmer_credit_scoring.py:16-18 | the merge onto a grouped table adds only the value column |
| FarmerCreditScoring.GroupedByRegionCrop | farmer_credit_scoring.py:16-17 | a table grouped by (region, crop_type) has those columns and one row per pair |
| FarmerCreditScoring.RegionCropKeys | farmer_credit_scoring.py:16-19 | the grouping keys are two distinct names, neither a grouped value |
| FarmerCreditScoring.MergeGrouped | farmer_credit_scoring.py:18-19 | when the two grouped merges succeed the table has at least one row per farmer |
| FarmerCreditScoring.MergeAll | farmer_credit_scoring.py:18-20 | when the three merges succeed the table has at least one row per farmer |
| FarmerCreditScoring.GroupedMergesKeepFarmers | farmer_credit_scoring.py:18-19 | with unique grouped keys the two merges keep exactly one row per farmer, in order, each starting with the farmer's row |
| FarmerCreditScoring.GroupedMeansOfFarmer | farmer_credit_scoring.py:16-19 | after the two merges each farmer's yield is the mean yield of the crop rows with its (region, crop_type), and its loss_rate the mean of the loss rows with that pair; missing when there are none |
| FarmerCreditScoring.PrefixChain | farmer_credit_scoring.py:18-19 | two merges that each extend rows keep the first table's rows as prefixes |
| FarmerCreditScoring.MergeAllKeepsFarmers | farmer_credit_scoring.py:18-20 | with unique grouped keys at least one row per farmer, exactly one when the loan table lists each farmer once |
| FarmerCreditScoring.GroupedMergeKeepsFarmers | farmer_credit_scoring.py:16-20 | the same for the merges onto the grouped tables the function builds |
| FarmerCreditScoring.PreprocessKeepsFarmers | farmer_credit_scoring.py:15-31 | preprocess_data keeps at least one row per farmer, exactly one when the loan table lists each farmer once |
| FarmerCreditScoring.Preprocess | farmer_credit_scoring.py:15-31 | a result holds a well-formed cleaned table |
| FarmerCreditScoring.PreprocessSteps | farmer_credit_scoring.py:15-31 | a result means both groupings and the three merges succeeded, and the cleaned table has the merged table's rows |
| FarmerCreditScoring.Clean | farmer_credit_scoring.py:21-30 | a cleaned table has one row per merged row |
| FarmerCreditScoring.Filled | farmer_credit_scoring.py:21-22 | the two mean fills keep the columns and the row count |
| FarmerCreditScoring.FilledOthers | farmer_credit_scoring.py:21-22 | the mean fills touch only yield and loss_rate |
| FarmerCreditScoring.CleanSteps | farmer_credit_scoring.py:21-30 | the cleaned table is the zero fill of the encodings of the mean fills |
| FarmerCreditScoring.CleanNoMissing | farmer_credit_scoring.py:30 | after fillna(0) no cell is missing |
| Frames.FillAll | farmer_credit_scoring.py:30 | fillna(v) on a whole table replaces exactly the missing cells |
| Frames.FillAllColumn | farmer_credit_scoring.py:30 | each column of the filled table is that column filled |
| FarmerCreditScoring.MeanThenZeroFill | farmer_credit_scoring.py:21-22 | after mean fill then zero fill a number is kept and a missing cell gets the mean, or 0 when there is none |
| FarmerCreditScoring.YieldFilled | farmer_credit_scoring.py:21 | missing yields get the mean yield before the zero fill; present ones are kept |
| FarmerCreditScoring.LossRateFilled | farmer_credit_scoring.py:22 | missing loss rates get the mean loss rate before the zero fill; present ones are kept |
| Frames.MapColumn | farmer_credit_scoring.py:23-29 | Series.map(table) writes the codes of the source column into the target and keeps the rows |
| Frames.MapCodesSpec | farmer_credit_scoring.py:23-29 | a string in the table gets its code, anything else missing |
| FarmerCreditScoring.Targets | farmer_credit_scoring.py:23-29 | the encoded column names, in order |
| FarmerCreditScoring.EncodeAll | farmer_credit_scoring.py:23-29 | the encodings applied in order keep the row count |
| FarmerCreditScoring.EncodeAllDefined | farmer_credit_scoring.py:23-29 | the encodings fail only on a missing source column, and every column is kept |
| FarmerCreditScoring.EncodeAllOthers | farmer_credit_scoring.py:23-29 | a column no encoding targets comes out unchanged |
| FarmerCreditScoring.SeparateTail | farmer_credit_scoring.py:23-29 | dropping the first encoding keeps the others separate |
| FarmerCreditScoring.EncodedColumn | farmer_credit_scoring.py:23-29 | each target holds the codes of its source as it was before the encodings |
| FarmerCreditScoring.EncodeFirst | farmer_credit_scoring.py:23 | the table after the first encoding, from which the other encodings succeed |
| FarmerCreditScoring.EncodedFirst | farmer_credit_scoring.py:23-29 | the first encoding's column survives the later ones |
| FarmerCreditScoring.EncodedLater | farmer_credit_scoring.py:24-29 | a later encoding reads its source unchanged by the earlier ones |
| FarmerCreditScoring.EncodingsSeparate | farmer_credit_scoring.py:23-29 | no encoding writes a column another one reads, or writes a column twice |
| FarmerCreditScoring.EncodedFeature | farmer_credit_scoring.py:23-30 | each encoded feature is the lookup code of the merged value, and 0 for an unknown or missing value |
| FarmerCreditScoring.Triggers | farmer_credit_scoring.py:53-68 | one flag per advice message |
| FarmerCreditScoring.Chosen | farmer_credit_scoring.py:51-68 | every chosen message is one of the messages |
| FarmerCreditScoring.AppendFired | farmer_credit_scoring.py:51-68 | the eight conditional appends collect exactly the chosen messages |
| FarmerCreditScoring.CollectedChosen | farmer_credit_scoring.py:51-68 | after k rules the list holds the chosen messages among the first k |
| FarmerCreditScoring.CollectedAll | farmer_credit_scoring.py:51-68 | after all rules the list holds the chosen messages |
| FarmerCreditScoring.ChosenStep | farmer_credit_scoring.py:53-68 | one more rule appends its message exactly when it fires |
| FarmerCreditScoring.ChosenMembers | farmer_credit_scoring.py:53-68 | with distinct messages a message is chosen exactly when its rule fires |
| FarmerCreditScoring.ChosenInOrder | farmer_credit_scoring.py:53-68 | the chosen messages keep the rule order |
| FarmerCreditScoring.GetAdvice | farmer_credit_scoring.py:50-69 | the text is the advice text: the encouragement when no advice applies, else the advice joined by single spaces |
| FarmerCreditScoring.ScoreAdvice | farmer_credit_scoring.py:89 | the advice for a row is computed against the means of the grouped tables' yield and loss_rate columns |
| FarmerCreditScoring.AdviceAgainstGroupedMeans | farmer_credit_scoring.py:53-56 | below 60 the yield message is given exactly when the yield is under the grouped tables' mean yield, the loss message exactly when the loss rate is over their mean loss rate |
| FarmerCreditScoring.GoodScoreEncouraged | farmer_credit_scoring.py:52-69 | a score of 60 or more always gets the encouragement |
| FarmerCreditScoring.AdviceRules | farmer_credit_scoring.py:52-68 | of FarmerCreditScoring.Advice: below 60 each message is in the advice exactly when its rule fires, and in rule order |
| FarmerCreditScoring.MessagesDistinct | farmer_credit_scoring.py:54-68 | the eight messages are distinct and each is longer than the encouragement |
| FarmerCreditScoring.JoinedAdviceNotKeepUp | farmer_credit_scoring.py:69 | advice that starts with one of the messages never joins to the encouragement |
| FarmerCreditScoring.EncouragedIffNothingApplies | farmer_credit_scoring.py:51-69 | the encouragement exactly when the score is 60 or more or no rule fires |
| CreditApp.GetRecommendation | phl_credit_streamlit_app.py:39-47 | credit >= 0.7 and risk <= 0.4 favorable; credit >= 0.7 and risk > 0.4 high risk; credit < 0.5 improve; 0.5 <= credit < 0.7 consider |
| CreditApp.RecommendationBands | phl_credit_streamlit_app.py:39-47 | for present scores each answer is given exactly when its band holds, so exactly one applies |
| CreditApp.RecommendationIgnoresInterventions | phl_credit_streamlit_app.py:39 | the interventions argument never changes the answer |
| CreditApp.MissingScoreConsiders | phl_credit_streamlit_app.py:39-47 | a NaN credit score, or a NaN risk with credit not below 0.5, falls through to "consider" |
| CreditApp.Ids | phl_credit_streamlit_app.py:20 | the farmer_id column |
| CreditApp.StrLeTotalPreorder | phl_credit_streamlit_app.py:21 | string order is a total preorder |
| CreditApp.FarmerChoicesSpec | phl_credit_streamlit_app.py:20-21 | of CreditApp.FarmerChoices: the choices are the table's farmer ids, each once, in strictly increasing order |
| CreditApp.SelectedRow | phl_credit_streamlit_app.py:22 | a selected row is a row of the table with the chosen id |
| CreditApp.SelectedRowFirst | phl_credit_streamlit_app.py:22 | a row is selected exactly when some row has the id, and it is the first such row |
| CreditApp.ChoiceSelectsRow | phl_credit_streamlit_app.py:20-22 | every offered id selects a row carrying that id |
| CreditApp.RecommendationFor | phl_credit_streamlit_app.py:22-52 | a recommendation is shown exactly when the selected row exists and its interventions value is present (int(NaN) raises first); it is the recommendation for that row's scores |
| CreditApp.ChoiceRecommended | phl_credit_streamlit_app.py:20-52 | every id offered in the picker gets a recommendation when no interventions value is missing, computed from the first row with that id |
| TrainExport.StripColumns | train_and_export_model.py:8 | each header is replaced by its stripped name, in place |
| Text.Strip | train_and_export_model.py:8 | the result is a slice of the input with no blank at either end, and everything cut off on either side is blank |
| Text.StripUnchanged | train_and_export_model.py:8 | a name without outer blanks is left as it is |
| Text.StripIdempotent | train_and_export_model.py:8 | stripping twice equals stripping once |
| TrainExport.StripColumnsIdempotent | train_and_export_model.py:8 | stripping headers twice equals once; no header keeps an outer blank |
| TrainExport.Lookup | train_and_export_model.py:12-30 | a code exactly for a present value that is in the table |
| TrainExport.PhoneCodeSpec | train_and_export_model.py:19-20 | only 'Basic phone', 'Feature phone' and 'Smartphone' get a phone code, and code 2 exactly for 'Smartphone' |
| TrainExport.Creditworthy | train_and_export_model.py:38-43 | the label is 0 or 1 |
| TrainExport.CreditworthyIff | train_and_export_model.py:38-43 | label 1 exactly for tertiary education, a 'Smartphone', full financial access and cooperative membership |
| TrainExport.MissingCodeNotCreditworthy | train_and_export_model.py:38-43 | a missing code in any of the four fields gives 0 |
| TrainExport.Labels | train_and_export_model.py:38-43 | one label per row, the label of that row |
| TrainExport.Features | train_and_export_model.py:46-60 | eleven features, the k-th being the row's value under the k-th name of feature_cols |
| TrainExport.FeaturesExcludeLabel | train_and_export_model.py:46-58 | the label and the raw category columns are not features |
| TrainExport.LabelColumn | train_and_export_model.py:38-61 | the label column y holds each row's label |
| TrainExport.GeneratedNeverCreditworthy | train_and_export_model.py:19-20 | for phone types 'Basic', 'Feature', 'Smart' every label is 0 |
| TrainExport.GeneratedCreditworthyIff | train_and_export_model.py:19-20 | with the generator's phone vocabulary the label is 1 exactly for tertiary, 'Smart', full access and cooperative member |
| CsvRepair.MissingSpec | check_and_fix_integrated_csv.py:17 | of CsvRepair.Missing: missing is a subsequence of the required columns (so in required order) holding exactly those the file lacks |
| CsvRepair.Constant | check_and_fix_integrated_csv.py:42-49 | a column of n copies of the default |
| CsvRepair.KeepOrDefault | check_and_fix_integrated_csv.py:42-49 | df.get(name, default) assigned back: the column is present afterwards and the row count is kept |
| CsvRepair.FillStep | check_and_fix_integrated_csv.py:41-49 | one conditional assignment keeps the row count |
| CsvRepair.FillDefaults | check_and_fix_integrated_csv.py:41-49 | the assignments in order keep the row count |
| CsvRepair.Names | check_and_fix_integrated_csv.py:41-49 | the defaulted names, in order |
| CsvRepair.FillDefaultsSpec | check_and_fix_integrated_csv.py:41-49 | existing columns keep their values; exactly the missing names absent from the table are added, each with its default |
| CsvRepair.FillMissing | check_and_fix_integrated_csv.py:41-49 | the four assignments give the table of the four steps in order |
| CsvRepair.DefaultsUnfold | check_and_fix_integrated_csv.py:41-49 | the fold over the defaults is the four steps one after another |
| CsvRepair.DefaultsCoverRequired | check_and_fix_integrated_csv.py:41-49 | the defaulted names are exactly the four required names, each once |
| CsvRepair.CheckAndFix | check_and_fix_integrated_csv.py:7-54 | nothing is written exactly when the file is absent, nothing is missing or a source is absent; a failing merge (no farmer_id) is an error; otherwise the rebuilt table is written |
| CsvRepair.FixedSpec | check_and_fix_integrated_csv.py:38-52 | a written table keeps at least one row per credit row (exactly one with unique PHL ids) and holds every column reported missing |
| CsvRepair.FixDropsPresentColumn | check_and_fix_integrated_csv.py:14-52 | a required column in the file but in neither source is absent from the written table |
| CsvRepair.FixDropsScoreExample | check_and_fix_integrated_csv.py:14-52 | concrete tables where the rewrite loses predicted_credit_score |
| CsvRepair.CheckAndFixAll | check_and_fix_integrated_csv.py:38-52 | the corrected fix writes exactly when the original does and otherwise gives the same outcome |
| CsvRepair.FixAllKeepsRequired | check_and_fix_integrated_csv.py:38-52 | the corrected table has every required column, keeps every merged column's values and the credit rows |
| CsvRepair.FixAllWritten | check_and_fix_integrated_csv.py:9-32 | the corrected written table is the rebuilt table with every required column defaulted, and the rebuilt table keeps the credit rows |
| SchemaRepair.ColumnNames | add_required_columns_to_farmers.py:17 | one name per column |
| SchemaRepair.Existing | add_required_columns_to_farmers.py:15-17 | the table's column names in order, or none when the table does not exist |
| SchemaRepair.Database.constructor | add_required_columns_to_farmers.py:20 | a connection to a database holding the given tables |
| SchemaRepair.Database.ExistingColumns | add_required_columns_to_farmers.py:15-17 | the table's column names in order, or none for an absent table |
| SchemaRepair.Database.AddColumn | add_required_columns_to_farmers.py:27-31 | the ALTER TABLE succeeds exactly when the table exists and has no column of that name ignoring case; it then appends the column, else changes nothing |
| SchemaRepair.Database.AddMissingColumns | add_required_columns_to_farmers.py:19-36 | the tables, added list and printed reports are those of the loop over the required columns |
| SchemaRepair.Database.AddEach | add_required_columns_to_farmers.py:24-33 | the for loop produces the run over the required columns |
| SchemaRepair.Database.AddOne | add_required_columns_to_farmers.py:25-33 | one turn: the state after one step of the loop body |
| SchemaRepair.RunReports | add_required_columns_to_farmers.py:24-33 | of SchemaRepair.Run and its loop body SchemaRepair.Step: one report per required column in order, "already exists" exactly when it was in the list read before the loop, "added" with its declared type |
| SchemaRepair.RunOtherTables | add_required_columns_to_farmers.py:24-33 | no table is created or dropped and other tables are untouched |
| SchemaRepair.RunTables | add_required_columns_to_farmers.py:24-29 | of SchemaRepair.Run and SchemaRepair.Step: old columns keep their order; the new ones follow, named by added, each required with its declared type and absent from the list read |
| SchemaRepair.MissingTableFails | add_required_columns_to_farmers.py:30-31 | without the table every column fails and is reported, the loop continues, nothing is added |
| SchemaRepair.RunWithoutFailures | add_required_columns_to_farmers.py:22-29 | without failures exactly the absent required columns are appended, in declared order with declared types, and added lists their names |
| SchemaRepair.LastStep | add_required_columns_to_farmers.py:24-29 | the loop step for the last column without failures |
| SchemaRepair.NoFailuresPrefix | add_required_columns_to_farmers.py:24-33 | the no-failure condition holds for every prefix |
| SchemaRepair.NoClashWithEarlier | add_required_columns_to_farmers.py:24-29 | the next column clashes with neither old nor newly added columns |
| SchemaRepair.AllPresentAfterRun | add_required_columns_to_farmers.py:24-33 | without failures every required column is present afterwards |
| SchemaRepair.RunAllExisting | add_required_columns_to_farmers.py:32-33 | when every column was in the list, nothing changes and nothing is added |
| SchemaRepair.SecondRunAddsNothing | add_required_columns_to_farmers.py:24-33 | a second run adds nothing, leaves the schema and reports every column as existing |
| SchemaRepair.RequiredNamesDistinct | add_required_columns_to_farmers.py:3-10 | the six required names differ even ignoring case |
| SchemaRepair.ScriptAddsMissing | add_required_columns_to_farmers.py:3-36 | on a farmers table with no case-variant clash the script adds exactly the lacking required columns and then all are present |

## Left out

- Streamlit rendering is not modelled: pages, tabs, insight cards, charts, maps,
  metrics formatting, `st.stop` beyond the point where it ends the computation, and
  session navigation. The prompt texts are modelled as a datatype, not as formatted
  strings.
- The SQLite engine is replaced by in-memory sequences: connections, commits and
  closing are left out. Table semantics follow the SQL text. A `SELECT` without
  `ORDER BY` returns rows in rowid order. Ties in `ORDER BY log_time DESC` keep rowid
  order; SQLite does not promise that.
- File I/O is left out. Reading and writing CSV files is modelled as frames passed in
  and returned. A file's existence is modelled as an `Option`.
- The RandomForest classifier is an uninterpreted parameter: `fit`, `predict`,
  `predict_proba` internals, `train_test_split`, metrics, feature importances and `joblib`
  export are left out. So are the `round(..., 1)` of the credit score, the printing and
  the plot.
- Floating point is not modelled: scores and means are exact reals. NaN is `Null` in a
  frame and `None` elsewhere, and a comparison with it is false.
- `datetime.now()` is a parameter. `timedelta` subtraction is modelled on the
  Gregorian calendar for years 1 to 9999.
- `prepare_sample_weather_csv` in the seeding button is left out: it writes a file only.
- The random data generators are not part of this model. Neither are the other
  dashboard copies of the store and filter: they repeat the modelled code.
- Python's `str.lower` is modelled on ASCII letters only. `str.strip` is modelled on
  the ASCII characters Python strips: blank, `\t`, `\n`, `\v`, `\f`, `\r` and the
  separators `\x1c`-`\x1f`. Non-ASCII whitespace (such as U+0085 or U+00A0) is not
  modelled.
- Frames.Mean: cells that are text are skipped. pandas raises a TypeError for the mean
  of a column that mixes numbers and strings; that error is not modelled.
- Analytics.MinOf, Analytics.MaxOf: the slider range is taken over the numeric cells of
  the score column, skipping text. pandas `min()`/`max()` raise a TypeError on a column
  that mixes numbers and strings; that error is not modelled.
- Text.Pad: years below 1000 are zero-padded to four digits. What `%Y` prints for such
  years depends on the platform's `strftime`; the model fixes the padded form.
- Grouping.Groups: the groups are listed in order of first appearance; pandas sorts
  them. The grouped tables are read only through left merges on their unique keys, and
  those results do not depend on the order.
- `register` (agriconnect_farmers_portal.py:163-167) only calls `add_user`. It is
  covered by `Store.AddUser`.
- SchemaRepair.Database.AddColumn: an `OperationalError` is modelled only for a missing
  table and for a name that clashes ignoring case. Other SQLite failures (a locked or
  read-only database) are not modelled.
- SchemaRepair.RunWithoutFailures and SchemaRepair.AllPresentAfterRun: proved under the
  no-failure condition (the table exists and no name clashes ignoring case). They state
  nothing about a run that meets an error midway. What such a run does is stated by
  SchemaRepair.RunReports and SchemaRepair.RunTables.
- CsvRepair.CheckAndFix: the preview print of line 54 runs after the file is written
  and is not modelled. When the rewritten file lacks a required column (see
  "## Findings"), that print raises a KeyError; the outcome is still `Fixed`, which is
  what happened to the file.
- PhlCreditPipeline.YProba: the test rows are a parameter. The random split of lines
  35-37 that chooses them is not modelled.

## Findings

| source | as written | input that shows it | evidently intended | confidence | as-written member | corrected member |
|---|---|---|---|---|---|---|
| check_and_fix_integrated_csv.py:14-52 | `missing` is computed against the old file, but the file is then replaced by the merge of the two sources, and only the columns in `missing` are filled; the rewritten file lacks a required column, and the preview at line 54 then raises a KeyError after the file is written | the file has predicted_credit_score but lacks interventions_adopted, and neither source has predicted_credit_score | every required column is present in the rewritten file | not executed | CsvRepair.FixDropsPresentColumn | CsvRepair.FixAllKeepsRequired |
| train_and_export_model.py:19-20 | phone_map recognises 'Basic phone', 'Feature phone' and 'Smartphone', and the label of lines 38-43 needs code 2 | rows with phone_type 'Basic', 'Feature' or 'Smart', the vocabulary the scoring script maps (farmer_credit_scoring.py:24): every phone code is missing and every label is 0 | the label can be 1 for tertiary, smartphone, full-access cooperative members | not executed | TrainExport.GeneratedNeverCreditworthy | TrainExport.GeneratedCreditworthyIff |
| agriconnect_farmers_portal.py:53-56 | get_user skips the password test when the password is falsy, and the login at line 153 passes the typed text | a registered username with an empty password field | login succeeds only with the stored password | not executed | FarmersPortal.EmptyPasswordLogsIn | FarmersPortal.CheckedLoginNeedsPassword |


=== FILE: analytics.dfy ===
/**
 * The analytics page of the dashboard: the sidebar filter over the farmers table
 * (selected regions, an inclusive credit-score range, selected interventions), the
 * checks that stop the page early, the region-to-coordinate fallback of the map,
 * the two leaderboards and the per-intervention row count.
 */
module Analytics {
  import opened Wrappers
  import opened Seqs
  import opened Frames

  const RegionCol := "region"
  const ScoreCol := "predicted_credit_score"
  const InterventionCol := "interventions_adopted"
  const PhlCol := "phl_risk_score"
  const FarmerIdCol := "farmer_id"

  /** The cell at position `k`, missing when the row is too short. */
  function CellAt(row: Row, k: nat): Cell {
    if k < |row| then row[k] else Null
  }

  /** The three columns the page cannot work without. */
  predicate HasRequired(f: Frame) {
    RegionCol in f.columns && ScoreCol in f.columns && InterventionCol in f.columns
  }

  function Idx(f: Frame, name: string): (k: nat)
    requires name in f.columns
    ensures k < |f.columns| && f.columns[k] == name
  {
    IndexOf(f.columns, name).value
  }

  // ---------------------------------------------------------------- the filter

  /**
   * The sidebar state. `range` is None when the score bounds are NaN (a score column
   * without a single number), which no comparison satisfies.
   */
  datatype Selection = Selection(regions: seq<Cell>, range: Option<(real, real)>, interventions: seq<Cell>)

  /** `Series.between(lo, hi)`: a number within the inclusive bounds. */
  predicate Between(c: Cell, range: Option<(real, real)>) {
    c.Num? && range.Some? && range.value.0 <= c.n <= range.value.1
  }

  /** The row mask: region selected, score in range, intervention selected. */
  predicate Keep(row: Row, ri: nat, si: nat, ii: nat, sel: Selection) {
    CellAt(row, ri) in sel.regions && Between(CellAt(row, si), sel.range) && CellAt(row, ii) in sel.interventions
  }

  /** The mask for a frame that has the required columns. */
  predicate Kept(f: Frame, sel: Selection, row: Row)
    requires HasRequired(f)
  {
    Keep(row, Idx(f, RegionCol), Idx(f, ScoreCol), Idx(f, InterventionCol), sel)
  }

  /**
   * `df[mask]`: the rows the mask keeps, each as often as it occurs, in their
   * original order, under the original columns.
   */
  function FilterFrame(f: Frame, sel: Selection): (r: Frame)
    requires HasRequired(f)
    ensures r.columns == f.columns
    ensures IsSubseq(r.rows, f.rows)
    ensures forall row :: row in r.rows <==> row in f.rows && Kept(f, sel, row)
    ensures forall row :: multiset(r.rows)[row] == if Kept(f, sel, row) then multiset(f.rows)[row] else 0
    ensures Rectangular(f) ==> Rectangular(r)
  {
    var ri, si, ii := Idx(f, RegionCol), Idx(f, ScoreCol), Idx(f, InterventionCol);
    var p := (row: Row) => Keep(row, ri, si, ii, sel);
    FilterSpec(f.rows, p);
    var rows := Filter(f.rows, p);
    assert Rectangular(f) ==> forall i :: 0 <= i < |rows| ==> |rows[i]| == |f.columns| by {
      if Rectangular(f) {
        forall i | 0 <= i < |rows| ensures |rows[i]| == |f.columns| {
          assert rows[i] in f.rows;
        }
      }
    }
    Frame(f.columns, rows)
  }

  // ---------------------------------------------------------------- default selection

  function NonNull(col: seq<Cell>): (r: seq<Cell>)
    ensures forall c :: c in r <==> c in col && !c.Null?
  {
    FilterMembers(col, (c: Cell) => !c.Null?);
    Filter(col, (c: Cell) => !c.Null?)
  }

  /** The smallest number (`Series.min()` once missing values are skipped). */
  function MinOf(xs: seq<real>): (m: real)
    requires xs != []
    ensures m in xs && forall x :: x in xs ==> m <= x
  {
    if |xs| == 1 then xs[0]
    else
      var rest := MinOf(xs[1..]);
      assert forall x :: x in xs ==> x == xs[0] || x in xs[1..];
      if xs[0] <= rest then xs[0] else rest
  }

  /** The largest number (`Series.max()` once missing values are skipped). */
  function MaxOf(xs: seq<real>): (m: real)
    requires xs != []
    ensures m in xs && forall x :: x in xs ==> x <= m
  {
    if |xs| == 1 then xs[0]
    else
      var rest := MaxOf(xs[1..]);
      assert forall x :: x in xs ==> x == xs[0] || x in xs[1..];
      if xs[0] >= rest then xs[0] else rest
  }

  /**
   * The selection the page opens with: every non-missing region and intervention
   * in order of first appearance, and the score column's [min, max].
   */
  function DefaultSelection(f: Frame): (sel: Selection)
    requires Rectangular(f) && HasRequired(f)
    ensures NoDup(sel.regions) && NoDup(sel.interventions)
    ensures forall c :: c in sel.regions <==> c in Column(f, RegionCol).value && !c.Null?
    ensures forall c :: c in sel.interventions <==> c in Column(f, InterventionCol).value && !c.Null?
    ensures sel.range.Some? <==> Nums(Column(f, ScoreCol).value) != []
    ensures sel.range.Some? ==> forall x :: Num(x) in Column(f, ScoreCol).value ==> sel.range.value.0 <= x <= sel.range.value.1
  {
    var regions := NonNull(Column(f, RegionCol).value);
    var interventions := NonNull(Column(f, InterventionCol).value);
    var scores := Nums(Column(f, ScoreCol).value);
    DistinctSpec(regions);
    DistinctSpec(interventions);
    NumsMembers(Column(f, ScoreCol).value);
    Selection(Distinct(regions),
              if scores == [] then None else Some((MinOf(scores), MaxOf(scores))),
              Distinct(interventions))
  }

  /** No missing value is selectable: the options come from `dropna()`. */
  predicate ValidSelection(sel: Selection) {
    Null !in sel.regions && Null !in sel.interventions
  }

  /** A row with a region, a numeric score and an intervention. */
  predicate Complete(f: Frame, row: Row)
    requires HasRequired(f)
  {
    !CellAt(row, Idx(f, RegionCol)).Null? && CellAt(row, Idx(f, ScoreCol)).Num? &&
    !CellAt(row, Idx(f, InterventionCol)).Null?
  }

  /** Under the default selection a row of the table is kept exactly when it is complete. */
  lemma DefaultKeepsComplete(f: Frame, row: Row)
    requires Rectangular(f) && HasRequired(f) && row in f.rows
    ensures ValidSelection(DefaultSelection(f))
    ensures Kept(f, DefaultSelection(f), row) <==> Complete(f, row)
  {
    var sel := DefaultSelection(f);
    var i :| 0 <= i < |f.rows| && f.rows[i] == row;
    assert |row| == |f.columns|;
    var ri, si, ii := Idx(f, RegionCol), Idx(f, ScoreCol), Idx(f, InterventionCol);
    assert Column(f, RegionCol).value[i] == row[ri];
    assert Column(f, ScoreCol).value[i] == row[si];
    assert Column(f, InterventionCol).value[i] == row[ii];
    if Complete(f, row) {
      NumsMembers(Column(f, ScoreCol).value);
      assert row[si].n in Nums(Column(f, ScoreCol).value);
    }
  }

  // ---------------------------------------------------------------- page flow

  /**
   * Where the page ends: the early warnings, the uncaught KeyError of the PHL metric
   * on a table without `phl_risk_score`, or the metrics over the filtered rows.
   */
  datatype Page = NoData | NoMatch | MissingPhl | Shown(filtered: Frame)

  /**
   * The page stops with a warning when the table is empty or lacks a required column,
   * stops with a notice when the filter keeps nothing, fails at the average PHL risk
   * when there is no `phl_risk_score` column (the required-column check does not test
   * it), and otherwise goes on to the metrics with the filtered rows.
   */
  function Analyze(f: Frame, sel: Selection): (p: Page)
    ensures p.NoData? <==> |f.rows| == 0 || !HasRequired(f)
    ensures p.NoMatch? <==> HasRequired(f) && |f.rows| > 0 && forall row :: row in f.rows ==> !Kept(f, sel, row)
    ensures p.MissingPhl? <==> HasRequired(f) && PhlCol !in f.columns && exists row :: row in f.rows && Kept(f, sel, row)
    ensures p.Shown? ==> HasRequired(f) && PhlCol in f.columns && p.filtered == FilterFrame(f, sel) && |p.filtered.rows| > 0
  {
    if |f.rows| == 0 || !HasRequired(f) then NoData
    else
      var r := FilterFrame(f, sel);
      if r.rows == [] then NoMatch
      else
        assert r.rows[0] in r.rows;
        if PhlCol !in f.columns then MissingPhl else Shown(r)
  }

  /** Every row that reaches the metrics is complete, when the selection is valid. */
  lemma ShownRowsComplete(f: Frame, sel: Selection)
    requires ValidSelection(sel) && Analyze(f, sel).Shown?
    ensures forall row :: row in Analyze(f, sel).filtered.rows ==> Complete(f, row)
  {
  }

  // ---------------------------------------------------------------- map coordinates

  const Fallback: (real, real) := (9.0, 8.0)

  /** The map's (latitude, longitude) table of the five listed states. */
  const Coordinates: map<string, (real, real)> := map[
    "Kano" := (12.0, 8.5),
    "Oyo" := (7.85, 3.93),
    "Benue" := (7.34, 8.77),
    "Kaduna" := (10.52, 7.44),
    "Plateau" := (9.22, 9.52)
  ]

  /** `region_coords.get(r, (9.0, 8.0))`. */
  function RegionCoords(region: Cell): (c: (real, real))
    ensures region.Str? && region.s in Coordinates ==> c == Coordinates[region.s]
    ensures !(region.Str? && region.s in Coordinates) ==> c == Fallback
  {
    if region.Str? && region.s in Coordinates then Coordinates[region.s] else Fallback
  }

  /**
   * The five listed states get five different positions, none of them the fallback,
   * so a state on the map is drawn at the fallback exactly when it is not listed.
   */
  lemma CoordinatesDistinct(a: Cell, b: Cell)
    ensures RegionCoords(a) == Fallback <==> !(a.Str? && a.s in Coordinates)
    ensures a.Str? && b.Str? && a.s in Coordinates && b.s in Coordinates ==>
      (RegionCoords(a) == RegionCoords(b) <==> a == b)
  {
  }

  // ---------------------------------------------------------------- leaderboards

  function Score(row: Row, k: nat): Option<real> {
    match CellAt(row, k)
    case Num(x) => Some(x)
    case _ => None
  }

  /** Larger numbers first; missing values after every number. */
  function ByDescending(k: nat): (Row, Row) -> bool {
    (a: Row, b: Row) =>
      match (Score(a, k), Score(b, k))
      case (Some(x), Some(y)) => x >= y
      case (Some(_), None) => true
      case (None, Some(_)) => false
      case (None, None) => true
  }

  /** Smaller numbers first; missing values after every number. */
  function ByAscending(k: nat): (Row, Row) -> bool {
    (a: Row, b: Row) =>
      match (Score(a, k), Score(b, k))
      case (Some(x), Some(y)) => x <= y
      case (Some(_), None) => true
      case (None, Some(_)) => false
      case (None, None) => true
  }

  lemma DescendingPreorder(k: nat)
    ensures TotalPreorder(ByDescending(k))
  {
  }

  lemma AscendingPreorder(k: nat)
    ensures TotalPreorder(ByAscending(k))
  {
  }

  /** `nlargest(n, column)`. */
  function NLargest(rows: seq<Row>, n: nat, k: nat): seq<Row> {
    TopK(rows, n, ByDescending(k))
  }

  /** `nsmallest(n, column)`. */
  function NSmallest(rows: seq<Row>, n: nat, k: nat): seq<Row> {
    TopK(rows, n, ByAscending(k))
  }

  /**
   * `nlargest` keeps min(n, |rows|) of the rows, largest first, and every number it
   * keeps is at least every number it drops; a missing value is kept only when no
   * number is dropped.
   */
  lemma NLargestSpec(rows: seq<Row>, n: nat, k: nat)
    ensures |NLargest(rows, n, k)| == if n < |rows| then n else |rows|
    ensures multiset(NLargest(rows, n, k)) <= multiset(rows)
    ensures Sorted(NLargest(rows, n, k), ByDescending(k))
    ensures forall a, b :: a in NLargest(rows, n, k) && b in multiset(rows) - multiset(NLargest(rows, n, k)) && Score(b, k).Some? ==>
      Score(a, k).Some? && Score(a, k).value >= Score(b, k).value
  {
    DescendingPreorder(k);
    TopKSpec(rows, n, ByDescending(k));
    var t := NLargest(rows, n, k);
    forall a, b | a in t && b in multiset(rows) - multiset(t) && Score(b, k).Some?
      ensures Score(a, k).Some? && Score(a, k).value >= Score(b, k).value
    {
      assert ByDescending(k)(a, b);
    }
  }

  /** `nsmallest` mirrors `nlargest`: every number it keeps is at most every number it drops. */
  lemma NSmallestSpec(rows: seq<Row>, n: nat, k: nat)
    ensures |NSmallest(rows, n, k)| == if n < |rows| then n else |rows|
    ensures multiset(NSmallest(rows, n, k)) <= multiset(rows)
    ensures Sorted(NSmallest(rows, n, k), ByAscending(k))
    ensures forall a, b :: a in NSmallest(rows, n, k) && b in multiset(rows) - multiset(NSmallest(rows, n, k)) && Score(b, k).Some? ==>
      Score(a, k).Some? && Score(a, k).value <= Score(b, k).value
  {
    AscendingPreorder(k);
    TopKSpec(rows, n, ByAscending(k));
    var t := NSmallest(rows, n, k);
    forall a, b | a in t && b in multiset(rows) - multiset(t) && Score(b, k).Some?
      ensures Score(a, k).Some? && Score(a, k).value <= Score(b, k).value
    {
      assert ByAscending(k)(a, b);
    }
  }

  /**
   * The top-ten table by credit score; None when there is no `farmer_id` to rank by
   * (the page shows a notice) or no `phl_risk_score` for the table's columns (a KeyError).
   */
  function TopFarmers(f: Frame): (r: Option<seq<Row>>)
    requires HasRequired(f)
    ensures r.Some? <==> FarmerIdCol in f.columns && PhlCol in f.columns
  {
    if FarmerIdCol in f.columns && PhlCol in f.columns then Some(NLargest(f.rows, 10, Idx(f, ScoreCol))) else None
  }

  /** The ten lowest PHL risks; None stands for the KeyError of a table without the column. */
  function LowPhl(f: Frame): (r: Option<seq<Row>>)
    ensures r.Some? <==> PhlCol in f.columns
  {
    if PhlCol in f.columns then Some(NSmallest(f.rows, 10, Idx(f, PhlCol))) else None
  }

  /** Both leaderboards have min(10, n) rows of the filtered table. */
  lemma LeaderboardSizes(f: Frame)
    requires HasRequired(f)
    ensures TopFarmers(f).Some? ==> |TopFarmers(f).value| == if 10 < |f.rows| then 10 else |f.rows|
    ensures LowPhl(f).Some? ==> |LowPhl(f).value| == if 10 < |f.rows| then 10 else |f.rows|
  {
    NLargestSpec(f.rows, 10, Idx(f, ScoreCol));
    if PhlCol in f.columns {
      NSmallestSpec(f.rows, 10, Idx(f, PhlCol));
    }
  }

  // ---------------------------------------------------------------- group count

  /** Rows whose key is `key` and whose counted column is present (`count` skips missing cells). */
  function CountKey(rows: seq<Row>, ki: nat, ci: nat, key: Cell): nat {
    |Filter(rows, (r: Row) => CellAt(r, ki) == key && !CellAt(r, ci).Null?)|
  }

  /** Rows whose key is one of `keys` and whose counted column is present. */
  function CountKeys(rows: seq<Row>, ki: nat, ci: nat, keys: seq<Cell>): nat {
    |Filter(rows, (r: Row) => CellAt(r, ki) in keys && !CellAt(r, ci).Null?)|
  }

  /** One (key, count) pair per key, in the order of `keys`. */
  function Tally(rows: seq<Row>, ki: nat, ci: nat, keys: seq<Cell>): (t: seq<(Cell, nat)>)
    ensures |t| == |keys|
    ensures forall j :: 0 <= j < |keys| ==> t[j].0 == keys[j]
    ensures forall j :: 0 <= j < |keys| ==> t[j].1 == CountKey(rows, ki, ci, keys[j])
  {
    if keys == [] then [] else [(keys[0], CountKey(rows, ki, ci, keys[0]))] + Tally(rows, ki, ci, keys[1..])
  }

  function Total(t: seq<(Cell, nat)>): nat {
    if t == [] then 0 else t[0].1 + Total(t[1..])
  }

  function KeyCells(rows: seq<Row>, ki: nat): (r: seq<Cell>)
    ensures |r| == |rows| && forall j :: 0 <= j < |rows| ==> r[j] == CellAt(rows[j], ki)
  {
    seq(|rows|, j requires 0 <= j < |rows| => CellAt(rows[j], ki))
  }

  /** The group keys: the distinct non-missing keys, sorted (`groupby` sorts by default). */
  function GroupKeys(rows: seq<Row>, ki: nat): (keys: seq<Cell>)
    ensures NoDup(keys)
    ensures forall c :: c in keys <==> c in KeyCells(rows, ki) && !c.Null?
    ensures forall j, l :: 0 <= j < l < |keys| ==> CellLt(keys[j], keys[l])
  {
    var d := Distinct(NonNull(KeyCells(rows, ki)));
    DistinctSpec(NonNull(KeyCells(rows, ki)));
    var keys := Sort(d, CellLe());
    CellLeTotalPreorder();
    SortSorted(d, CellLe());
    forall x ensures multiset(keys)[x] <= 1 {
      NoDupMultiset(d, x);
    }
    MultisetNoDup(keys);
    forall c ensures c in keys <==> c in d {
      assert c in keys <==> c in multiset(keys);
      assert c in d <==> c in multiset(d);
    }
    SortedStrict(keys);
    keys
  }

  /**
   * `groupby(key).agg({counted: 'count'})`: one pair per distinct non-missing key,
   * in increasing key order, with the number of its rows whose counted cell is present.
   */
  function GroupCount(rows: seq<Row>, ki: nat, ci: nat): (t: seq<(Cell, nat)>)
    ensures forall j :: 0 <= j < |t| ==> !t[j].0.Null?
    ensures forall j, l :: 0 <= j < l < |t| ==> CellLt(t[j].0, t[l].0)
    ensures forall c :: (exists j :: 0 <= j < |t| && t[j].0 == c) <==> c in KeyCells(rows, ki) && !c.Null?
    ensures forall j :: 0 <= j < |t| ==> t[j].1 == CountKey(rows, ki, ci, t[j].0)
  {
    var keys := GroupKeys(rows, ki);
    var t := Tally(rows, ki, ci, keys);
    assert forall c :: (exists j :: 0 <= j < |t| && t[j].0 == c) <==> c in keys;
    t
  }

  /** Counting key by key adds up to counting all rows of those keys, when no key repeats. */
  lemma {:induction false} TallyTotal(rows: seq<Row>, ki: nat, ci: nat, keys: seq<Cell>)
    requires NoDup(keys)
    ensures Total(Tally(rows, ki, ci, keys)) == CountKeys(rows, ki, ci, keys)
  {
    if keys == [] {
      FilterNone(rows, (r: Row) => CellAt(r, ki) in keys && !CellAt(r, ci).Null?);
    } else {
      var rest := keys[1..];
      assert NoDup(rest) by {
        forall i, j | 0 <= i < j < |rest| ensures rest[i] != rest[j] { assert rest[i] == keys[i + 1]; }
      }
      assert keys[0] !in rest by {
        forall j | 0 <= j < |rest| ensures rest[j] != keys[0] { assert rest[j] == keys[j + 1]; }
      }
      TallyTotal(rows, ki, ci, rest);
      assert forall c :: c in keys <==> c == keys[0] || c in rest;
      FilterCountSplit(rows,
        (r: Row) => CellAt(r, ki) in keys && !CellAt(r, ci).Null?,
        (r: Row) => CellAt(r, ki) == keys[0] && !CellAt(r, ci).Null?,
        (r: Row) => CellAt(r, ki) in rest && !CellAt(r, ci).Null?);
    }
  }

  /**
   * The group counts add up to the number of rows with a key and a counted value:
   * rows with a missing key or a missing counted cell are the only ones not counted.
   */
  lemma GroupCountTotal(rows: seq<Row>, ki: nat, ci: nat)
    ensures Total(GroupCount(rows, ki, ci)) == |Filter(rows, (r: Row) => !CellAt(r, ki).Null? && !CellAt(r, ci).Null?)|
  {
    var keys := GroupKeys(rows, ki);
    TallyTotal(rows, ki, ci, keys);
    forall r | r in rows
      ensures (CellAt(r, ki) in keys && !CellAt(r, ci).Null?) == (!CellAt(r, ki).Null? && !CellAt(r, ci).Null?)
    {
      var j :| 0 <= j < |rows| && rows[j] == r;
      assert KeyCells(rows, ki)[j] == CellAt(r, ki);
    }
    FilterCongruent(rows,
      (r: Row) => CellAt(r, ki) in keys && !CellAt(r, ci).Null?,
      (r: Row) => !CellAt(r, ki).Null? && !CellAt(r, ci).Null?);
  }

  /**
   * The intervention table on the analytics page: rows per intervention, counting
   * regions; None stands for the KeyError of the `phl_risk_score` mean in the same agg.
   */
  function InterventionCounts(filtered: Frame): (t: Option<seq<(Cell, nat)>>)
    requires HasRequired(filtered)
    ensures t.Some? <==> PhlCol in filtered.columns
  {
    if PhlCol in filtered.columns then
      Some(GroupCount(filtered.rows, Idx(filtered, InterventionCol), Idx(filtered, RegionCol)))
    else None
  }

  /**
   * On a page that reaches the metrics with a valid selection, the intervention
   * counts add up to the number of filtered rows.
   */
  lemma InterventionCountsSum(f: Frame, sel: Selection)
    requires ValidSelection(sel) && Analyze(f, sel).Shown?
    ensures InterventionCounts(Analyze(f, sel).filtered).Some?
    ensures Total(InterventionCounts(Analyze(f, sel).filtered).value) == |Analyze(f, sel).filtered.rows|
  {
    var g := Analyze(f, sel).filtered;
    var ki, ci := Idx(g, InterventionCol), Idx(g, RegionCol);
    GroupCountTotal(g.rows, ki, ci);
    ShownRowsComplete(f, sel);
    var p := (r: Row) => !CellAt(r, ki).Null? && !CellAt(r, ci).Null?;
    FilterCongruent(g.rows, p, (r: Row) => true);
    FilterAll(g.rows);
  }

  lemma {:induction false} FilterAll(rows: seq<Row>)
    ensures Filter(rows, (r: Row) => true) == rows
  {
    if rows != [] {
      FilterAll(rows[1..]);
    }
  }
}

=== FILE: credit_app.dfy ===
/**
 * The credit and post-harvest-loss dashboard: the farmer picker (the sorted distinct
 * farmer ids and the first row of the chosen one) and the four-way loan
 * recommendation.  A score read from the CSV may be missing (pandas reads it as NaN,
 * and every comparison with NaN is false); `None` stands for that.
 */
module CreditApp {
  import opened Wrappers
  import opened Text
  import opened Seqs

  /** The columns of one row of `integrated_results.csv` that the dashboard reads. */
  datatype FarmerRow = FarmerRow(farmerId: string, credit: Option<real>, risk: Option<real>, interventions: Option<real>)

  // ---------------------------------------------------------------- recommendation

  datatype Recommendation = Favorable | HighRisk | Improve | Consider

  /** The text shown for each recommendation. */
  function Message(r: Recommendation): string {
    match r
    case Favorable => "✅ Eligible for favorable loan. Low PHL risk."
    case HighRisk => "⚠️ Eligible for loan, but PHL risk is high. Adopt more PHL interventions!"
    case Improve => "❌ Improve repayment record or reduce PHL risk to qualify for credit."
    case Consider => "Consider adopting more interventions and improving market timing/storage."
  }

  /** `x >= c`, `x <= c`, `x > c` and `x < c` on a float that may be NaN. */
  predicate AtLeast(x: Option<real>, c: real) { x.Some? && x.value >= c }
  predicate AtMost(x: Option<real>, c: real) { x.Some? && x.value <= c }
  predicate Above(x: Option<real>, c: real) { x.Some? && x.value > c }
  predicate Below(x: Option<real>, c: real) { x.Some? && x.value < c }

  /**
   * `get_recommendation`: the first test that holds decides.  `interventions` is a
   * parameter of `get_recommendation`, but no test reads it.
   */
  function GetRecommendation(credit: Option<real>, risk: Option<real>, interventions: Option<real>): (r: Recommendation)
    ensures AtLeast(credit, 0.7) && AtMost(risk, 0.4) ==> r == Favorable
    ensures AtLeast(credit, 0.7) && Above(risk, 0.4) ==> r == HighRisk
    ensures Below(credit, 0.5) ==> r == Improve
    ensures credit.Some? && 0.5 <= credit.value < 0.7 ==> r == Consider
  {
    if AtLeast(credit, 0.7) && AtMost(risk, 0.4) then Favorable
    else if AtLeast(credit, 0.7) && Above(risk, 0.4) then HighRisk
    else if Below(credit, 0.5) then Improve
    else Consider
  }

  /**
   * For present scores each recommendation is given exactly when its band holds, so
   * the four bands cover every input and never overlap.
   */
  lemma RecommendationBands(credit: real, risk: real, interventions: Option<real>)
    ensures var r := GetRecommendation(Some(credit), Some(risk), interventions);
      (r == Favorable <==> credit >= 0.7 && risk <= 0.4) &&
      (r == HighRisk <==> credit >= 0.7 && risk > 0.4) &&
      (r == Improve <==> credit < 0.5) &&
      (r == Consider <==> 0.5 <= credit < 0.7)
  {
  }

  /** The number of interventions never changes the recommendation. */
  lemma RecommendationIgnoresInterventions(credit: Option<real>, risk: Option<real>, a: Option<real>, b: Option<real>)
    ensures GetRecommendation(credit, risk, a) == GetRecommendation(credit, risk, b)
  {
  }

  /**
   * A missing score falls through every test to the last branch, and a missing
   * risk score does so even for a credit score of 0.7 or more.
   */
  lemma MissingScoreConsiders(credit: Option<real>, risk: Option<real>, interventions: Option<real>)
    requires credit.None? || (risk.None? && !Below(credit, 0.5))
    ensures GetRecommendation(credit, risk, interventions) == Consider
  {
  }

  // ---------------------------------------------------------------- farmer picker

  function Ids(rows: seq<FarmerRow>): (ids: seq<string>)
    ensures |ids| == |rows| && forall i :: 0 <= i < |rows| ==> ids[i] == rows[i].farmerId
  {
    seq(|rows|, i requires 0 <= i < |rows| => rows[i].farmerId)
  }

  /** Python's `<=` on strings: code-point order. */
  function StrLe(): (string, string) -> bool {
    (a: string, b: string) => LexLe(a, b)
  }

  /** `sorted(df['farmer_id'].unique())`. */
  function FarmerChoices(rows: seq<FarmerRow>): seq<string> {
    Sort(Distinct(Ids(rows)), StrLe())
  }

  lemma StrLeTotalPreorder()
    ensures TotalPreorder(StrLe())
  {
    forall a, b ensures LexLe(a, b) || LexLe(b, a) {
      LexLeTotal(a, b);
    }
    forall a, b, c | LexLe(a, b) && LexLe(b, c) ensures LexLe(a, c) {
      LexLeTrans(a, b, c);
    }
  }

  /**
   * The choices are the farmer ids of the table, each exactly once, in strictly
   * increasing order.
   */
  lemma FarmerChoicesSpec(rows: seq<FarmerRow>)
    ensures var c := FarmerChoices(rows);
      NoDup(c) && (forall id :: id in c <==> exists k :: 0 <= k < |rows| && rows[k].farmerId == id)
    ensures var c := FarmerChoices(rows);
      forall i, j :: 0 <= i < j < |c| ==> LexLe(c[i], c[j]) && c[i] != c[j]
  {
    var d := Distinct(Ids(rows));
    var c := FarmerChoices(rows);
    DistinctSpec(Ids(rows));
    forall x ensures multiset(c)[x] <= 1 {
      NoDupMultiset(d, x);
    }
    MultisetNoDup(c);
    forall id ensures id in c <==> id in d {
      assert id in c <==> id in multiset(c);
      assert id in d <==> id in multiset(d);
    }
    forall id | id in Ids(rows) ensures exists k :: 0 <= k < |rows| && rows[k].farmerId == id {
      var k :| 0 <= k < |rows| && Ids(rows)[k] == id;
    }
    forall id, k | 0 <= k < |rows| && rows[k].farmerId == id ensures id in Ids(rows) {
      assert Ids(rows)[k] == id;
    }
    StrLeTotalPreorder();
    SortSorted(d, StrLe());
  }

  /** The mask `df['farmer_id'] == id`. */
  function IdIs(id: string): FarmerRow -> bool {
    (row: FarmerRow) => row.farmerId == id
  }

  /** `df[df['farmer_id'] == selected_id].iloc[0]`; None stands for the IndexError of no match. */
  function SelectedRow(rows: seq<FarmerRow>, id: string): (r: Option<FarmerRow>)
    ensures r.Some? ==> r.value in rows && r.value.farmerId == id
  {
    var m := Filter(rows, IdIs(id));
    if m == [] then None else (assert m[0] in m; Some(m[0]))
  }

  /**
   * The selected row is the first row with the chosen id: it exists exactly when
   * some row has that id, and no earlier row has it.
   */
  lemma {:induction false} SelectedRowFirst(rows: seq<FarmerRow>, id: string)
    ensures SelectedRow(rows, id).Some? <==> exists k :: 0 <= k < |rows| && rows[k].farmerId == id
    ensures SelectedRow(rows, id).Some? ==>
      exists k :: 0 <= k < |rows| && rows[k] == SelectedRow(rows, id).value && (forall j :: 0 <= j < k ==> rows[j].farmerId != id)
  {
    if rows != [] {
      var tail := rows[1..];
      SelectedRowFirst(tail, id);
      if rows[0].farmerId != id {
        assert Filter(rows, IdIs(id)) == Filter(tail, IdIs(id));
        if SelectedRow(tail, id).Some? {
          var k :| 0 <= k < |tail| && tail[k] == SelectedRow(tail, id).value &&
            (forall j :: 0 <= j < k ==> tail[j].farmerId != id);
          assert rows[k + 1] == tail[k];
          forall j | 0 <= j < k + 1 ensures rows[j].farmerId != id {
            if j > 0 { assert rows[j] == tail[j - 1]; }
          }
        }
        forall k | 0 <= k < |rows| && rows[k].farmerId == id ensures SelectedRow(tail, id).Some? {
          assert tail[k - 1] == rows[k];
        }
      } else {
        assert Filter(rows, IdIs(id))[0] == rows[0];
      }
    }
  }

  /** Every id the picker offers selects a row, and that row carries the id. */
  lemma ChoiceSelectsRow(rows: seq<FarmerRow>, id: string)
    requires id in FarmerChoices(rows)
    ensures SelectedRow(rows, id).Some? && SelectedRow(rows, id).value.farmerId == id
  {
    FarmerChoicesSpec(rows);
    SelectedRowFirst(rows, id);
  }

  /**
   * The recommendation shown for the selected farmer (lines 50-52).  The sidebar
   * and the metrics (lines 27 and 35) run `int()` on the interventions cell first,
   * which raises a ValueError for a missing value, so nothing is shown then.
   */
  function RecommendationFor(rows: seq<FarmerRow>, id: string): (r: Option<Recommendation>)
    ensures r.Some? <==> SelectedRow(rows, id).Some? && SelectedRow(rows, id).value.interventions.Some?
    ensures r.Some? ==> var row := SelectedRow(rows, id).value;
      r.value == GetRecommendation(row.credit, row.risk, row.interventions)
  {
    var row :- SelectedRow(rows, id);
    if row.interventions.None? then None
    else Some(GetRecommendation(row.credit, row.risk, row.interventions))
  }

  /**
   * On a table whose interventions column has no missing cell (the export fills it
   * with 0), every id the picker offers gets the recommendation of its first row.
   */
  lemma ChoiceRecommended(rows: seq<FarmerRow>, id: string)
    requires id in FarmerChoices(rows)
    requires forall k :: 0 <= k < |rows| ==> rows[k].interventions.Some?
    ensures RecommendationFor(rows, id).Some?
    ensures exists k ::
      0 <= k < |rows| && rows[k].farmerId == id &&
      (forall j :: 0 <= j < k ==> rows[j].farmerId != id) &&
      RecommendationFor(rows, id) == Some(GetRecommendation(rows[k].credit, rows[k].risk, rows[k].interventions))
  {
    ChoiceSelectsRow(rows, id);
    SelectedRowFirst(rows, id);
    var k :| 0 <= k < |rows| && rows[k] == SelectedRow(rows, id).value && (forall j :: 0 <= j < k ==> rows[j].farmerId != id);
  }
}

=== FILE: csv_repair.dfy ===
/**
 * `check_and_fix_csv`: when the integrated results table lacks some required
 * columns, it is rebuilt from the two source tables by a left merge on `farmer_id`,
 * each missing column is taken from the merge when it has it and is otherwise
 * filled with a constant default, and the result replaces the file.  Which files
 * exist and what they hold are parameters (None for an absent file).
 */
module CsvRepair {
  import opened Wrappers
  import opened Seqs
  import opened Frames

  const RequiredCols: seq<string> := ["region", "phl_risk_score", "predicted_credit_score", "interventions_adopted"]
  const FarmerId: string := "farmer_id"

  /** Lines 41-49 in order: each column the fix may add, with its default. */
  const Defaults: seq<(string, Cell)> := [
    ("phl_risk_score", Num(0.0)),
    ("interventions_adopted", Num(0.0)),
    ("predicted_credit_score", Num(0.5)),
    ("region", Str("Unknown"))
  ]

  // ---------------------------------------------------------------- missing columns

  function Absent(cols: seq<string>): string -> bool {
    (c: string) => c !in cols
  }

  /** `[col for col in REQUIRED_COLS if col not in df.columns]`. */
  function Missing(cols: seq<string>): seq<string> {
    Filter(RequiredCols, Absent(cols))
  }

  /** The missing columns are the required ones the table lacks, in the required order. */
  lemma MissingSpec(cols: seq<string>)
    ensures IsSubseq(Missing(cols), RequiredCols)
    ensures forall c :: c in Missing(cols) <==> c in RequiredCols && c !in cols
  {
    FilterSpec(RequiredCols, Absent(cols));
  }

  // ---------------------------------------------------------------- filling

  function Constant(v: Cell, n: nat): (col: seq<Cell>)
    ensures |col| == n && forall i :: 0 <= i < n ==> col[i] == v
  {
    seq(n, _ => v)
  }

  /**
   * `df[name] = df.get(name, pd.Series([v] * len(df)))`: a column the table has is
   * assigned its own values, which leaves the table as it was; otherwise a column of
   * `v` is appended.
   */
  function KeepOrDefault(df: Frame, name: string, v: Cell): (r: Frame)
    requires Rectangular(df)
    ensures Rectangular(r) && |r.rows| == |df.rows| && name in r.columns
  {
    if name in df.columns then df else SetColumn(df, name, Constant(v, |df.rows|))
  }

  /** One `if name in missing:` step. */
  function FillStep(df: Frame, missing: seq<string>, d: (string, Cell)): (r: Frame)
    requires Rectangular(df)
    ensures Rectangular(r) && |r.rows| == |df.rows|
  {
    if d.0 in missing then KeepOrDefault(df, d.0, d.1) else df
  }

  /** The steps for `defs`, in order. */
  function FillDefaults(df: Frame, missing: seq<string>, defs: seq<(string, Cell)>): (r: Frame)
    requires Rectangular(df)
    ensures Rectangular(r) && |r.rows| == |df.rows|
    decreases |defs|
  {
    if defs == [] then df else FillDefaults(FillStep(df, missing, defs[0]), missing, defs[1..])
  }

  function Names(defs: seq<(string, Cell)>): (r: seq<string>)
    ensures |r| == |defs| && forall k :: 0 <= k < |defs| ==> r[k] == defs[k].0
  {
    seq(|defs|, k requires 0 <= k < |defs| => defs[k].0)
  }

  /**
   * The fill keeps every column of the table with its values, adds exactly the
   * listed columns that are missing from the request and absent from the table,
   * and fills each added column with its default.
   */
  lemma {:induction false} FillDefaultsSpec(df: Frame, missing: seq<string>, defs: seq<(string, Cell)>)
    requires Rectangular(df) && NoDup(Names(defs))
    ensures var r := FillDefaults(df, missing, defs);
      forall c :: c in df.columns ==> c in r.columns && Column(r, c) == Column(df, c)
    ensures var r := FillDefaults(df, missing, defs);
      forall c :: c in r.columns <==> c in df.columns || (c in missing && c in Names(defs))
    ensures var r := FillDefaults(df, missing, defs);
      forall k :: 0 <= k < |defs| && defs[k].0 in missing && defs[k].0 !in df.columns ==>
        Column(r, defs[k].0) == Some(Constant(defs[k].1, |df.rows|))
    decreases |defs|
  {
    if defs != [] {
      var d, rest := defs[0], defs[1..];
      var a := FillStep(df, missing, d);
      assert NoDup(Names(rest)) by {
        forall i, j | 0 <= i < j < |rest| ensures Names(rest)[i] != Names(rest)[j] {
          assert Names(rest)[i] == Names(defs)[i + 1] && Names(rest)[j] == Names(defs)[j + 1];
        }
      }
      FillDefaultsSpec(a, missing, rest);
      var r := FillDefaults(a, missing, rest);
      assert r == FillDefaults(df, missing, defs);
      var added := d.0 in missing && d.0 !in df.columns;
      if added {
        forall c | c in df.columns ensures Column(a, c) == Column(df, c) {
          SetColumnOthers(df, d.0, Constant(d.1, |df.rows|), c);
        }
        SetColumnRead(df, d.0, Constant(d.1, |df.rows|));
      }
      assert a.columns == if added then df.columns + [d.0] else df.columns;
      forall c ensures c in Names(defs) <==> c == d.0 || c in Names(rest) {
        if c in Names(defs) {
          var k :| 0 <= k < |defs| && Names(defs)[k] == c;
          if k > 0 { assert Names(rest)[k - 1] == c; }
        }
        if c in Names(rest) {
          var k :| 0 <= k < |rest| && Names(rest)[k] == c;
          assert Names(defs)[k + 1] == c;
        }
      }
      forall k | 0 <= k < |defs| && defs[k].0 in missing && defs[k].0 !in df.columns
        ensures Column(r, defs[k].0) == Some(Constant(defs[k].1, |df.rows|))
      {
        if k > 0 {
          assert Names(defs)[k] != Names(defs)[0];
          assert rest[k - 1] == defs[k];
        }
      }
    }
  }

  /** Lines 41-49: the four conditional assignments on the merged table. */
  method FillMissing(merged: Frame, missing: seq<string>) returns (df: Frame)
    requires Rectangular(merged)
    ensures df == FillDefaults(merged, missing, Defaults)
  {
    df := merged;
    if "phl_risk_score" in missing {
      df := KeepOrDefault(df, "phl_risk_score", Num(0.0));
    }
    assert df == FillStep(merged, missing, Defaults[0]);
    ghost var after1 := df;
    if "interventions_adopted" in missing {
      df := KeepOrDefault(df, "interventions_adopted", Num(0.0));
    }
    assert df == FillStep(after1, missing, Defaults[1]);
    ghost var after2 := df;
    if "predicted_credit_score" in missing {
      df := KeepOrDefault(df, "predicted_credit_score", Num(0.5));
    }
    assert df == FillStep(after2, missing, Defaults[2]);
    ghost var after3 := df;
    if "region" in missing {
      df := KeepOrDefault(df, "region", Str("Unknown"));
    }
    assert df == FillStep(after3, missing, Defaults[3]);
    DefaultsUnfold(merged, missing);
  }

  /** The fold over the four defaults is the four steps one after another. */
  lemma DefaultsUnfold(df: Frame, missing: seq<string>)
    requires Rectangular(df)
    ensures FillDefaults(df, missing, Defaults) ==
      var a := FillStep(df, missing, Defaults[0]);
      var b := FillStep(a, missing, Defaults[1]);
      var c := FillStep(b, missing, Defaults[2]);
      FillStep(c, missing, Defaults[3])
  {
    var a := FillStep(df, missing, Defaults[0]);
    var b := FillStep(a, missing, Defaults[1]);
    var c := FillStep(b, missing, Defaults[2]);
    assert Defaults[1..][1..][1..][1..] == [];
    assert FillDefaults(df, missing, Defaults) == FillDefaults(a, missing, Defaults[1..]);
    assert FillDefaults(a, missing, Defaults[1..]) == FillDefaults(b, missing, Defaults[1..][1..]);
    assert FillDefaults(b, missing, Defaults[1..][1..]) == FillDefaults(c, missing, Defaults[1..][1..][1..]);
  }

  /** The four default names are the required columns, each once. */
  lemma DefaultsCoverRequired()
    ensures NoDup(Names(Defaults))
    ensures forall c :: c in Names(Defaults) <==> c in RequiredCols
  {
    assert Names(Defaults) == ["phl_risk_score", "interventions_adopted", "predicted_credit_score", "region"];
  }

  // ---------------------------------------------------------------- the whole script

  datatype Outcome =
    | NotFound                  // the integrated table is absent: nothing is written
    | AllPresent                // nothing is missing: nothing is written
    | NoSources                 // a source table is absent: nothing is written
    | MergeError                // a source lacks `farmer_id`: pandas raises a KeyError
    | Fixed(written: Frame)     // the rebuilt table replaces the file

  /** The merge of line 38, when both sources have `farmer_id`. */
  function Rebuilt(credit: Frame, phl: Frame): Option<Frame> {
    LeftMerge(credit, phl, [FarmerId])
  }

  /** `check_and_fix_csv` as written. */
  function CheckAndFix(file: Option<Frame>, credit: Option<Frame>, phl: Option<Frame>): (out: Outcome)
    requires file.Some? ==> Rectangular(file.value)
    requires credit.Some? ==> Rectangular(credit.value)
    requires phl.Some? ==> Rectangular(phl.value)
    ensures out == NotFound <==> file.None?
    ensures out == AllPresent <==> file.Some? && Missing(file.value.columns) == []
    ensures out == NoSources <==> file.Some? && Missing(file.value.columns) != [] && (credit.None? || phl.None?)
    ensures out == MergeError <==>
      (file.Some? && Missing(file.value.columns) != [] && credit.Some? && phl.Some? && Rebuilt(credit.value, phl.value).None?)
    ensures out.Fixed? ==> credit.Some? && phl.Some? && Rebuilt(credit.value, phl.value).Some?
  {
    if file.None? then NotFound
    else
      var missing := Missing(file.value.columns);
      if missing == [] then AllPresent
      else if credit.None? || phl.None? then NoSources
      else match Rebuilt(credit.value, phl.value)
        case None => MergeError
        case Some(merged) =>
          MergeShape(credit.value, phl.value, [FarmerId]);
          Fixed(FillDefaults(merged, missing, Defaults))
  }

  /**
   * A written table keeps one row per credit row or more (exactly one per credit row
   * when the PHL table lists each farmer once), and holds every column that was
   * reported missing.
   */
  lemma FixedSpec(file: Frame, credit: Frame, phl: Frame)
    requires Rectangular(file) && Rectangular(credit) && Rectangular(phl)
    requires CheckAndFix(Some(file), Some(credit), Some(phl)).Fixed?
    ensures var w := CheckAndFix(Some(file), Some(credit), Some(phl)).written;
      |w.rows| >= |credit.rows| &&
      (FarmerId in phl.columns && UniqueKeys(phl, [FarmerId]) ==> |w.rows| == |credit.rows|)
    ensures var w := CheckAndFix(Some(file), Some(credit), Some(phl)).written;
      forall c :: c in Missing(file.columns) ==> c in w.columns
  {
    var merged := Rebuilt(credit, phl).value;
    var missing := Missing(file.columns);
    MergeShape(credit, phl, [FarmerId]);
    if FarmerId in phl.columns && UniqueKeys(phl, [FarmerId]) {
      MergeUniquePrefix(credit, phl, [FarmerId]);
    }
    DefaultsCoverRequired();
    FillDefaultsSpec(merged, missing, Defaults);
    MissingSpec(file.columns);
  }

  /**
   * As written: a required column the file had but neither source provides is not
   * in `missing`, so nothing puts it back, and the rewritten file has lost it.
   */
  lemma FixDropsPresentColumn(file: Frame, credit: Frame, phl: Frame, c: string)
    requires Rectangular(file) && Rectangular(credit) && Rectangular(phl)
    requires CheckAndFix(Some(file), Some(credit), Some(phl)).Fixed?
    requires c in file.columns && c !in Rebuilt(credit, phl).value.columns
    ensures c !in CheckAndFix(Some(file), Some(credit), Some(phl)).written.columns
  {
    var merged := Rebuilt(credit, phl).value;
    MergeShape(credit, phl, [FarmerId]);
    DefaultsCoverRequired();
    FillDefaultsSpec(merged, Missing(file.columns), Defaults);
    MissingSpec(file.columns);
  }

  /**
   * An instance: the file has a predicted credit score but no interventions column,
   * the credit table has no score, so the rewrite adds the interventions and loses
   * the score.
   */
  lemma FixDropsScoreExample(file: Frame, credit: Frame, phl: Frame)
    requires file == Frame([FarmerId, "region", "phl_risk_score", "predicted_credit_score"], [])
    requires credit == Frame([FarmerId, "region"], [])
    requires phl == Frame([FarmerId, "phl_risk_score", "interventions_adopted"], [])
    ensures CheckAndFix(Some(file), Some(credit), Some(phl)).Fixed?
    ensures "predicted_credit_score" !in CheckAndFix(Some(file), Some(credit), Some(phl)).written.columns
  {
    ExampleMissing(file.columns);
    var merged := ExampleMerge(credit, phl);
    FixDropsPresentColumn(file, credit, phl, "predicted_credit_score");
  }

  lemma ExampleMissing(cols: seq<string>)
    requires cols == [FarmerId, "region", "phl_risk_score", "predicted_credit_score"]
    ensures Missing(cols) != [] && "predicted_credit_score" in cols
  {
    MissingSpec(cols);
    assert "interventions_adopted" in Missing(cols);
  }

  lemma ExampleMerge(credit: Frame, phl: Frame) returns (merged: Frame)
    requires credit == Frame([FarmerId, "region"], [])
    requires phl == Frame([FarmerId, "phl_risk_score", "interventions_adopted"], [])
    ensures Rebuilt(credit, phl) == Some(merged)
    ensures "predicted_credit_score" !in merged.columns
  {
    MergedColumnsNoClash(credit.columns, phl.columns, [FarmerId]);
    merged := Rebuilt(credit, phl).value;
  }

  /** The corrected fix: every required column the rebuilt table lacks gets its default. */
  function CheckAndFixAll(file: Option<Frame>, credit: Option<Frame>, phl: Option<Frame>): (out: Outcome)
    requires file.Some? ==> Rectangular(file.value)
    requires credit.Some? ==> Rectangular(credit.value)
    requires phl.Some? ==> Rectangular(phl.value)
    ensures out.Fixed? <==> CheckAndFix(file, credit, phl).Fixed?
    ensures !out.Fixed? ==> out == CheckAndFix(file, credit, phl)
  {
    match CheckAndFix(file, credit, phl)
    case Fixed(_) =>
      var merged := Rebuilt(credit.value, phl.value).value;
      MergeShape(credit.value, phl.value, [FarmerId]);
      Fixed(FillDefaults(merged, RequiredCols, Defaults))
    case other => other
  }

  /**
   * Corrected: the written table has every required column, keeps every column of
   * the rebuilt table with its values, and keeps the credit rows.
   */
  lemma FixAllKeepsRequired(file: Frame, credit: Frame, phl: Frame)
    requires Rectangular(file) && Rectangular(credit) && Rectangular(phl)
    requires CheckAndFixAll(Some(file), Some(credit), Some(phl)).Fixed?
    ensures var w := CheckAndFixAll(Some(file), Some(credit), Some(phl)).written;
      (forall c :: c in RequiredCols ==> c in w.columns) && |w.rows| >= |credit.rows|
    ensures var w := CheckAndFixAll(Some(file), Some(credit), Some(phl)).written;
      var merged := Rebuilt(credit, phl).value;
      Rectangular(w) && Rectangular(merged) &&
      forall c :: c in merged.columns ==> Column(w, c) == Column(merged, c)
  {
    var merged := Rebuilt(credit, phl).value;
    FixAllWritten(file, credit, phl);
    DefaultsCoverRequired();
    FillDefaultsSpec(merged, RequiredCols, Defaults);
  }

  lemma FixAllWritten(file: Frame, credit: Frame, phl: Frame)
    requires Rectangular(file) && Rectangular(credit) && Rectangular(phl)
    requires CheckAndFixAll(Some(file), Some(credit), Some(phl)).Fixed?
    ensures Rebuilt(credit, phl).Some? && Rectangular(Rebuilt(credit, phl).value)
    ensures |Rebuilt(credit, phl).value.rows| >= |credit.rows|
    ensures CheckAndFixAll(Some(file), Some(credit), Some(phl)).written ==
      FillDefaults(Rebuilt(credit, phl).value, RequiredCols, Defaults)
  {
    MergeShape(credit, phl, [FarmerId]);
  }
}

=== FILE: demo_seeding.dfy ===
/**
 * `populate_farmer_with_full_crop_and_temps`: the dashboard's demo seeding of the
 * farmer portal store.  It inserts the demo user (INSERT OR IGNORE against the
 * UNIQUE username), a "Demo Storage" facility and a "Maize" crop (those two tables
 * have no unique constraint, so the IGNORE never fires and every call adds a row),
 * then seven daily temperature logs ending at `now`.
 */
module DemoSeeding {
  import opened Wrappers
  import opened Text
  import opened Seqs
  import opened Timestamps
  import opened FarmersPortal

  const DemoUsername: string := "demo_farmer"
  const DemoPassword: string := "securepass"
  const DemoFacility: string := "Demo Storage"
  const DemoLocation: string := "Kano"
  const DemoCrop: string := "Maize"
  const DemoQuantity: real := 25.0

  /** `SELECT user_id FROM users WHERE username=?`, first row. */
  function UserIdOf(us: seq<User>, username: string): (r: Option<int>)
    ensures r.Some? ==> exists u :: u in us && u.username == username && u.userId == r.value
  {
    var m := Filter(us, (u: User) => u.username == username);
    if m == [] then None else (assert m[0] in m; Some(m[0].userId))
  }

  /** `SELECT facility_id FROM facilities WHERE user_id=? AND name=?`, first row. */
  function FacilityIdOf(fs: seq<Facility>, userId: int, name: string): (r: Option<int>)
    ensures r.Some? ==> exists f :: f in fs && f.userId == userId && f.name == name && f.facilityId == r.value
  {
    var m := NamedFacilities(fs, userId, name);
    if m == [] then None else (assert m[0] in m; Some(m[0].facilityId))
  }

  function NamedFacilities(fs: seq<Facility>, userId: int, name: string): seq<Facility> {
    Filter(fs, (f: Facility) => f.userId == userId && f.name == name)
  }

  /** The users table after `INSERT OR IGNORE INTO users`. */
  function SeededUsers(us: seq<User>, userSeq: int): seq<User> {
    if UsernameTaken(us, DemoUsername) then us else us + [User(userSeq + 1, DemoUsername, DemoPassword)]
  }

  /** `temp = 25 + (i % 4)`. */
  function DemoTemperature(i: nat): (t: real)
    ensures 25.0 <= t <= 28.0
  {
    25.0 + (i % 4) as real
  }

  lemma DemoDayExists(now: DateTime, i: nat)
    requires Valid(now) && DaysBefore(now, 6).Some? && i <= 6
    ensures DaysBefore(now, 6 - i).Some?
  {
    if i > 0 {
      DaysBeforeOrdered(now, 6 - i, 6);
    }
  }

  /** The `i`-th log of one call: `now - timedelta(days=6-i)`, id after the counter `start`. */
  function DemoLog(start: int, facilityId: int, now: DateTime, i: nat): TempLog
    requires Valid(now) && DaysBefore(now, 6).Some? && i < 7
  {
    DemoDayExists(now, i);
    TempLog(start + 1 + i, facilityId, DemoTemperature(i), Format(DaysBefore(now, 6 - i).value))
  }

  /** The logs of the first `n` turns of the loop. */
  function DemoLogsUpTo(start: int, facilityId: int, now: DateTime, n: nat): seq<TempLog>
    requires Valid(now) && DaysBefore(now, 6).Some? && n <= 7
  {
    if n == 0 then [] else DemoLogsUpTo(start, facilityId, now, n - 1) + [DemoLog(start, facilityId, now, n - 1)]
  }

  /** The seven logs one call appends. */
  function DemoLogs(start: int, facilityId: int, now: DateTime): (r: seq<TempLog>)
    requires Valid(now) && DaysBefore(now, 6).Some?
    ensures |r| == 7
  {
    DemoLogsUpToSpec(start, facilityId, now, 7);
    DemoLogsUpTo(start, facilityId, now, 7)
  }

  lemma {:induction false} DemoLogsUpToSpec(start: int, facilityId: int, now: DateTime, n: nat)
    requires Valid(now) && DaysBefore(now, 6).Some? && n <= 7
    ensures |DemoLogsUpTo(start, facilityId, now, n)| == n
    ensures forall i :: 0 <= i < n ==> DemoLogsUpTo(start, facilityId, now, n)[i] == DemoLog(start, facilityId, now, i)
  {
    if n > 0 {
      DemoLogsUpToSpec(start, facilityId, now, n - 1);
      var prefix := DemoLogsUpTo(start, facilityId, now, n - 1);
      assert DemoLogsUpTo(start, facilityId, now, n) == prefix + [DemoLog(start, facilityId, now, n - 1)];
    }
  }

  /**
   * One call's logs: fresh consecutive ids, all for the demo facility, the `i`-th at
   * `25 + (i % 4)` degrees, the last one stamped `now`.
   */
  lemma DemoLogsSpec(start: int, facilityId: int, now: DateTime)
    requires Valid(now) && DaysBefore(now, 6).Some?
    ensures |DemoLogs(start, facilityId, now)| == 7
    ensures forall i :: 0 <= i < 7 ==>
      DemoLogs(start, facilityId, now)[i].logId == start + 1 + i &&
      DemoLogs(start, facilityId, now)[i].facilityId == facilityId
    ensures forall i :: 0 <= i < 7 ==> DemoLogs(start, facilityId, now)[i].temperature == DemoTemperature(i)
    ensures DemoLogs(start, facilityId, now)[6].logTime == Format(now)
  {
    DemoLogsUpToSpec(start, facilityId, now, 7);
  }

  /** `25 + (i % 4)` over `range(7)`. */
  lemma DemoTemperatureValues()
    ensures seq(7, i requires 0 <= i < 7 => DemoTemperature(i)) == [25.0, 26.0, 27.0, 28.0, 25.0, 26.0, 27.0]
  {
  }

  /** The logs are taken one day apart, so their log_time texts strictly increase. */
  lemma DemoLogTimes(start: int, facilityId: int, now: DateTime)
    requires Valid(now) && DaysBefore(now, 6).Some?
    ensures forall i, j :: 0 <= i < j < 7 ==>
      LexLe(DemoLogs(start, facilityId, now)[i].logTime, DemoLogs(start, facilityId, now)[j].logTime) &&
      DemoLogs(start, facilityId, now)[i].logTime != DemoLogs(start, facilityId, now)[j].logTime
  {
    DemoLogsUpToSpec(start, facilityId, now, 7);
    forall i, j | 0 <= i < j < 7
      ensures LexLe(DemoLog(start, facilityId, now, i).logTime, DemoLog(start, facilityId, now, j).logTime)
      ensures DemoLog(start, facilityId, now, i).logTime != DemoLog(start, facilityId, now, j).logTime
    {
      DemoLogOrder(start, facilityId, now, i, j);
    }
  }

  lemma DemoLogOrder(start: int, facilityId: int, now: DateTime, i: nat, j: nat)
    requires Valid(now) && DaysBefore(now, 6).Some? && i < j < 7
    ensures LexLe(DemoLog(start, facilityId, now, i).logTime, DemoLog(start, facilityId, now, j).logTime)
    ensures DemoLog(start, facilityId, now, i).logTime != DemoLog(start, facilityId, now, j).logTime
  {
    DemoDaysOrdered(now, i, j);
    DemoLogTime(start, facilityId, now, i);
    DemoLogTime(start, facilityId, now, j);
  }

  /** Turn `i` of the loop stamps an earlier day than any later turn `j`. */
  lemma DemoDaysOrdered(now: DateTime, i: nat, j: nat)
    requires Valid(now) && DaysBefore(now, 6).Some? && i < j < 7
    ensures DaysBefore(now, 6 - i).Some? && DaysBefore(now, 6 - j).Some?
    ensures LexLe(Format(DaysBefore(now, 6 - i).value), Format(DaysBefore(now, 6 - j).value))
    ensures Format(DaysBefore(now, 6 - i).value) != Format(DaysBefore(now, 6 - j).value)
  {
    DemoDayExists(now, i);
    DaysBeforeFormatted(now, 6 - j, 6 - i);
  }

  /** The `i`-th log is stamped `6 - i` days before `now`. */
  lemma DemoLogTime(start: int, facilityId: int, now: DateTime, i: nat)
    requires Valid(now) && DaysBefore(now, 6).Some? && i < 7
    ensures DaysBefore(now, 6 - i).Some?
    ensures DemoLog(start, facilityId, now, i).logTime == Format(DaysBefore(now, 6 - i).value)
  {
    DemoDayExists(now, i);
  }

  /**
   * When every earlier log of the facility is older than `now`, the newest log after a
   * call is the one stamped `now` at 27 degrees, which the prompts tab reports as safe
   * for maize (27 is not above maize's threshold of 27).
   */
  lemma DemoNewestIsSafe(ls: seq<TempLog>, start: int, facilityId: int, now: DateTime)
    requires Valid(now) && DaysBefore(now, 6).Some?
    requires forall l :: l in ls && l.facilityId == facilityId ==>
      LexLe(l.logTime, Format(now)) && l.logTime != Format(now)
    ensures NewestLog(ls + DemoLogs(start, facilityId, now), facilityId) == Some(DemoLogs(start, facilityId, now)[6])
    ensures DemoLogs(start, facilityId, now)[6].temperature == 27.0
    ensures PhlPrompt(DemoCrop, DemoLogs(start, facilityId, now)[6].temperature).Safe?
  {
    var d := DemoLogs(start, facilityId, now);
    DemoLogsSpec(start, facilityId, now);
    DemoLogsBeforeNow(start, facilityId, now);
    var last := d[6];
    forall l | l in ls + d && l.facilityId == facilityId
      ensures LexLe(l.logTime, last.logTime) && (l.logTime == last.logTime ==> l == last)
    {
      if l in d {
        var i :| 0 <= i < 7 && d[i] == l;
        if i == 6 {
          LexLeRefl(l.logTime);
        }
      }
    }
    NewestLogUnique(ls + d, facilityId, last);
    assert last.temperature == DemoTemperature(6) == 27.0;
    MaizeThreshold();
  }

  /** The first six demo logs are stamped strictly before `now`. */
  lemma DemoLogsBeforeNow(start: int, facilityId: int, now: DateTime)
    requires Valid(now) && DaysBefore(now, 6).Some?
    ensures forall i :: 0 <= i < 6 ==>
      LexLe(DemoLogs(start, facilityId, now)[i].logTime, Format(now)) &&
      DemoLogs(start, facilityId, now)[i].logTime != Format(now)
  {
    DemoLogsSpec(start, facilityId, now);
    DemoLogTimes(start, facilityId, now);
  }

  /** Seeding keeps usernames unique and leaves exactly one demo user. */
  lemma DemoUserExactlyOnce(us: seq<User>, userSeq: int)
    requires UniqueUsernames(us)
    ensures UniqueUsernames(SeededUsers(us, userSeq))
    ensures exists i :: (0 <= i < |SeededUsers(us, userSeq)| && SeededUsers(us, userSeq)[i].username == DemoUsername &&
      forall j :: 0 <= j < |SeededUsers(us, userSeq)| && SeededUsers(us, userSeq)[j].username == DemoUsername ==> j == i)
    ensures UsernameTaken(us, DemoUsername) ==> SeededUsers(us, userSeq) == us
  {
    var r := SeededUsers(us, userSeq);
    if UsernameTaken(us, DemoUsername) {
      var u :| u in us && u.username == DemoUsername;
      var i :| 0 <= i < |us| && us[i] == u;
      forall j | 0 <= j < |r| && r[j].username == DemoUsername ensures j == i {
        SameUsernameSameRow(us, i, j);
      }
    } else {
      assert r[|us|].username == DemoUsername;
      forall j | 0 <= j < |us| ensures us[j].username != DemoUsername {
        assert us[j] in us;
      }
    }
  }

  /**
   * Every call adds one more "Demo Storage" facility for the demo user, while the
   * facility the crop and logs go to stays the first one ever created.
   */
  lemma ReseedAddsFacility(fs: seq<Facility>, row: Facility)
    requires row.name == DemoFacility
    ensures |NamedFacilities(fs + [row], row.userId, DemoFacility)| == |NamedFacilities(fs, row.userId, DemoFacility)| + 1
    ensures FacilityIdOf(fs + [row], row.userId, DemoFacility) ==
      if FacilityIdOf(fs, row.userId, DemoFacility).Some? then FacilityIdOf(fs, row.userId, DemoFacility)
      else Some(row.facilityId)
  {
    var p := (f: Facility) => f.userId == row.userId && f.name == DemoFacility;
    FilterAppend(fs, [row], p);
    assert Filter([row], p) == [row];
  }

  /** The first user with a given name is found once that name is taken. */
  lemma UserIdOfTaken(us: seq<User>, username: string)
    requires UsernameTaken(us, username)
    ensures UserIdOf(us, username).Some?
  {
    var p := (u: User) => u.username == username;
    FilterSpec(us, p);
    var u :| u in us && u.username == username;
    assert u in Filter(us, p);
  }

  /**
   * What seeding does to the facilities, crops and temp_logs tables, from their
   * contents and id counters before (`fs0`, `cs0`, `ls0`, `fseq`, `cseq`, `lseq`)
   * to after: one new facility for the demo user, one crop on the facility the
   * name look-up finds (`fid`), and the week of logs when the date arithmetic
   * succeeds (`ok`).
   */
  ghost predicate FarmSeeded(fs0: seq<Facility>, cs0: seq<Crop>, ls0: seq<TempLog>, fseq: int, cseq: int, lseq: int,
                             fs: seq<Facility>, cs: seq<Crop>, ls: seq<TempLog>, uid: int, fid: int, ok: bool, now: DateTime)
    requires Valid(now)
  {
    && fs == fs0 + [Facility(fseq + 1, uid, DemoFacility, DemoLocation)]
    && FacilityIdOf(fs, uid, DemoFacility) == Some(fid)
    && CropAndLogsSeeded(cs0, ls0, cseq, lseq, cs, ls, fid, ok, now)
  }

  /** The crop row and the week of logs written for facility `fid`. */
  ghost predicate CropAndLogsSeeded(cs0: seq<Crop>, ls0: seq<TempLog>, cseq: int, lseq: int,
                                    cs: seq<Crop>, ls: seq<TempLog>, fid: int, ok: bool, now: DateTime)
    requires Valid(now)
  {
    && cs == cs0 + [Crop(cseq + 1, fid, DemoCrop, DemoQuantity)]
    && (ok <==> DaysBefore(now, 6).Some?)
    && (if DaysBefore(now, 6).Some? then ls == ls0 + DemoLogs(lseq, fid, now) else ls == ls0)
  }

  /**
   * The seeding routine.  `ok` is false when `now - timedelta(days=6)` raises
   * `OverflowError`: the user, facility and crop inserts are already committed, and
   * no log is written.
   */
  method PopulateDemoFarmer(store: Store, now: DateTime) returns (ok: bool, ghost uid: int, ghost fid: int)
    requires store.Valid() && Valid(now)
    modifies store
    ensures store.Valid()
    ensures store.users == SeededUsers(old(store.users), old(store.userSeq))
    ensures UserIdOf(store.users, DemoUsername) == Some(uid)
    ensures FarmSeeded(old(store.facilities), old(store.crops), old(store.tempLogs),
                       old(store.facilitySeq), old(store.cropSeq), old(store.logSeq),
                       store.facilities, store.crops, store.tempLogs, uid, fid, ok, now)
    ensures store.userSeq == if UsernameTaken(old(store.users), DemoUsername) then old(store.userSeq) else old(store.userSeq) + 1
    ensures store.facilitySeq == old(store.facilitySeq) + 1 && store.cropSeq == old(store.cropSeq) + 1
    ensures store.logSeq == old(store.logSeq) + if ok then 7 else 0
  {
    var userId := SeedUser(store);
    var facilityId;
    ok, facilityId := SeedFarm(store, userId, now);
    uid, fid := userId, facilityId;
  }

  /** Everything after the user: the facility, its crop and its week of logs. */
  method SeedFarm(store: Store, uid: int, now: DateTime) returns (ok: bool, fid: int)
    requires store.Valid() && Valid(now)
    modifies store
    ensures store.Valid()
    ensures store.users == old(store.users)
    ensures FarmSeeded(old(store.facilities), old(store.crops), old(store.tempLogs),
                       old(store.facilitySeq), old(store.cropSeq), old(store.logSeq),
                       store.facilities, store.crops, store.tempLogs, uid, fid, ok, now)
    ensures store.userSeq == old(store.userSeq)
    ensures store.facilitySeq == old(store.facilitySeq) + 1 && store.cropSeq == old(store.cropSeq) + 1
    ensures store.logSeq == old(store.logSeq) + if ok then 7 else 0
  {
    fid := SeedFacility(store, uid);
    ok := StockFacility(store, fid, now);
  }

  /** The crop insert followed by the week of temperature logs. */
  method StockFacility(store: Store, fid: int, now: DateTime) returns (ok: bool)
    requires store.Valid() && Valid(now)
    modifies store
    ensures store.Valid()
    ensures store.users == old(store.users) && store.facilities == old(store.facilities)
    ensures CropAndLogsSeeded(old(store.crops), old(store.tempLogs), old(store.cropSeq), old(store.logSeq),
                              store.crops, store.tempLogs, fid, ok, now)
    ensures store.userSeq == old(store.userSeq) && store.facilitySeq == old(store.facilitySeq)
    ensures store.cropSeq == old(store.cropSeq) + 1 && store.logSeq == old(store.logSeq) + if ok then 7 else 0
  {
    store.AddCrop(fid, DemoCrop, DemoQuantity);
    ok := LogDemoWeek(store, fid, now);
  }

  /** `INSERT OR IGNORE INTO users` and the look-up of the demo user's id. */
  method SeedUser(store: Store) returns (uid: int)
    requires store.Valid()
    modifies store
    ensures store.Valid()
    ensures store.users == SeededUsers(old(store.users), old(store.userSeq))
    ensures UserIdOf(store.users, DemoUsername) == Some(uid)
    ensures store.userSeq == if UsernameTaken(old(store.users), DemoUsername) then old(store.userSeq) else old(store.userSeq) + 1
    ensures store.facilities == old(store.facilities) && store.facilitySeq == old(store.facilitySeq)
    ensures store.crops == old(store.crops) && store.cropSeq == old(store.cropSeq)
    ensures store.tempLogs == old(store.tempLogs) && store.logSeq == old(store.logSeq)
  {
    var _ := store.AddUser(DemoUsername, DemoPassword);
    UserIdOfTaken(store.users, DemoUsername);
    uid := UserIdOf(store.users, DemoUsername).value;
  }

  /** The facility insert (never ignored) and the look-up of the first "Demo Storage". */
  method SeedFacility(store: Store, uid: int) returns (fid: int)
    requires store.Valid()
    modifies store
    ensures store.Valid()
    ensures store.facilities == old(store.facilities) + [Facility(old(store.facilitySeq) + 1, uid, DemoFacility, DemoLocation)]
    ensures FacilityIdOf(store.facilities, uid, DemoFacility) == Some(fid)
    ensures store.facilitySeq == old(store.facilitySeq) + 1
    ensures store.users == old(store.users) && store.userSeq == old(store.userSeq)
    ensures store.crops == old(store.crops) && store.cropSeq == old(store.cropSeq)
    ensures store.tempLogs == old(store.tempLogs) && store.logSeq == old(store.logSeq)
  {
    var prev := store.facilities;
    store.AddFacility(uid, DemoFacility, DemoLocation);
    ReseedAddsFacility(prev, Facility(store.facilitySeq, uid, DemoFacility, DemoLocation));
    fid := FacilityIdOf(store.facilities, uid, DemoFacility).value;
  }

  /** The `for i in range(7)` loop: one log a day, from six days back up to `now`. */
  method LogDemoWeek(store: Store, fid: int, now: DateTime) returns (ok: bool)
    requires store.Valid() && Valid(now)
    modifies store
    ensures store.Valid()
    ensures store.users == old(store.users) && store.facilities == old(store.facilities) && store.crops == old(store.crops)
    ensures ok <==> DaysBefore(now, 6).Some?
    ensures ok ==> store.tempLogs == old(store.tempLogs) + DemoLogs(old(store.logSeq), fid, now)
    ensures !ok ==> store.tempLogs == old(store.tempLogs)
    ensures store.logSeq == old(store.logSeq) + if ok then 7 else 0
    ensures store.userSeq == old(store.userSeq) && store.facilitySeq == old(store.facilitySeq) && store.cropSeq == old(store.cropSeq)
  {
    var start := store.logSeq;
    ok := true;
    var i := 0;
    while i < 7
      invariant 0 <= i <= 7
      invariant store.Valid()
      invariant store.users == old(store.users) && store.facilities == old(store.facilities)
      invariant store.crops == old(store.crops)
      invariant store.logSeq == start + i
      invariant store.userSeq == old(store.userSeq) && store.facilitySeq == old(store.facilitySeq) && store.cropSeq == old(store.cropSeq)
      invariant i == 0 ==> store.tempLogs == old(store.tempLogs)
      invariant i > 0 ==> DaysBefore(now, 6).Some?
      invariant i > 0 ==> store.tempLogs == old(store.tempLogs) + DemoLogsUpTo(start, fid, now, i)
    {
      var t := DaysBefore(now, 6 - i);
      if t.None? {
        if i > 0 {
          DemoDayExists(now, i);
        }
        ok := false;
        return;
      }
      LogDemoDay(store, fid, now, start, i, t.value);
      i := i + 1;
    }
  }

  /** One turn of the loop: the log for `now - timedelta(days=6-i)`. */
  method LogDemoDay(store: Store, fid: int, now: DateTime, start: int, i: nat, t: DateTime)
    requires store.Valid() && Valid(now) && i < 7 && store.logSeq == start + i
    requires DaysBefore(now, 6).Some? && DaysBefore(now, 6 - i) == Some(t)
    modifies store
    ensures store.Valid()
    ensures store.tempLogs == old(store.tempLogs) + [DemoLog(start, fid, now, i)]
    ensures store.logSeq == old(store.logSeq) + 1
    ensures store.userSeq == old(store.userSeq) && store.facilitySeq == old(store.facilitySeq) && store.cropSeq == old(store.cropSeq)
    ensures store.users == old(store.users) && store.facilities == old(store.facilities) && store.crops == old(store.crops)
  {
    store.AddTempLog(fid, DemoTemperature(i), t);
  }
}

=== FILE: farmer_credit_scoring.dfy ===
// The farmer credit-scoring script: the preprocessing that joins the farmer table
// with per-(region, crop_type) mean yields and loss rates and with the loan table,
// fills and encodes the features, and the rule-based improvement advice.  Model
// training and the score itself are not modelled: the score is a parameter.

module FarmerCreditScoring {
  import opened Wrappers
  import opened Text
  import opened Seqs
  import opened Frames
  import opened Grouping

  const RegionCrop: seq<string> := ["region", "crop_type"]
  const FarmerId: string := "farmer_id"
  const Yield: string := "yield"
  const LossRate: string := "loss_rate"
  const LoanCols: seq<string> := ["farmer_id", "prev_loan", "repayment_status"]

  // ---------------------------------------------------------------- merges

  /** The farmer table joined with the grouped mean yields and mean loss rates (lines 18-19). */
  function MergeGrouped(farmers: Frame, cropYield: Frame, lossRate: Frame): (r: Option<Frame>)
    requires Rectangular(farmers) && Rectangular(cropYield) && Rectangular(lossRate)
    ensures r.Some? ==> Rectangular(r.value) && |r.value.rows| >= |farmers.rows|
  {
    var df1 :- LeftMerge(farmers, cropYield, RegionCrop);
    MergeShape(farmers, cropYield, RegionCrop);
    var df2 :- LeftMerge(df1, lossRate, RegionCrop);
    MergeShape(df1, lossRate, RegionCrop);
    Some(df2)
  }

  /** Lines 18-20: the grouped merges, then the loan table's three columns on `farmer_id`. */
  function MergeAll(farmers: Frame, cropYield: Frame, lossRate: Frame, loans: Frame): (r: Option<Frame>)
    requires Rectangular(farmers) && Rectangular(cropYield) && Rectangular(lossRate) && Rectangular(loans)
    ensures r.Some? ==> Rectangular(r.value) && |r.value.rows| >= |farmers.rows|
  {
    var df2 :- MergeGrouped(farmers, cropYield, lossRate);
    var loanCols :- Project(loans, LoanCols);
    var df3 :- LeftMerge(df2, loanCols, [FarmerId]);
    MergeShape(df2, loanCols, [FarmerId]);
    Some(df3)
  }

  /**
   * When both grouped tables have one row per (region, crop_type), the two merges
   * keep exactly one row per farmer, in farmer order, each starting with the
   * farmer's own row.
   */
  lemma GroupedMergesKeepFarmers(farmers: Frame, cropYield: Frame, lossRate: Frame)
    requires Rectangular(farmers) && Rectangular(cropYield) && Rectangular(lossRate)
    requires MergeGrouped(farmers, cropYield, lossRate).Some?
    requires HasAll(cropYield, RegionCrop) && HasAll(lossRate, RegionCrop)
    requires UniqueKeys(cropYield, RegionCrop) && UniqueKeys(lossRate, RegionCrop)
    ensures var r := MergeGrouped(farmers, cropYield, lossRate).value;
      |r.rows| == |farmers.rows| &&
      forall i :: 0 <= i < |farmers.rows| ==> |r.rows[i]| >= |farmers.columns| && r.rows[i][..|farmers.columns|] == farmers.rows[i]
  {
    var df1 := LeftMerge(farmers, cropYield, RegionCrop).value;
    MergeShape(farmers, cropYield, RegionCrop);
    MergeUniquePrefix(farmers, cropYield, RegionCrop);
    var df2 := LeftMerge(df1, lossRate, RegionCrop).value;
    MergeUniquePrefix(df1, lossRate, RegionCrop);
    PrefixChain(farmers, df1, df2);
  }

  /**
   * Lines 16-19: after the two merges, each farmer's `yield` is the mean yield of the
   * crop rows with the farmer's (region, crop_type), and `loss_rate` the mean loss rate
   * of the loss rows with that pair; either is missing when no row has the pair.
   */
  lemma GroupedMeansOfFarmer(farmers: Frame, crops: Frame, losses: Frame, i: int)
    requires Rectangular(farmers) && Rectangular(crops) && Rectangular(losses)
    requires GroupMean(crops, RegionCrop, Yield).Some? && GroupMean(losses, RegionCrop, LossRate).Some?
    requires HasAll(farmers, RegionCrop) && Yield !in farmers.columns && LossRate !in farmers.columns
    requires 0 <= i < |farmers.rows|
    ensures var m := MergeGrouped(farmers, GroupMean(crops, RegionCrop, Yield).value, GroupMean(losses, RegionCrop, LossRate).value);
      m.Some? && |m.value.rows| == |farmers.rows| && Column(m.value, Yield).Some? && Column(m.value, LossRate).Some? &&
      var key := Pick(farmers.rows[i], KeyIndices(farmers.columns, RegionCrop));
      Column(m.value, Yield).value[i] == GroupedValue(crops, RegionCrop, Yield, key) &&
      Column(m.value, LossRate).value[i] == GroupedValue(losses, RegionCrop, LossRate, key)
  {
    var cy, lr := GroupMean(crops, RegionCrop, Yield).value, GroupMean(losses, RegionCrop, LossRate).value;
    RegionCropKeys();
    assert Yield != LossRate by { assert |Yield| != |LossRate|; }
    MergeGroupMean(farmers, crops, RegionCrop, Yield, i);
    MergeGroupMeanColumns(farmers, crops, RegionCrop, Yield);
    var df1 := LeftMerge(farmers, cy, RegionCrop).value;
    GroupMeanUnique(crops, RegionCrop, Yield);
    MergeLeftKey(farmers, cy, RegionCrop, RegionCrop, i);
    assert HasAll(df1, RegionCrop);
    MergeGroupMean(df1, losses, RegionCrop, LossRate, i);
    GroupMeanUnique(losses, RegionCrop, LossRate);
    MergeLeftColumn(df1, lr, RegionCrop, Yield);
  }

  /** Two prefix-keeping steps in a row keep the first table's rows as prefixes. */
  lemma PrefixChain(l: Frame, m: Frame, n: Frame)
    requires Rectangular(l) && Rectangular(m) && |l.columns| <= |m.columns|
    requires |m.rows| == |l.rows| && |n.rows| == |m.rows|
    requires forall i :: 0 <= i < |l.rows| ==> |m.rows[i]| >= |l.columns| && m.rows[i][..|l.columns|] == l.rows[i]
    requires forall i :: 0 <= i < |m.rows| ==> |n.rows[i]| >= |m.columns| && n.rows[i][..|m.columns|] == m.rows[i]
    ensures forall i :: 0 <= i < |l.rows| ==> |n.rows[i]| >= |l.columns| && n.rows[i][..|l.columns|] == l.rows[i]
  {
    forall i | 0 <= i < |l.rows| ensures n.rows[i][..|l.columns|] == l.rows[i] {
      assert n.rows[i][..|l.columns|] == n.rows[i][..|m.columns|][..|l.columns|];
    }
  }

  /**
   * `preprocess_data` keeps at least one row per farmer, and exactly one per farmer
   * when the loan table lists each farmer once.
   */
  lemma PreprocessKeepsFarmers(farmers: Frame, crops: Frame, losses: Frame, loans: Frame)
    requires Rectangular(farmers) && Rectangular(crops) && Rectangular(losses) && Rectangular(loans)
    requires Preprocess(farmers, crops, losses, loans).Some?
    ensures |Preprocess(farmers, crops, losses, loans).value.df.rows| >= |farmers.rows|
    ensures Project(loans, LoanCols).Some? && (UniqueKeys(Project(loans, LoanCols).value, [FarmerId]) ==>
      |Preprocess(farmers, crops, losses, loans).value.df.rows| == |farmers.rows|)
  {
    PreprocessSteps(farmers, crops, losses, loans);
    GroupedMergeKeepsFarmers(farmers, crops, losses, loans);
  }

  /** The merges of lines 18-20 onto the grouped tables of lines 16-17. */
  lemma GroupedMergeKeepsFarmers(farmers: Frame, crops: Frame, losses: Frame, loans: Frame)
    requires Rectangular(farmers) && Rectangular(crops) && Rectangular(losses) && Rectangular(loans)
    requires GroupMean(crops, RegionCrop, Yield).Some? && GroupMean(losses, RegionCrop, LossRate).Some?
    requires MergeAll(farmers, GroupMean(crops, RegionCrop, Yield).value, GroupMean(losses, RegionCrop, LossRate).value, loans).Some?
    ensures var m := MergeAll(farmers, GroupMean(crops, RegionCrop, Yield).value, GroupMean(losses, RegionCrop, LossRate).value, loans).value;
      Project(loans, LoanCols).Some? && (UniqueKeys(Project(loans, LoanCols).value, [FarmerId]) ==> |m.rows| == |farmers.rows|)
  {
    var cy, lr := GroupMean(crops, RegionCrop, Yield).value, GroupMean(losses, RegionCrop, LossRate).value;
    GroupedByRegionCrop(crops, Yield);
    GroupedByRegionCrop(losses, LossRate);
    MergeAllKeepsFarmers(farmers, cy, lr, loans);
  }

  /** A table grouped by (region, crop_type) has those columns and one row per pair. */
  lemma GroupedByRegionCrop(f: Frame, value: string)
    requires Rectangular(f) && GroupMean(f, RegionCrop, value).Some? && (value == Yield || value == LossRate)
    ensures var g := GroupMean(f, RegionCrop, value).value;
      Rectangular(g) && HasAll(g, RegionCrop) && UniqueKeys(g, RegionCrop)
  {
    RegionCropKeys();
    GroupMeanUnique(f, RegionCrop, value);
  }

  /** The grouping keys are two distinct names, neither of them a grouped value. */
  lemma RegionCropKeys()
    ensures NoDup(RegionCrop) && Yield !in RegionCrop && LossRate !in RegionCrop
  {
    assert |RegionCrop[0]| == 6 && |RegionCrop[1]| == 9 && |Yield| == 5 && |LossRate| == 9;
    assert LossRate[0] != RegionCrop[1][0];
  }

  lemma PreprocessSteps(farmers: Frame, crops: Frame, losses: Frame, loans: Frame)
    requires Rectangular(farmers) && Rectangular(crops) && Rectangular(losses) && Rectangular(loans)
    requires Preprocess(farmers, crops, losses, loans).Some?
    ensures GroupMean(crops, RegionCrop, Yield).Some? && GroupMean(losses, RegionCrop, LossRate).Some?
    ensures var cy, lr := GroupMean(crops, RegionCrop, Yield).value, GroupMean(losses, RegionCrop, LossRate).value;
      MergeAll(farmers, cy, lr, loans).Some? &&
      |Preprocess(farmers, crops, losses, loans).value.df.rows| == |MergeAll(farmers, cy, lr, loans).value.rows|
  {
    var cy, lr := GroupMean(crops, RegionCrop, Yield).value, GroupMean(losses, RegionCrop, LossRate).value;
    var merged := MergeAll(farmers, cy, lr, loans).value;
    assert Preprocess(farmers, crops, losses, loans).value.df == Clean(merged).value;
  }

  /** The merges of lines 18-20 with one row per (region, crop_type) in both grouped tables. */
  lemma MergeAllKeepsFarmers(farmers: Frame, cy: Frame, lr: Frame, loans: Frame)
    requires Rectangular(farmers) && Rectangular(cy) && Rectangular(lr) && Rectangular(loans)
    requires MergeAll(farmers, cy, lr, loans).Some?
    requires HasAll(cy, RegionCrop) && HasAll(lr, RegionCrop)
    requires UniqueKeys(cy, RegionCrop) && UniqueKeys(lr, RegionCrop)
    ensures Project(loans, LoanCols).Some? && (UniqueKeys(Project(loans, LoanCols).value, [FarmerId]) ==>
      |MergeAll(farmers, cy, lr, loans).value.rows| == |farmers.rows|)
  {
    var df2 := MergeGrouped(farmers, cy, lr).value;
    GroupedMergesKeepFarmers(farmers, cy, lr);
    var loanCols := Project(loans, LoanCols).value;
    assert MergeAll(farmers, cy, lr, loans) == LeftMerge(df2, loanCols, [FarmerId]);
    if UniqueKeys(loanCols, [FarmerId]) {
      MergeUniquePrefix(df2, loanCols, [FarmerId]);
    }
  }

  // ---------------------------------------------------------------- encodings

  /** `df[target] = df[source].map(table)`. */
  datatype Encoding = Encoding(source: string, target: string, table: map<string, int>)

  const EducationCodes: map<string, int> := map["Primary" := 0, "Secondary" := 1, "Tertiary" := 2]
  const PhoneCodes: map<string, int> := map["Basic" := 0, "Feature" := 1, "Smart" := 2]
  const FinanceCodes: map<string, int> := map["None" := 0, "Limited" := 1, "Some" := 2, "Full" := 3]
  const YesNoCodes: map<string, int> := map["No" := 0, "Yes" := 1]
  const GenderCodes: map<string, int> := map["Male" := 0, "Female" := 1, "Other" := 2]

  /** Lines 23-29, in order; the phone type is encoded into a new `tech_literacy` column. */
  const Encodings: seq<Encoding> := [
    Encoding("education_level", "education_level", EducationCodes),
    Encoding("phone_type", "tech_literacy", PhoneCodes),
    Encoding("financial_access", "financial_access", FinanceCodes),
    Encoding("extension_access", "extension_access", YesNoCodes),
    Encoding("cooperative_member", "cooperative_member", YesNoCodes),
    Encoding("irrigation_access", "irrigation_access", YesNoCodes),
    Encoding("gender", "gender", GenderCodes)
  ]

  function Targets(specs: seq<Encoding>): (r: seq<string>)
    ensures |r| == |specs| && forall k :: 0 <= k < |specs| ==> r[k] == specs[k].target
  {
    seq(|specs|, k requires 0 <= k < |specs| => specs[k].target)
  }

  /** The encodings applied one after another. */
  function EncodeAll(df: Frame, specs: seq<Encoding>): (r: Option<Frame>)
    requires Rectangular(df)
    ensures r.Some? ==> Rectangular(r.value) && |r.value.rows| == |df.rows|
    decreases |specs|
  {
    if specs == [] then Some(df)
    else
      var e := specs[0];
      var first :- MapColumn(df, e.source, e.target, e.table);
      EncodeAll(first, specs[1..])
  }

  /**
   * The encodings fail only on a missing source column: when every source is a
   * column of the table they all apply, and every column of the table is kept.
   */
  lemma {:induction false} EncodeAllDefined(df: Frame, specs: seq<Encoding>)
    requires Rectangular(df) && forall e :: e in specs ==> e.source in df.columns
    ensures EncodeAll(df, specs).Some?
    ensures forall n :: n in df.columns ==> n in EncodeAll(df, specs).value.columns
    decreases |specs|
  {
    if specs != [] {
      var e := specs[0];
      var first := MapColumn(df, e.source, e.target, e.table).value;
      assert forall x :: x in specs[1..] ==> x in specs;
      EncodeAllDefined(first, specs[1..]);
    }
  }

  /** A column that no encoding targets comes out as it went in. */
  lemma {:induction false} EncodeAllOthers(df: Frame, specs: seq<Encoding>, other: string)
    requires Rectangular(df) && EncodeAll(df, specs).Some? && other !in Targets(specs)
    ensures Column(EncodeAll(df, specs).value, other) == Column(df, other)
    decreases |specs|
  {
    if specs != [] {
      var e := specs[0];
      var first := MapColumn(df, e.source, e.target, e.table).value;
      assert other != Targets(specs)[0];
      MapColumnOthers(df, e.source, e.target, e.table, other);
      assert other !in Targets(specs[1..]) by {
        forall k | 0 <= k < |specs| - 1 ensures Targets(specs[1..])[k] != other {
          assert Targets(specs[1..])[k] == Targets(specs)[k + 1];
        }
      }
      EncodeAllOthers(first, specs[1..], other);
    }
  }

  /**
   * The k-th encoding reads a column no earlier encoding wrote, and writes a column
   * no later encoding overwrites.
   */
  predicate Separate(specs: seq<Encoding>, k: nat)
    requires k < |specs|
  {
    (forall j :: 0 <= j < k ==> specs[j].target != specs[k].source) &&
    (forall j :: k < j < |specs| ==> specs[j].target != specs[k].target)
  }

  /** Dropping the first encoding keeps the later ones separate. */
  lemma SeparateTail(specs: seq<Encoding>, k: nat)
    requires 0 < k < |specs| && Separate(specs, k)
    ensures Separate(specs[1..], k - 1) && specs[0].target != specs[k].source
  {
    var rest := specs[1..];
    forall j | 0 <= j < k - 1 ensures rest[j].target != rest[k - 1].source {
      assert rest[j] == specs[j + 1];
    }
    forall j | k - 1 < j < |rest| ensures rest[j].target != rest[k - 1].target {
      assert rest[j] == specs[j + 1];
    }
  }

  /**
   * An encoded column holds the codes of its source column as it was before the
   * encodings, provided no earlier step overwrote the source and no later step
   * overwrites the target.
   */
  lemma {:induction false} EncodedColumn(df: Frame, specs: seq<Encoding>, k: nat)
    requires Rectangular(df) && EncodeAll(df, specs).Some? && k < |specs| && Separate(specs, k)
    ensures specs[k].source in df.columns
    ensures Column(EncodeAll(df, specs).value, specs[k].target) ==
      Some(MapCodes(Column(df, specs[k].source).value, specs[k].table))
    decreases k
  {
    if k == 0 {
      EncodedFirst(df, specs);
    } else {
      var first := EncodeFirst(df, specs);
      SeparateTail(specs, k);
      EncodedColumn(first, specs[1..], k - 1);
      EncodedLater(df, specs, k);
    }
  }

  /** The table after the first encoding, from which the others continue. */
  lemma EncodeFirst(df: Frame, specs: seq<Encoding>) returns (first: Frame)
    requires Rectangular(df) && EncodeAll(df, specs).Some? && 0 < |specs|
    ensures MapColumn(df, specs[0].source, specs[0].target, specs[0].table) == Some(first)
    ensures Rectangular(first) && EncodeAll(first, specs[1..]).Some?
  {
    first := MapColumn(df, specs[0].source, specs[0].target, specs[0].table).value;
  }

  /** The first encoding's column survives the later ones, which do not target it. */
  lemma EncodedFirst(df: Frame, specs: seq<Encoding>)
    requires Rectangular(df) && EncodeAll(df, specs).Some? && 0 < |specs| && Separate(specs, 0)
    ensures specs[0].source in df.columns
    ensures Column(EncodeAll(df, specs).value, specs[0].target) ==
      Some(MapCodes(Column(df, specs[0].source).value, specs[0].table))
  {
    var e, rest := specs[0], specs[1..];
    var first := MapColumn(df, e.source, e.target, e.table).value;
    assert EncodeAll(df, specs) == EncodeAll(first, rest);
    assert e.target !in Targets(rest) by {
      forall j | 0 <= j < |rest| ensures Targets(rest)[j] != e.target {
        assert rest[j] == specs[j + 1];
      }
    }
    EncodeAllOthers(first, rest, e.target);
  }

  /**
   * A later encoding reads its source after the first encoding, which did not write
   * it, so the column it reads then is the one it reads before.
   */
  lemma EncodedLater(df: Frame, specs: seq<Encoding>, k: nat)
    requires Rectangular(df) && EncodeAll(df, specs).Some? && 0 < k < |specs| && Separate(specs, k)
    requires var first := MapColumn(df, specs[0].source, specs[0].target, specs[0].table);
      var rest := specs[1..];
      first.Some? && rest[k - 1].source in first.value.columns &&
      Column(EncodeAll(first.value, rest).value, rest[k - 1].target) ==
        Some(MapCodes(Column(first.value, rest[k - 1].source).value, rest[k - 1].table))
    ensures specs[k].source in df.columns
    ensures Column(EncodeAll(df, specs).value, specs[k].target) ==
      Some(MapCodes(Column(df, specs[k].source).value, specs[k].table))
  {
    var e := specs[0];
    var first := MapColumn(df, e.source, e.target, e.table).value;
    assert EncodeAll(df, specs) == EncodeAll(first, specs[1..]);
    assert specs[1..][k - 1] == specs[k];
    SeparateTail(specs, k);
    MapColumnOthers(df, e.source, e.target, e.table, specs[k].source);
  }

  // ---------------------------------------------------------------- preprocessing

  /** What `preprocess_data` returns: the cleaned table and the two grouped tables. */
  datatype Prepared = Prepared(df: Frame, cropYield: Frame, lossRate: Frame)

  /**
   * Lines 16-31.  None stands for the KeyError of a missing column.
   */
  function Preprocess(farmers: Frame, crops: Frame, losses: Frame, loans: Frame): (r: Option<Prepared>)
    requires Rectangular(farmers) && Rectangular(crops) && Rectangular(losses) && Rectangular(loans)
    ensures r.Some? ==> Rectangular(r.value.df)
  {
    var cy :- GroupMean(crops, RegionCrop, Yield);
    var lr :- GroupMean(losses, RegionCrop, LossRate);
    var merged :- MergeAll(farmers, cy, lr, loans);
    var df :- Clean(merged);
    Some(Prepared(df, cy, lr))
  }

  /**
   * Lines 21-30 on the merged table: mean fills of `yield` and `loss_rate`, the
   * encodings, then `fillna(0)` over every column.
   */
  function Clean(merged: Frame): (r: Option<Frame>)
    requires Rectangular(merged)
    ensures r.Some? ==> Rectangular(r.value) && |r.value.rows| == |merged.rows|
  {
    var a :- FillMean(merged, Yield);
    var b :- FillMean(a, LossRate);
    var c :- EncodeAll(b, Encodings);
    Some(FillAll(c, Num(0.0)))
  }

  /** The two mean fills (for stating what the later steps see). */
  function Filled(merged: Frame): (r: Frame)
    requires Rectangular(merged) && Yield in merged.columns && LossRate in merged.columns
    ensures Rectangular(r) && merged.columns == r.columns && |r.rows| == |merged.rows|
  {
    var a := FillMean(merged, Yield).value;
    FillMean(a, LossRate).value
  }

  /** The mean fills touch only `yield` and `loss_rate`. */
  lemma FilledOthers(merged: Frame, other: string)
    requires Rectangular(merged) && Yield in merged.columns && LossRate in merged.columns
    requires other != Yield && other != LossRate
    ensures Column(Filled(merged), other) == Column(merged, other)
  {
    var a := FillMean(merged, Yield).value;
    FillMeanOthers(merged, Yield, other);
    FillMeanOthers(a, LossRate, other);
  }

  lemma CleanSteps(merged: Frame)
    requires Rectangular(merged) && Clean(merged).Some?
    ensures Yield in merged.columns && LossRate in merged.columns
    ensures EncodeAll(Filled(merged), Encodings).Some?
    ensures Clean(merged).value == FillAll(EncodeAll(Filled(merged), Encodings).value, Num(0.0))
  {
  }

  /** After `fillna(0)` no cell of the cleaned table is missing. */
  lemma CleanNoMissing(merged: Frame)
    requires Rectangular(merged) && Clean(merged).Some?
    ensures var df := Clean(merged).value;
      forall i, j :: 0 <= i < |df.rows| && 0 <= j < |df.columns| ==> !df.rows[i][j].Null?
  {
    CleanSteps(merged);
  }

  /** A code after the zero fill: the table's code for a known string, 0 for anything else. */
  function CodeOrZero(c: Cell, table: map<string, int>): real {
    if c.Str? && c.s in table then table[c.s] as real else 0.0
  }

  /** No encoding of lines 23-29 writes over a column another one reads, or writes a column twice. */
  lemma EncodingsSeparate(k: nat)
    requires k < |Encodings|
    ensures Separate(Encodings, k)
    ensures Encodings[k].source != Yield && Encodings[k].source != LossRate
    ensures Yield !in Targets(Encodings) && LossRate !in Targets(Encodings)
  {
  }

  /**
   * Each encoded feature of the cleaned table is the lookup code of the merged
   * table's source value, and 0 for a value outside the lookup table or a missing
   * one: an unknown category cannot be told apart from code 0.
   */
  lemma EncodedFeature(merged: Frame, k: nat)
    requires Rectangular(merged) && Clean(merged).Some? && k < |Encodings|
    ensures Encodings[k].source in merged.columns && Encodings[k].target in Clean(merged).value.columns
    ensures var before, after := Column(merged, Encodings[k].source).value, Column(Clean(merged).value, Encodings[k].target).value;
      |after| == |before| && forall i :: 0 <= i < |before| ==> after[i] == Num(CodeOrZero(before[i], Encodings[k].table))
  {
    var e := Encodings[k];
    CleanSteps(merged);
    var b := Filled(merged);
    var c := EncodeAll(b, Encodings).value;
    EncodingsSeparate(k);
    EncodedColumn(b, Encodings, k);
    FilledOthers(merged, e.source);
    FillAllColumn(c, Num(0.0), e.target);
    var before := Column(merged, e.source).value;
    var after := Column(FillAll(c, Num(0.0)), e.target).value;
    forall i | 0 <= i < |before| ensures after[i] == Num(CodeOrZero(before[i], e.table)) {
      MapCodesSpec(before, e.table, i);
    }
  }

  /**
   * A numeric column filled with its mean and then with 0: a present number stays,
   * a missing cell becomes the mean of the present numbers, or 0 when there is none.
   */
  predicate MeanThenZero(before: seq<Cell>, after: seq<Cell>) {
    |after| == |before| &&
    forall i :: 0 <= i < |before| ==>
      (before[i].Num? ==> after[i] == before[i]) &&
      (before[i].Null? ==> after[i] == if Mean(before).Some? then Num(Mean(before).value) else Num(0.0))
  }

  lemma MeanThenZeroFill(col: seq<Cell>)
    ensures MeanThenZero(col, FillNa(FillNa(col, MeanCell(col)), Num(0.0)))
  {
  }

  /** Missing yields get the mean yield before the zero fill. */
  lemma YieldFilled(merged: Frame)
    requires Rectangular(merged) && Clean(merged).Some?
    ensures Yield in merged.columns && Yield in Clean(merged).value.columns
    ensures MeanThenZero(Column(merged, Yield).value, Column(Clean(merged).value, Yield).value)
  {
    CleanSteps(merged);
    var b := Filled(merged);
    var c := EncodeAll(b, Encodings).value;
    EncodingsSeparate(0);
    EncodeAllOthers(b, Encodings, Yield);
    var a := FillMean(merged, Yield).value;
    FillMeanOthers(a, LossRate, Yield);
    FillAllColumn(c, Num(0.0), Yield);
    MeanThenZeroFill(Column(merged, Yield).value);
  }

  /** Missing loss rates get the mean loss rate before the zero fill. */
  lemma LossRateFilled(merged: Frame)
    requires Rectangular(merged) && Clean(merged).Some?
    ensures LossRate in merged.columns && LossRate in Clean(merged).value.columns
    ensures MeanThenZero(Column(merged, LossRate).value, Column(Clean(merged).value, LossRate).value)
  {
    CleanSteps(merged);
    var b := Filled(merged);
    var c := EncodeAll(b, Encodings).value;
    EncodingsSeparate(0);
    EncodeAllOthers(b, Encodings, LossRate);
    FillMeanOthers(merged, Yield, LossRate);
    FillAllColumn(c, Num(0.0), LossRate);
    MeanThenZeroFill(Column(merged, LossRate).value);
  }

  // ---------------------------------------------------------------- advice

  /**
   * The fields of a cleaned row that the advice reads (after `fillna(0)` they are
   * numbers); `creditScore` is the rounded score the model assigned.
   */
  datatype Profile = Profile(
    creditScore: real, yieldValue: real, lossRate: real, financialAccess: real, techLiteracy: real,
    experienceYears: real, extensionAccess: real, cooperativeMember: real, irrigationAccess: real)

  const KeepUp: string := "Keep up the good work!"

  /** The eight messages, in the order the rules are checked. */
  const Messages: seq<string> := [
    "Increase your crop yield (e.g., use improved seeds or practices).",
    "Reduce post-harvest losses (improve storage, transport).",
    "Adopt mobile money or join a cooperative for better financial access.",
    "Use a smartphone for better access to markets and information.",
    "Seek mentorship or training to gain more experience.",
    "Access extension services for up-to-date farming advice.",
    "Join a farmers' cooperative for support and loans.",
    "Consider irrigation solutions to boost yields."
  ]

  /**
   * Which rules fire.  The means are those of the grouped tables; None is the NaN
   * of an empty column, and a comparison with NaN is false.
   */
  function Triggers(p: Profile, meanYield: Option<real>, meanLoss: Option<real>): (t: seq<bool>)
    ensures |t| == |Messages|
  {
    [ meanYield.Some? && p.yieldValue < meanYield.value,
      meanLoss.Some? && p.lossRate > meanLoss.value,
      p.financialAccess < 2.0,
      p.techLiteracy < 2.0,
      p.experienceYears < 3.0,
      p.extensionAccess == 0.0,
      p.cooperativeMember == 0.0,
      p.irrigationAccess == 0.0 ]
  }

  /** The messages whose flag is set, in order. */
  function Chosen(msgs: seq<string>, on: seq<bool>): (r: seq<string>)
    requires |msgs| == |on|
    ensures forall m :: m in r ==> m in msgs
  {
    if msgs == [] then [] else (if on[0] then [msgs[0]] else []) + Chosen(msgs[1..], on[1..])
  }

  /** The advice list: empty for a score of 60 or more, else the messages of the rules that fire. */
  function Advice(p: Profile, meanYield: Option<real>, meanLoss: Option<real>): seq<string> {
    if p.creditScore < 60.0 then Chosen(Messages, Triggers(p, meanYield, meanLoss)) else []
  }

  /** What `get_advice` returns. */
  function AdviceText(p: Profile, meanYield: Option<real>, meanLoss: Option<real>): string {
    var advice := Advice(p, meanYield, meanLoss);
    if advice == [] then KeepUp else Join(advice, " ")
  }

  /**
   * `get_advice`: below a score of 60 the eight rules are checked in order, each
   * appending its message when it fires; the messages are joined by spaces, or the
   * encouragement is returned when there are none.
   */
  method GetAdvice(p: Profile, meanYield: Option<real>, meanLoss: Option<real>) returns (text: string)
    ensures text == AdviceText(p, meanYield, meanLoss)
  {
    var advice: seq<string> := [];
    if p.creditScore < 60.0 {
      advice := AppendFired(Messages, Triggers(p, meanYield, meanLoss));
    }
    if advice != [] {
      text := Join(advice, " ");
    } else {
      text := KeepUp;
    }
  }

  /**
   * Line 89: the advice for one scored row, given the grouped tables of lines 16-17;
   * the means compared against are those of the tables' value columns, that is the
   * mean of the per-(region, crop_type) means, not of all crop or loss rows.
   */
  method ScoreAdvice(p: Profile, cropYield: Frame, lossRate: Frame) returns (text: string)
    requires Rectangular(cropYield) && Rectangular(lossRate)
    requires Yield in cropYield.columns && LossRate in lossRate.columns
    ensures text == AdviceText(p, Mean(Column(cropYield, Yield).value), Mean(Column(lossRate, LossRate).value))
  {
    text := GetAdvice(p, Mean(Column(cropYield, Yield).value), Mean(Column(lossRate, LossRate).value));
  }

  /**
   * Below a score of 60 the yield message is given exactly when the row's yield is
   * under the mean of the grouped yields, and the loss message exactly when its loss
   * rate is over the mean of the grouped loss rates; neither when that mean is NaN.
   */
  lemma AdviceAgainstGroupedMeans(p: Profile, cropYield: Frame, lossRate: Frame)
    requires Rectangular(cropYield) && Rectangular(lossRate)
    requires Yield in cropYield.columns && LossRate in lossRate.columns
    requires p.creditScore < 60.0
    ensures var my := Mean(Column(cropYield, Yield).value);
      Messages[0] in Advice(p, my, Mean(Column(lossRate, LossRate).value)) <==> my.Some? && p.yieldValue < my.value
    ensures var ml := Mean(Column(lossRate, LossRate).value);
      Messages[1] in Advice(p, Mean(Column(cropYield, Yield).value), ml) <==> ml.Some? && p.lossRate > ml.value
  {
    AdviceRules(p, Mean(Column(cropYield, Yield).value), Mean(Column(lossRate, LossRate).value));
  }

  /**
   * The eight `if ...: advice.append(...)` steps of `get_advice`: starting from an
   * empty list, the message of each rule that fires is appended, rule by rule.
   */
  method AppendFired(msgs: seq<string>, fires: seq<bool>) returns (advice: seq<string>)
    requires |msgs| == |fires| == 8
    ensures advice == Chosen(msgs, fires)
  {
    advice := [];
    if fires[0] {
      advice := advice + [msgs[0]];
    }
    assert advice == Collected(msgs, fires, 1);
    if fires[1] {
      advice := advice + [msgs[1]];
    }
    assert advice == Collected(msgs, fires, 2);
    if fires[2] {
      advice := advice + [msgs[2]];
    }
    assert advice == Collected(msgs, fires, 3);
    if fires[3] {
      advice := advice + [msgs[3]];
    }
    assert advice == Collected(msgs, fires, 4);
    if fires[4] {
      advice := advice + [msgs[4]];
    }
    assert advice == Collected(msgs, fires, 5);
    if fires[5] {
      advice := advice + [msgs[5]];
    }
    assert advice == Collected(msgs, fires, 6);
    if fires[6] {
      advice := advice + [msgs[6]];
    }
    assert advice == Collected(msgs, fires, 7);
    if fires[7] {
      advice := advice + [msgs[7]];
    }
    assert advice == Collected(msgs, fires, 8);
    CollectedAll(msgs, fires);
  }

  /** The messages collected after checking the first k rules, in order. */
  function Collected(msgs: seq<string>, on: seq<bool>, k: nat): seq<string>
    requires k <= |msgs| == |on|
  {
    if k == 0 then []
    else if on[k - 1] then Collected(msgs, on, k - 1) + [msgs[k - 1]]
    else Collected(msgs, on, k - 1)
  }

  /** Checking the first k rules one by one collects what choosing among them chooses. */
  lemma {:induction false} CollectedChosen(msgs: seq<string>, on: seq<bool>, k: nat)
    requires k <= |msgs| == |on|
    ensures Collected(msgs, on, k) == Chosen(msgs[..k], on[..k])
  {
    if k > 0 {
      CollectedChosen(msgs, on, k - 1);
      ChosenStep(msgs, on, k - 1);
    }
  }

  /** Checking every rule one by one collects exactly the chosen messages. */
  lemma CollectedAll(msgs: seq<string>, on: seq<bool>)
    requires |msgs| == |on|
    ensures Collected(msgs, on, |msgs|) == Chosen(msgs, on)
  {
    CollectedChosen(msgs, on, |msgs|);
    assert msgs[..|msgs|] == msgs && on[..|on|] == on;
  }

  /** Choosing among the first k + 1 messages adds message k, when its flag is set, to the first k. */
  lemma {:induction false} ChosenStep(msgs: seq<string>, on: seq<bool>, k: nat)
    requires |msgs| == |on| && k < |msgs|
    ensures Chosen(msgs[..k + 1], on[..k + 1]) == Chosen(msgs[..k], on[..k]) + (if on[k] then [msgs[k]] else [])
  {
    if k > 0 {
      ChosenStep(msgs[1..], on[1..], k - 1);
      assert msgs[..k + 1][1..] == msgs[1..][..k] && on[..k + 1][1..] == on[1..][..k];
      assert msgs[..k][1..] == msgs[1..][..k - 1] && on[..k][1..] == on[1..][..k - 1];
    }
  }

  /** With distinct messages, a message is chosen exactly when its flag is set. */
  lemma {:induction false} ChosenMembers(msgs: seq<string>, on: seq<bool>)
    requires |msgs| == |on| && NoDup(msgs)
    ensures forall i :: 0 <= i < |msgs| ==> (msgs[i] in Chosen(msgs, on) <==> on[i])
  {
    if msgs != [] {
      var tail := msgs[1..];
      var rest := Chosen(tail, on[1..]);
      assert Chosen(msgs, on) == (if on[0] then [msgs[0]] else []) + rest;
      assert NoDup(tail) by {
        forall i, j | 0 <= i < j < |tail| ensures tail[i] != tail[j] { assert tail[i] == msgs[i + 1]; }
      }
      ChosenMembers(tail, on[1..]);
      assert msgs[0] !in tail by {
        forall j | 0 <= j < |tail| ensures tail[j] != msgs[0] { assert tail[j] == msgs[j + 1]; }
      }
      forall i | 0 <= i < |msgs| ensures msgs[i] in Chosen(msgs, on) <==> on[i] {
        if i > 0 {
          assert msgs[i] == tail[i - 1] && on[i] == on[1..][i - 1];
          assert msgs[i] != msgs[0];
        }
      }
    }
  }

  /** The chosen messages keep their relative order. */
  lemma {:induction false} ChosenInOrder(msgs: seq<string>, on: seq<bool>)
    requires |msgs| == |on|
    ensures IsSubseq(Chosen(msgs, on), msgs)
  {
    if msgs != [] {
      var rest := Chosen(msgs[1..], on[1..]);
      ChosenInOrder(msgs[1..], on[1..]);
      if on[0] {
        assert Chosen(msgs, on) == [msgs[0]] + rest;
        assert ([msgs[0]] + rest)[1..] == rest;
      } else {
        assert Chosen(msgs, on) == rest;
      }
    }
  }

  /** A score of 60 or more always gets the encouragement. */
  lemma GoodScoreEncouraged(p: Profile, meanYield: Option<real>, meanLoss: Option<real>)
    requires p.creditScore >= 60.0
    ensures AdviceText(p, meanYield, meanLoss) == KeepUp
  {
  }

  /**
   * Below 60, each message is in the advice exactly when its rule fires, and the
   * messages appear in rule order.
   */
  lemma AdviceRules(p: Profile, meanYield: Option<real>, meanLoss: Option<real>)
    requires p.creditScore < 60.0
    ensures forall i :: 0 <= i < |Messages| ==>
      (Messages[i] in Advice(p, meanYield, meanLoss) <==> Triggers(p, meanYield, meanLoss)[i])
    ensures IsSubseq(Advice(p, meanYield, meanLoss), Messages)
  {
    MessagesDistinct();
    ChosenMembers(Messages, Triggers(p, meanYield, meanLoss));
    ChosenInOrder(Messages, Triggers(p, meanYield, meanLoss));
  }

  /** The messages are distinct, and each is longer than the encouragement. */
  lemma MessagesDistinct()
    ensures NoDup(Messages)
    ensures forall m :: m in Messages ==> |m| > |KeepUp|
  {
  }

  /** Advice text made of messages never reads as the encouragement. */
  lemma JoinedAdviceNotKeepUp(advice: seq<string>)
    requires advice != [] && advice[0] in Messages
    ensures Join(advice, " ") != KeepUp
  {
    MessagesDistinct();
    JoinStartsWith(advice, " ");
  }

  /**
   * The encouragement is returned exactly when the score is 60 or more or no rule
   * fires; otherwise the text is the advice joined by single spaces.
   */
  lemma EncouragedIffNothingApplies(p: Profile, meanYield: Option<real>, meanLoss: Option<real>)
    ensures AdviceText(p, meanYield, meanLoss) == KeepUp <==>
      p.creditScore >= 60.0 || forall i :: 0 <= i < |Messages| ==> !Triggers(p, meanYield, meanLoss)[i]
  {
    var t := Triggers(p, meanYield, meanLoss);
    var advice := Advice(p, meanYield, meanLoss);
    if p.creditScore < 60.0 {
      AdviceRules(p, meanYield, meanLoss);
      if advice != [] {
        assert advice[0] in Messages;
        JoinedAdviceNotKeepUp(advice);
        var i :| 0 <= i < |Messages| && Messages[i] == advice[0];
        assert t[i];
      } else {
        forall i | 0 <= i < |Messages| ensures !t[i] {
          assert Messages[i] !in advice;
        }
      }
    }
  }
}

=== FILE: farmers_portal.dfy ===
/**
 * The farmer portal's SQLite store (tables users, facilities, crops, temp_logs),
 * its lookups, the per-crop storage-temperature rule and the "PHL Prompts" tab.
 *
 * The tables are sequences of rows in rowid order; each `INTEGER PRIMARY KEY
 * AUTOINCREMENT` column is fed from a per-table counter (SQLite's sqlite_sequence),
 * and `username` is UNIQUE.  A `SELECT` without `ORDER BY` returns rows in rowid
 * order, so `fetchone()` is the first matching row.
 */
module FarmersPortal {
  import opened Wrappers
  import opened Text
  import opened Seqs
  import opened Timestamps

  datatype User = User(userId: int, username: string, password: string)
  datatype Facility = Facility(facilityId: int, userId: int, name: string, location: string)
  datatype Crop = Crop(cropId: int, facilityId: int, cropName: string, quantity: real)
  datatype TempLog = TempLog(logId: int, facilityId: int, temperature: real, logTime: string)

  // ---------------------------------------------------------------- table invariants

  /**
   * An autoincrement id column (`id` reads it from a row): positive, never above the
   * table's counter, and strictly increasing in rowid order.
   */
  predicate AscendingIds<T>(rows: seq<T>, id: T -> int, top: int) {
    && (forall i :: 0 <= i < |rows| ==> 1 <= id(rows[i]) <= top)
    && (forall i, j :: 0 <= i < j < |rows| ==> id(rows[i]) < id(rows[j]))
  }

  /** Appending a row whose id is the next counter value keeps the ids ascending. */
  lemma AppendFreshId<T>(rows: seq<T>, id: T -> int, top: int, row: T)
    requires AscendingIds(rows, id, top) && top >= 0 && id(row) == top + 1
    ensures AscendingIds(rows + [row], id, top + 1)
    ensures forall x :: x in rows ==> id(x) < id(row)
  {
    var r := rows + [row];
    assert forall i :: 0 <= i < |rows| ==> r[i] == rows[i];
    forall x | x in rows ensures id(x) < id(row) {
      var k :| 0 <= k < |rows| && rows[k] == x;
    }
  }

  /** The UNIQUE constraint on users.username. */
  predicate UniqueUsernames(us: seq<User>) {
    forall i, j :: 0 <= i < j < |us| ==> us[i].username != us[j].username
  }

  lemma SameUsernameSameRow(us: seq<User>, i: int, j: int)
    requires UniqueUsernames(us) && 0 <= i < |us| && 0 <= j < |us| && us[i].username == us[j].username
    ensures i == j
  {
  }

  predicate UsernameTaken(us: seq<User>, username: string) {
    exists u :: u in us && u.username == username
  }

  // ---------------------------------------------------------------- get_user

  /** Python truthiness of the optional password: `None` and `""` are false. */
  predicate Truthy(password: Option<string>) {
    password.Some? && password.value != ""
  }

  predicate UserMatches(u: User, username: string, password: Option<string>) {
    u.username == username && (!Truthy(password) || u.password == password.value)
  }

  /**
   * `get_user(username, password)`: the `(user_id, username)` of the first user with
   * that username and, only when the password is truthy, that password.
   */
  function GetUser(us: seq<User>, username: string, password: Option<string>): Option<(int, string)> {
    var m := Filter(us, (u: User) => UserMatches(u, username, password));
    if m == [] then None else Some((m[0].userId, m[0].username))
  }

  lemma GetUserSpec(us: seq<User>, username: string, password: Option<string>)
    requires UniqueUsernames(us)
    ensures GetUser(us, username, password).Some? <==> exists u :: u in us && UserMatches(u, username, password)
    ensures forall u :: u in us && UserMatches(u, username, password) ==>
      GetUser(us, username, password) == Some((u.userId, username))
  {
    var p := u => UserMatches(u, username, password);
    FilterSpec(us, p);
    var m := Filter(us, p);
    forall u | u in us && UserMatches(u, username, password)
      ensures GetUser(us, username, password) == Some((u.userId, username))
    {
      assert u in m;
      assert m[0] in us && m[0].username == username;
      var i :| 0 <= i < |us| && us[i] == u;
      var j :| 0 <= j < |us| && us[j] == m[0];
      SameUsernameSameRow(us, i, j);
    }
  }

  /**
   * The login form passes whatever was typed; with an empty password `get_user`
   * skips the password test, so any registered username logs in.
   */
  lemma EmptyPasswordLogsIn(us: seq<User>, u: User)
    requires UniqueUsernames(us) && u in us
    ensures GetUser(us, u.username, Some("")) == Some((u.userId, u.username))
  {
    GetUserSpec(us, u.username, Some(""));
  }

  /** Corrected login: the stored password must equal the typed one, empty or not. */
  function CheckedLogin(us: seq<User>, username: string, password: string): (r: Option<(int, string)>)
    ensures r.Some? ==> exists u :: u in us && u.username == username && u.password == password && r.value.0 == u.userId
  {
    var m := Filter(us, (u: User) => u.username == username && u.password == password);
    if m == [] then None else (assert m[0] in m; Some((m[0].userId, m[0].username)))
  }

  lemma CheckedLoginNeedsPassword(us: seq<User>, u: User, typed: string)
    requires UniqueUsernames(us) && u in us
    ensures CheckedLogin(us, u.username, typed).Some? <==> typed == u.password
  {
    var p := (v: User) => v.username == u.username && v.password == typed;
    FilterSpec(us, p);
    if CheckedLogin(us, u.username, typed).Some? {
      var m := Filter(us, p);
      assert m[0] in us && m[0].username == u.username;
      var i :| 0 <= i < |us| && us[i] == u;
      var j :| 0 <= j < |us| && us[j] == m[0];
      SameUsernameSameRow(us, i, j);
    }
  }

  // ---------------------------------------------------------------- facilities and crops

  /** `SELECT * FROM facilities WHERE user_id=?`. */
  function FacilitiesOf(fs: seq<Facility>, userId: int): seq<Facility> {
    Filter(fs, (f: Facility) => f.userId == userId)
  }

  /** `SELECT * FROM crops WHERE facility_id=?`. */
  function CropsOf(cs: seq<Crop>, facilityId: int): seq<Crop> {
    Filter(cs, (c: Crop) => c.facilityId == facilityId)
  }

  lemma GetFacilitiesSpec(fs: seq<Facility>, userId: int)
    ensures IsSubseq(FacilitiesOf(fs, userId), fs)
    ensures forall f :: f in FacilitiesOf(fs, userId) <==> f in fs && f.userId == userId
    ensures forall f :: multiset(FacilitiesOf(fs, userId))[f] == if f.userId == userId then multiset(fs)[f] else 0
  {
    FilterSpec(fs, (f: Facility) => f.userId == userId);
  }

  lemma NoFacilitiesSpec(fs: seq<Facility>, userId: int)
    ensures FacilitiesOf(fs, userId) == [] <==> forall f :: f in fs ==> f.userId != userId
  {
    FilterMembers(fs, (f: Facility) => f.userId == userId);
    if FacilitiesOf(fs, userId) != [] {
      assert FacilitiesOf(fs, userId)[0] in FacilitiesOf(fs, userId);
    }
  }

  lemma GetCropsSpec(cs: seq<Crop>, facilityId: int)
    ensures IsSubseq(CropsOf(cs, facilityId), cs)
    ensures forall c :: c in CropsOf(cs, facilityId) <==> c in cs && c.facilityId == facilityId
    ensures forall c :: multiset(CropsOf(cs, facilityId))[c] == if c.facilityId == facilityId then multiset(cs)[c] else 0
  {
    FilterSpec(cs, (c: Crop) => c.facilityId == facilityId);
  }

  /** `get_facility_name`: the name of the facility with that id, or "Unknown". */
  function FacilityName(fs: seq<Facility>, facilityId: int): string {
    var m := Filter(fs, (f: Facility) => f.facilityId == facilityId);
    if m == [] then "Unknown" else m[0].name
  }

  lemma FacilityNameSpec(fs: seq<Facility>, facilityId: int)
    requires forall i, j :: 0 <= i < j < |fs| ==> fs[i].facilityId != fs[j].facilityId
    ensures (forall f :: f in fs ==> f.facilityId != facilityId) ==> FacilityName(fs, facilityId) == "Unknown"
    ensures forall f :: f in fs && f.facilityId == facilityId ==> FacilityName(fs, facilityId) == f.name
  {
    var p := (f: Facility) => f.facilityId == facilityId;
    FilterSpec(fs, p);
    var m := Filter(fs, p);
    forall f | f in fs && f.facilityId == facilityId ensures FacilityName(fs, facilityId) == f.name {
      assert f in m;
      assert m[0] in m;
      var i :| 0 <= i < |fs| && fs[i] == f;
      var j :| 0 <= j < |fs| && fs[j] == m[0];
      assert i == j;
    }
  }

  // ---------------------------------------------------------------- temperature logs

  /** `ORDER BY log_time DESC`: newer (larger) log_time first; equal times keep rowid order. */
  predicate NewerFirst(a: TempLog, b: TempLog) {
    LexLe(b.logTime, a.logTime)
  }

  lemma NewerFirstPreorder()
    ensures TotalPreorder(NewerFirst)
  {
    forall a: TempLog, b: TempLog ensures NewerFirst(a, b) || NewerFirst(b, a) {
      LexLeTotal(a.logTime, b.logTime);
    }
    forall a: TempLog, b: TempLog, c: TempLog | NewerFirst(a, b) && NewerFirst(b, c) ensures NewerFirst(a, c) {
      LexLeTrans(c.logTime, b.logTime, a.logTime);
    }
  }

  /**
   * `get_temp_logs(facility_id, limit)`:
   * `SELECT * FROM temp_logs WHERE facility_id=? ORDER BY log_time DESC LIMIT ?`.
   * A negative LIMIT means no limit in SQLite.
   */
  function LatestLogs(ls: seq<TempLog>, facilityId: int, limit: int): seq<TempLog> {
    var mine := LogsOf(ls, facilityId);
    if limit < 0 then Sort(mine, NewerFirst) else TopK(mine, limit, NewerFirst)
  }

  /** The logs of one facility, in rowid order. */
  function LogsOf(ls: seq<TempLog>, facilityId: int): seq<TempLog> {
    Filter(ls, (l: TempLog) => l.facilityId == facilityId)
  }

  lemma LogsOfSpec(ls: seq<TempLog>, facilityId: int)
    ensures forall l :: l in LogsOf(ls, facilityId) <==> l in ls && l.facilityId == facilityId
    ensures forall l :: multiset(LogsOf(ls, facilityId))[l] == if l.facilityId == facilityId then multiset(ls)[l] else 0
    ensures multiset(LogsOf(ls, facilityId)) <= multiset(ls)
  {
    FilterSpec(ls, (l: TempLog) => l.facilityId == facilityId);
  }

  /**
   * At most `limit` logs, all of that facility, newest first, and no log of the
   * facility that was left out is newer than one that was returned.
   */
  lemma GetTempLogsSpec(ls: seq<TempLog>, facilityId: int, limit: nat)
    ensures |LatestLogs(ls, facilityId, limit)| == if limit < |LogsOf(ls, facilityId)| then limit else |LogsOf(ls, facilityId)|
    ensures forall x :: x in LatestLogs(ls, facilityId, limit) ==> x in ls && x.facilityId == facilityId
    ensures forall i, j :: 0 <= i < j < |LatestLogs(ls, facilityId, limit)| ==>
      LexLe(LatestLogs(ls, facilityId, limit)[j].logTime, LatestLogs(ls, facilityId, limit)[i].logTime)
    ensures multiset(LatestLogs(ls, facilityId, limit)) <= multiset(ls)
    ensures forall x, y :: (x in LatestLogs(ls, facilityId, limit) &&
      y in multiset(ls) - multiset(LatestLogs(ls, facilityId, limit)) && y.facilityId == facilityId) ==>
        LexLe(y.logTime, x.logTime)
  {
    var mine := LogsOf(ls, facilityId);
    var r := LatestLogs(ls, facilityId, limit);
    LogsOfSpec(ls, facilityId);
    NewerFirstPreorder();
    TopKSpec(mine, limit, NewerFirst);
    assert r == TopK(mine, limit, NewerFirst);
    forall x | x in r ensures x in ls && x.facilityId == facilityId {
      assert x in multiset(mine);
    }
    forall x, y | x in r && y in multiset(ls) - multiset(r) && y.facilityId == facilityId
      ensures LexLe(y.logTime, x.logTime)
    {
      assert y in multiset(mine) - multiset(r);
      assert NewerFirst(x, y);
    }
  }

  /** With a negative limit every log of the facility comes back, newest first. */
  lemma UnlimitedTempLogs(ls: seq<TempLog>, facilityId: int, limit: int)
    requires limit < 0
    ensures var r := LatestLogs(ls, facilityId, limit);
      && multiset(r) == multiset(LogsOf(ls, facilityId))
      && (forall i, j :: 0 <= i < j < |r| ==> LexLe(r[j].logTime, r[i].logTime))
  {
    NewerFirstPreorder();
    SortSorted(LogsOf(ls, facilityId), NewerFirst);
  }

  /**
   * Logs stamped by `add_temp_log` carry `Format(now)`, so the text order used by
   * the query is the clock order: no left-out log was taken later than a returned one.
   */
  lemma LatestLogsAreNewest(ls: seq<TempLog>, facilityId: int, limit: nat, x: TempLog, y: TempLog, tx: DateTime, ty: DateTime)
    requires x in LatestLogs(ls, facilityId, limit)
    requires y in multiset(ls) - multiset(LatestLogs(ls, facilityId, limit)) && y.facilityId == facilityId
    requires Valid(tx) && Valid(ty) && x.logTime == Format(tx) && y.logTime == Format(ty)
    ensures NotAfter(ty, tx)
  {
    GetTempLogsSpec(ls, facilityId, limit);
    FormatOrder(ty, tx);
  }

  // ---------------------------------------------------------------- phl_prompt

  /** CROP_TEMP_THRESHOLDS, in degrees Celsius. */
  const CropTempThresholds: map<string, real> :=
    map["maize" := 27.0, "rice" := 25.0, "cassava" := 25.0, "wheat" := 26.0, "yam" := 24.0, "other" := 26.0]

  /** `CROP_TEMP_THRESHOLDS.get(crop_name.lower(), CROP_TEMP_THRESHOLDS["other"])`. */
  function Threshold(cropName: string): real {
    var key := Lower(cropName);
    if key in CropTempThresholds then CropTempThresholds[key] else CropTempThresholds["other"]
  }

  /** The two messages of `phl_prompt` (the text itself is not modelled). */
  datatype Prompt =
    | TooHot(crop: string, temperature: real, threshold: real)
    | Safe(crop: string)

  function PhlPrompt(cropName: string, temp: real): (r: Prompt)
    ensures r.crop == cropName
  {
    var thresh := Threshold(cropName);
    if temp > thresh then TooHot(cropName, temp, thresh) else Safe(cropName)
  }

  /**
   * A warning is issued exactly when the temperature is strictly above the crop's
   * threshold (so a temperature equal to it is safe), and it names that threshold.
   */
  lemma PhlPromptSpec(cropName: string, temp: real)
    ensures PhlPrompt(cropName, temp).TooHot? <==> temp > Threshold(cropName)
    ensures PhlPrompt(cropName, Threshold(cropName)).Safe?
    ensures PhlPrompt(cropName, temp).TooHot? ==>
      PhlPrompt(cropName, temp) == TooHot(cropName, temp, Threshold(cropName))
  {
  }

  /** The lookup ignores case; a crop missing from the table gets 26 degrees. */
  lemma ThresholdSpec(cropName: string)
    ensures Threshold(cropName) == Threshold(Lower(cropName))
    ensures Lower(cropName) !in CropTempThresholds ==> Threshold(cropName) == 26.0
  {
    LowerIdempotent(cropName);
  }

  /** Maize, whatever its capitalisation, may be stored at up to 27 degrees. */
  lemma MaizeThreshold()
    ensures Threshold("maize") == 27.0 && Threshold("Maize") == 27.0
  {
    assert Lower("Maize") == "maize";
  }

  lemma {:induction false} LowerIdempotent(s: string)
    ensures Lower(Lower(s)) == Lower(s)
  {
    if s != [] { LowerIdempotent(s[1..]); }
  }

  // ---------------------------------------------------------------- the PHL Prompts tab

  datatype Section =
    | CropPrompts(prompts: seq<(string, Prompt)>)
    | NoTempLogs   // "No temperature logs yet."
    | NoCrops      // "No crops in this facility."

  datatype PromptsPage =
    | NoFacilities // "Add a storage facility first."
    | Sections(sections: seq<(Facility, Section)>)

  function PromptsFor(cdf: seq<Crop>, lastTemp: real): seq<(string, Prompt)> {
    seq(|cdf|, k requires 0 <= k < |cdf| => (cdf[k].cropName, PhlPrompt(cdf[k].cropName, lastTemp)))
  }

  /** The inner loop of the tab: one prompt per crop, all from the same temperature. */
  method PromptEachCrop(cdf: seq<Crop>, lastTemp: real) returns (prompts: seq<(string, Prompt)>)
    ensures prompts == PromptsFor(cdf, lastTemp)
  {
    prompts := [];
    var j := 0;
    while j < |cdf|
      invariant 0 <= j <= |cdf|
      invariant |prompts| == j
      invariant forall k :: 0 <= k < j ==> prompts[k] == (cdf[k].cropName, PhlPrompt(cdf[k].cropName, lastTemp))
    {
      prompts := prompts + [(cdf[j].cropName, PhlPrompt(cdf[j].cropName, lastTemp))];
      j := j + 1;
    }
  }

  /** The body of the tab's loop over facilities: read the crops and the newest log, then prompt. */
  method FacilitySection(cs: seq<Crop>, ls: seq<TempLog>, facilityId: int) returns (section: Section)
    ensures section == SectionFor(cs, ls, facilityId)
  {
    var cdf := CropsOf(cs, facilityId);
    var tdf := LatestLogs(ls, facilityId, 1);
    if |cdf| > 0 && |tdf| > 0 {
      var prompts := PromptEachCrop(cdf, tdf[0].temperature);
      section := CropPrompts(prompts);
    } else if |cdf| > 0 {
      section := NoTempLogs;
    } else {
      section := NoCrops;
    }
  }

  /** What the tab shows for one facility: prompts from the newest log, or a warning. */
  function SectionFor(cs: seq<Crop>, ls: seq<TempLog>, facilityId: int): Section {
    var cdf := CropsOf(cs, facilityId);
    var newest := NewestLog(ls, facilityId);
    if |cdf| > 0 && newest.Some? then CropPrompts(PromptsFor(cdf, newest.value.temperature))
    else if |cdf| > 0 then NoTempLogs
    else NoCrops
  }

  function PromptsPageFor(fs: seq<Facility>, cs: seq<Crop>, ls: seq<TempLog>, userId: int): PromptsPage {
    var fdf := FacilitiesOf(fs, userId);
    if fdf == [] then NoFacilities else Sections(SectionsFor(cs, ls, fdf))
  }

  /** One section per facility, in facility order. */
  function SectionsFor(cs: seq<Crop>, ls: seq<TempLog>, fdf: seq<Facility>): seq<(Facility, Section)> {
    seq(|fdf|, i requires 0 <= i < |fdf| => (fdf[i], SectionFor(cs, ls, fdf[i].facilityId)))
  }

  /** The tab's loop over the user's facilities. */
  method BuildSections(cs: seq<Crop>, ls: seq<TempLog>, fdf: seq<Facility>) returns (sections: seq<(Facility, Section)>)
    ensures sections == SectionsFor(cs, ls, fdf)
  {
    sections := [];
    var i := 0;
    while i < |fdf|
      invariant 0 <= i <= |fdf|
      invariant sections == SectionsFor(cs, ls, fdf[..i])
    {
      var row := fdf[i];
      var section := FacilitySection(cs, ls, row.facilityId);
      assert fdf[..i + 1] == fdf[..i] + [row];
      sections := sections + [(row, section)];
      i := i + 1;
    }
    assert fdf[..i] == fdf;
  }

  /** `get_temp_logs(facility_id, limit=1)`: the newest log, if any. */
  function NewestLog(ls: seq<TempLog>, facilityId: int): Option<TempLog> {
    var tdf := LatestLogs(ls, facilityId, 1);
    if |tdf| > 0 then Some(tdf[0]) else None
  }

  /** There is a newest log exactly when the facility has logs. */
  lemma NewestLogExists(ls: seq<TempLog>, facilityId: int)
    ensures NewestLog(ls, facilityId).Some? <==> exists l :: l in ls && l.facilityId == facilityId
  {
    var mine := LogsOf(ls, facilityId);
    FilterMembers(ls, (l: TempLog) => l.facilityId == facilityId);
    if l :| l in ls && l.facilityId == facilityId {
      assert l in mine;
    }
    if mine != [] {
      assert mine[0] in mine;
    }
  }

  /** The newest log belongs to the facility and no log of the facility is newer. */
  lemma NewestLogIsNewest(ls: seq<TempLog>, facilityId: int)
    ensures NewestLog(ls, facilityId).Some? ==>
      var n := NewestLog(ls, facilityId).value;
      n in ls && n.facilityId == facilityId &&
      forall l :: l in ls && l.facilityId == facilityId ==> LexLe(l.logTime, n.logTime)
  {
    var tdf := LatestLogs(ls, facilityId, 1);
    if |tdf| > 0 {
      GetTempLogsSpec(ls, facilityId, 1);
      var n := tdf[0];
      assert tdf == [n];
      forall l | l in ls && l.facilityId == facilityId ensures LexLe(l.logTime, n.logTime) {
        if l == n {
          LexLeRefl(l.logTime);
        } else {
          assert l in multiset(ls) - multiset(tdf);
        }
      }
    }
  }

  /** A log that is strictly newer than every other log of its facility is the newest one. */
  lemma NewestLogUnique(ls: seq<TempLog>, facilityId: int, x: TempLog)
    requires x in ls && x.facilityId == facilityId
    requires forall l :: l in ls && l.facilityId == facilityId ==>
      LexLe(l.logTime, x.logTime) && (l.logTime == x.logTime ==> l == x)
    ensures NewestLog(ls, facilityId) == Some(x)
  {
    NewestLogExists(ls, facilityId);
    NewestLogIsNewest(ls, facilityId);
    var n := NewestLog(ls, facilityId).value;
    LexLeAntisym(n.logTime, x.logTime);
  }

  lemma CropsOfEmpty(cs: seq<Crop>, facilityId: int)
    ensures CropsOf(cs, facilityId) == [] <==> forall c :: c in cs ==> c.facilityId != facilityId
  {
    FilterMembers(cs, (c: Crop) => c.facilityId == facilityId);
    if CropsOf(cs, facilityId) != [] {
      assert CropsOf(cs, facilityId)[0] in CropsOf(cs, facilityId);
    }
  }

  /**
   * One facility's section: prompts exactly when it has both crops and logs,
   * otherwise "No temperature logs yet." when it has crops, and "No crops in this
   * facility." when it has none.
   */
  lemma SectionForCases(cs: seq<Crop>, ls: seq<TempLog>, facilityId: int)
    ensures SectionFor(cs, ls, facilityId).CropPrompts? <==>
      (exists c :: c in cs && c.facilityId == facilityId) && (exists l :: l in ls && l.facilityId == facilityId)
    ensures SectionFor(cs, ls, facilityId).NoTempLogs? <==>
      (exists c :: c in cs && c.facilityId == facilityId) && (forall l :: l in ls ==> l.facilityId != facilityId)
    ensures SectionFor(cs, ls, facilityId).NoCrops? <==> forall c :: c in cs ==> c.facilityId != facilityId
  {
    CropsOfEmpty(cs, facilityId);
    NewestLogExists(ls, facilityId);
  }

  /** The prompts: one per crop of the facility, in crop order, each judged on the newest log. */
  lemma SectionForPrompts(cs: seq<Crop>, ls: seq<TempLog>, facilityId: int)
    requires SectionFor(cs, ls, facilityId).CropPrompts?
    ensures NewestLog(ls, facilityId).Some?
    ensures var ps := SectionFor(cs, ls, facilityId).prompts;
      |ps| == |CropsOf(cs, facilityId)| &&
      forall k :: 0 <= k < |ps| ==> (ps[k].0 == CropsOf(cs, facilityId)[k].cropName &&
        (ps[k].1.TooHot? <==> NewestLog(ls, facilityId).value.temperature > Threshold(ps[k].0)))
  {
  }

  // ---------------------------------------------------------------- the store

  class Store {
    var users: seq<User>
    var facilities: seq<Facility>
    var crops: seq<Crop>
    var tempLogs: seq<TempLog>
    // sqlite_sequence: the largest id ever handed out by each table
    var userSeq: int
    var facilitySeq: int
    var cropSeq: int
    var logSeq: int

    ghost predicate Valid()
      reads this
    {
      && UniqueUsernames(users)
      && userSeq >= 0 && facilitySeq >= 0 && cropSeq >= 0 && logSeq >= 0
      && AscendingIds(users, (u: User) => u.userId, userSeq)
      && AscendingIds(facilities, (f: Facility) => f.facilityId, facilitySeq)
      && AscendingIds(crops, (c: Crop) => c.cropId, cropSeq)
      && AscendingIds(tempLogs, (l: TempLog) => l.logId, logSeq)
    }

    /** `init_db()` on a fresh database file: four empty tables. */
    constructor ()
      ensures Valid()
      ensures users == [] && facilities == [] && crops == [] && tempLogs == []
    {
      users, facilities, crops, tempLogs := [], [], [], [];
      userSeq, facilitySeq, cropSeq, logSeq := 0, 0, 0, 0;
    }

    /**
     * `add_user`: the INSERT succeeds (true) exactly when the username is free;
     * on the UNIQUE violation it returns false and nothing changes.
     */
    method AddUser(username: string, password: string) returns (ok: bool)
      requires Valid()
      modifies this
      ensures Valid()
      ensures ok <==> !UsernameTaken(old(users), username)
      ensures ok ==> users == old(users) + [User(old(userSeq) + 1, username, password)] && userSeq == old(userSeq) + 1
      ensures ok ==> forall u :: u in old(users) ==> u.userId < users[|users| - 1].userId
      ensures !ok ==> users == old(users) && userSeq == old(userSeq)
      ensures facilities == old(facilities) && crops == old(crops) && tempLogs == old(tempLogs)
      ensures facilitySeq == old(facilitySeq) && cropSeq == old(cropSeq) && logSeq == old(logSeq)
    {
      ok := !UsernameTaken(users, username);
      if ok {
        var row := User(userSeq + 1, username, password);
        AppendFreshId(users, (u: User) => u.userId, userSeq, row);
        users := users + [row];
        userSeq := userSeq + 1;
      }
    }

    /** `add_facility`: appends one row with a fresh id. */
    method AddFacility(userId: int, name: string, location: string)
      requires Valid()
      modifies this
      ensures Valid()
      ensures facilities == old(facilities) + [Facility(old(facilitySeq) + 1, userId, name, location)]
      ensures facilitySeq == old(facilitySeq) + 1
      ensures forall f :: f in old(facilities) ==> f.facilityId < old(facilitySeq) + 1
      ensures users == old(users) && crops == old(crops) && tempLogs == old(tempLogs)
      ensures userSeq == old(userSeq) && cropSeq == old(cropSeq) && logSeq == old(logSeq)
    {
      var row := Facility(facilitySeq + 1, userId, name, location);
      AppendFreshId(facilities, (f: Facility) => f.facilityId, facilitySeq, row);
      facilities := facilities + [row];
      facilitySeq := facilitySeq + 1;
    }

    /** `add_crop`: appends one row with a fresh id. */
    method AddCrop(facilityId: int, cropName: string, quantity: real)
      requires Valid()
      modifies this
      ensures Valid()
      ensures crops == old(crops) + [Crop(old(cropSeq) + 1, facilityId, cropName, quantity)]
      ensures cropSeq == old(cropSeq) + 1
      ensures forall c :: c in old(crops) ==> c.cropId < old(cropSeq) + 1
      ensures users == old(users) && facilities == old(facilities) && tempLogs == old(tempLogs)
      ensures userSeq == old(userSeq) && facilitySeq == old(facilitySeq) && logSeq == old(logSeq)
    {
      var row := Crop(cropSeq + 1, facilityId, cropName, quantity);
      AppendFreshId(crops, (c: Crop) => c.cropId, cropSeq, row);
      crops := crops + [row];
      cropSeq := cropSeq + 1;
    }

    /** `add_temp_log`: appends one row stamped with the clock reading `now`. */
    method AddTempLog(facilityId: int, temperature: real, now: DateTime)
      requires Valid() && Timestamps.Valid(now)
      modifies this
      ensures Valid()
      ensures tempLogs == old(tempLogs) + [TempLog(old(logSeq) + 1, facilityId, temperature, Format(now))]
      ensures logSeq == old(logSeq) + 1
      ensures forall l :: l in old(tempLogs) ==> l.logId < old(logSeq) + 1
      ensures users == old(users) && facilities == old(facilities) && crops == old(crops)
      ensures userSeq == old(userSeq) && facilitySeq == old(facilitySeq) && cropSeq == old(cropSeq)
    {
      var row := TempLog(logSeq + 1, facilityId, temperature, Format(now));
      AppendFreshId(tempLogs, (t: TempLog) => t.logId, logSeq, row);
      tempLogs := tempLogs + [row];
      logSeq := logSeq + 1;
    }

    /** The "Add Facility" button: the insert runs only when both fields are filled in. */
    method SubmitFacility(userId: int, name: string, location: string) returns (added: bool)
      requires Valid()
      modifies this
      ensures Valid()
      ensures added <==> name != "" && location != ""
      ensures added ==> facilities == old(facilities) + [Facility(old(facilitySeq) + 1, userId, name, location)]
      ensures !added ==> facilities == old(facilities) && facilitySeq == old(facilitySeq)
      ensures users == old(users) && crops == old(crops) && tempLogs == old(tempLogs)
    {
      added := name != "" && location != "";
      if added {
        AddFacility(userId, name, location);
      }
    }

    /** The "Add Crop" button: the insert runs only when a crop name is given. */
    method SubmitCrop(facilityId: int, cropName: string, quantity: real) returns (added: bool)
      requires Valid()
      modifies this
      ensures Valid()
      ensures added <==> cropName != ""
      ensures added ==> crops == old(crops) + [Crop(old(cropSeq) + 1, facilityId, cropName, quantity)]
      ensures !added ==> crops == old(crops) && cropSeq == old(cropSeq)
      ensures users == old(users) && facilities == old(facilities) && tempLogs == old(tempLogs)
    {
      added := cropName != "";
      if added {
        AddCrop(facilityId, cropName, quantity);
      }
    }

    /**
     * The "PHL Prompts" tab: for each of the user's facilities, read its crops and its
     * newest log (`get_temp_logs(..., limit=1)`), then prompt once per crop.
     */
    method PromptsTab(userId: int) returns (page: PromptsPage)
      ensures page == PromptsPageFor(facilities, crops, tempLogs, userId)
      ensures page.NoFacilities? <==> forall f :: f in facilities ==> f.userId != userId
    {
      var fs, cs, ls := facilities, crops, tempLogs;
      NoFacilitiesSpec(fs, userId);
      var fdf := FacilitiesOf(fs, userId);
      if |fdf| == 0 {
        return NoFacilities;
      }
      var sections := BuildSections(cs, ls, fdf);
      page := Sections(sections);
    }
  }
}

=== FILE: frames.dfy ===
// A pandas DataFrame as a list of column names and rows of cells, positionally
// aligned, and the column operations the scripts use: look-up, assignment,
// fillna, mean, astype('category').cat.codes, Series.map, projection and the
// left merge.

module Frames {
  import opened Wrappers
  import opened Text
  import opened Seqs

  /** One cell: missing (NaN / None), a number, or a string. */
  datatype Cell = Null | Num(n: real) | Str(s: string)

  type Row = seq<Cell>

  datatype Frame = Frame(columns: seq<string>, rows: seq<Row>)

  /** Every row has one cell per column. */
  predicate Rectangular(f: Frame) {
    forall i :: 0 <= i < |f.rows| ==> |f.rows[i]| == |f.columns|
  }

  // ---------------------------------------------------------------- columns

  /** Position of the first column called `name`. */
  function IndexOf(names: seq<string>, name: string): (r: Option<nat>)
    ensures r.None? <==> name !in names
    ensures r.Some? ==> r.value < |names| && names[r.value] == name
    ensures r.Some? ==> forall k :: 0 <= k < r.value ==> names[k] != name
  {
    if names == [] then None
    else if names[0] == name then Some(0)
    else
      match IndexOf(names[1..], name)
      case None => (assert names == [names[0]] + names[1..]; None)
      case Some(k) => Some(k + 1)
  }

  /** `df[name]`: the column's cells top to bottom, or a KeyError (None). */
  function Column(f: Frame, name: string): (r: Option<seq<Cell>>)
    requires Rectangular(f)
    ensures r.None? <==> name !in f.columns
    ensures r.Some? ==> |r.value| == |f.rows|
    ensures r.Some? ==> forall i :: 0 <= i < |f.rows| ==> r.value[i] == f.rows[i][IndexOf(f.columns, name).value]
  {
    var k :- IndexOf(f.columns, name);
    Some(seq(|f.rows|, i requires 0 <= i < |f.rows| => f.rows[i][k]))
  }

  /**
   * `df[name] = values`: overwrites the column in place when it exists, otherwise
   * appends it as the last column.
   */
  function SetColumn(f: Frame, name: string, values: seq<Cell>): (r: Frame)
    requires Rectangular(f) && |values| == |f.rows|
    ensures Rectangular(r) && |r.rows| == |f.rows|
    ensures r.columns == if name in f.columns then f.columns else f.columns + [name]
  {
    match IndexOf(f.columns, name)
    case Some(k) => Frame(f.columns, seq(|f.rows|, i requires 0 <= i < |f.rows| => f.rows[i][k := values[i]]))
    case None => Frame(f.columns + [name], seq(|f.rows|, i requires 0 <= i < |f.rows| => f.rows[i] + [values[i]]))
  }

  /** Reading back an assigned column gives exactly the assigned values. */
  lemma SetColumnRead(f: Frame, name: string, values: seq<Cell>)
    requires Rectangular(f) && |values| == |f.rows|
    ensures Column(SetColumn(f, name, values), name) == Some(values)
  {
    var r := SetColumn(f, name, values);
    var k := if name in f.columns then IndexOf(f.columns, name).value else |f.columns|;
    assert IndexOf(r.columns, name) == Some(k) by {
      if name !in f.columns {
        assert r.columns == f.columns + [name];
        assert r.columns[|f.columns|] == name;
      }
    }
    forall i | 0 <= i < |values| ensures r.rows[i][k] == values[i] {
      assert |f.rows[i]| == |f.columns|;
    }
    assert Column(r, name).value == values;
  }

  /** Assigning one column leaves every other column as it was. */
  lemma SetColumnOthers(f: Frame, name: string, values: seq<Cell>, other: string)
    requires Rectangular(f) && |values| == |f.rows| && other != name
    ensures Column(SetColumn(f, name, values), other) == Column(f, other)
  {
    var r := SetColumn(f, name, values);
    if other in f.columns {
      var k := IndexOf(f.columns, other).value;
      if name !in f.columns {
        IndexOfAppend(f.columns, name, other);
      }
      SetColumnCell(f, name, values, k);
      var a, b := Column(r, other).value, Column(f, other).value;
      assert forall i :: 0 <= i < |a| ==> a[i] == b[i];
      assert a == b;
    } else {
      assert other !in r.columns;
    }
  }

  /** Appending a name keeps the position of every name already present. */
  lemma {:induction false} IndexOfAppend(names: seq<string>, x: string, name: string)
    requires name in names
    ensures IndexOf(names + [x], name) == IndexOf(names, name)
  {
    if names[0] != name {
      assert (names + [x])[1..] == names[1..] + [x];
      IndexOfAppend(names[1..], x, name);
    }
  }

  /** Writing one column leaves every cell of another position in place. */
  lemma SetColumnCell(f: Frame, name: string, values: seq<Cell>, k: nat)
    requires Rectangular(f) && |values| == |f.rows| && k < |f.columns|
    requires IndexOf(f.columns, name) != Some(k)
    ensures forall i :: 0 <= i < |f.rows| ==> |SetColumn(f, name, values).rows[i]| > k
    ensures forall i :: 0 <= i < |f.rows| ==> SetColumn(f, name, values).rows[i][k] == f.rows[i][k]
  {
    var r := SetColumn(f, name, values);
    forall i | 0 <= i < |f.rows| ensures |r.rows[i]| > k && r.rows[i][k] == f.rows[i][k] {
      assert |f.rows[i]| == |f.columns|;
    }
  }

  // ---------------------------------------------------------------- fillna

  /** `series.fillna(v)`: every missing cell becomes `v`, every other cell stays. */
  function FillNa(col: seq<Cell>, v: Cell): (r: seq<Cell>)
    ensures |r| == |col|
    ensures forall i :: 0 <= i < |col| ==> r[i] == if col[i].Null? then v else col[i]
  {
    seq(|col|, i requires 0 <= i < |col| => if col[i].Null? then v else col[i])
  }

  /** Filling with a present value leaves nothing missing. */
  lemma FillNaComplete(col: seq<Cell>, v: Cell)
    requires !v.Null?
    ensures Null !in FillNa(col, v)
  {
    var r := FillNa(col, v);
    forall i | 0 <= i < |r| ensures r[i] != Null {
    }
  }

  /** `fillna(NaN)` (filling with the mean of an all-missing column) changes nothing. */
  lemma FillNaWithNull(col: seq<Cell>)
    ensures FillNa(col, Null) == col
  {
  }

  /**
   * `df[name] = df[name].fillna(v)`: the named column becomes its filled version;
   * a KeyError when the column is absent.
   */
  function FillColumn(df: Frame, name: string, v: Cell): (r: Option<Frame>)
    requires Rectangular(df)
    ensures r.Some? <==> name in df.columns
    ensures r.Some? ==> Rectangular(r.value) && r.value.columns == df.columns && |r.value.rows| == |df.rows|
    ensures r.Some? ==> Column(r.value, name) == Some(FillNa(Column(df, name).value, v))
  {
    var col :- Column(df, name);
    var filled := FillNa(col, v);
    SetColumnRead(df, name, filled);
    Some(SetColumn(df, name, filled))
  }

  /** Filling one column leaves every other column as it was. */
  lemma FillColumnOthers(df: Frame, name: string, v: Cell, other: string)
    requires Rectangular(df) && name in df.columns && other != name
    ensures Column(FillColumn(df, name, v).value, other) == Column(df, other)
  {
    SetColumnOthers(df, name, FillNa(Column(df, name).value, v), other);
  }

  /** `df[name] = df[name].fillna(df[name].mean())`. */
  function FillMean(df: Frame, name: string): (r: Option<Frame>)
    requires Rectangular(df)
    ensures r.Some? <==> name in df.columns
    ensures r.Some? ==> Rectangular(r.value) && r.value.columns == df.columns && |r.value.rows| == |df.rows|
    ensures r.Some? ==> Column(r.value, name) == Some(FillNa(Column(df, name).value, MeanCell(Column(df, name).value)))
  {
    var col :- Column(df, name);
    FillColumn(df, name, MeanCell(col))
  }

  /** Filling one column with its mean leaves every other column as it was. */
  lemma FillMeanOthers(df: Frame, name: string, other: string)
    requires Rectangular(df) && name in df.columns && other != name
    ensures Column(FillMean(df, name).value, other) == Column(df, other)
  {
    FillColumnOthers(df, name, MeanCell(Column(df, name).value), other);
  }

  /**
   * `df[target] = df[source].map(table)`: the target column (overwritten, or appended
   * when new) holds the codes of the source column; a KeyError when the source
   * column is absent.
   */
  function MapColumn(df: Frame, source: string, target: string, table: map<string, int>): (r: Option<Frame>)
    requires Rectangular(df)
    ensures r.Some? <==> source in df.columns
    ensures r.Some? ==> Rectangular(r.value) && |r.value.rows| == |df.rows|
    ensures r.Some? ==> r.value.columns == if target in df.columns then df.columns else df.columns + [target]
    ensures r.Some? ==> Column(r.value, target) == Some(MapCodes(Column(df, source).value, table))
  {
    var col :- Column(df, source);
    var codes := MapCodes(col, table);
    SetColumnRead(df, target, codes);
    Some(SetColumn(df, target, codes))
  }

  /** Mapping into one column leaves every other column as it was. */
  lemma MapColumnOthers(df: Frame, source: string, target: string, table: map<string, int>, other: string)
    requires Rectangular(df) && source in df.columns && other != target
    ensures Column(MapColumn(df, source, target, table).value, other) == Column(df, other)
  {
    SetColumnOthers(df, target, MapCodes(Column(df, source).value, table), other);
  }

  /** `df.fillna(v)`: every missing cell of every column becomes `v`. */
  function FillAll(df: Frame, v: Cell): (r: Frame)
    requires Rectangular(df)
    ensures Rectangular(r) && r.columns == df.columns && |r.rows| == |df.rows|
    ensures forall i, j :: 0 <= i < |df.rows| && 0 <= j < |df.columns| ==>
      r.rows[i][j] == if df.rows[i][j].Null? then v else df.rows[i][j]
  {
    Frame(df.columns, seq(|df.rows|, i requires 0 <= i < |df.rows| => FillNa(df.rows[i], v)))
  }

  /** After `df.fillna(v)` each column is that column filled with `v`. */
  lemma FillAllColumn(df: Frame, v: Cell, name: string)
    requires Rectangular(df) && name in df.columns
    ensures Column(FillAll(df, v), name) == Some(FillNa(Column(df, name).value, v))
  {
    var r := FillAll(df, v);
    var a, b := Column(r, name).value, FillNa(Column(df, name).value, v);
    assert forall i :: 0 <= i < |a| ==> a[i] == b[i];
    assert a == b;
  }

  // ---------------------------------------------------------------- mean

  /** The numbers of a column, skipping missing cells (pandas' `skipna`). */
  function Nums(col: seq<Cell>): (r: seq<real>)
    ensures |r| <= |col|
  {
    if col == [] then []
    else (if col[0].Num? then [col[0].n] else []) + Nums(col[1..])
  }

  function Sum(xs: seq<real>): real {
    if xs == [] then 0.0 else xs[0] + Sum(xs[1..])
  }

  /** `series.mean()`: None stands for the NaN of a column with no numbers. */
  function Mean(col: seq<Cell>): Option<real> {
    var xs := Nums(col);
    if xs == [] then None else Some(Sum(xs) / (|xs| as real))
  }

  /** The mean as a cell, for `fillna(series.mean())`. */
  function MeanCell(col: seq<Cell>): (c: Cell)
    ensures c.Null? <==> Mean(col).None?
  {
    match Mean(col)
    case None => Null
    case Some(m) => Num(m)
  }

  /** A column has a mean exactly when it has at least one number. */
  lemma {:induction false} MeanExists(col: seq<Cell>)
    ensures Mean(col).Some? <==> exists i :: 0 <= i < |col| && col[i].Num?
  {
    if col != [] {
      MeanExists(col[1..]);
      if !col[0].Num? && Nums(col[1..]) == [] {
        forall i | 0 <= i < |col| ensures !col[i].Num? {
          if i > 0 { assert col[i] == col[1..][i - 1]; }
        }
      }
      if col[0].Num? {
        assert Nums(col) != [];
      } else if exists i :: 0 <= i < |col| && col[i].Num? {
        var i :| 0 <= i < |col| && col[i].Num?;
        assert col[1..][i - 1].Num?;
      }
    }
  }

  /** Every number of the column is its cell's value. */
  lemma {:induction false} NumsMembers(col: seq<Cell>)
    ensures forall x :: x in Nums(col) <==> Num(x) in col
  {
    if col != [] {
      NumsMembers(col[1..]);
      assert col == [col[0]] + col[1..];
    }
  }

  /** A sum of `n` numbers no smaller than `lo` is at least `n * lo`. */
  lemma {:induction false} SumAtLeast(xs: seq<real>, lo: real)
    requires forall x :: x in xs ==> lo <= x
    ensures (|xs| as real) * lo <= Sum(xs)
  {
    if xs != [] {
      var tail := xs[1..];
      assert forall x :: x in tail ==> x in xs;
      SumAtLeast(tail, lo);
      assert xs[0] in xs;
      MulSucc(|tail| as real, lo);
    }
  }

  /** A sum of `n` numbers no larger than `hi` is at most `n * hi`. */
  lemma {:induction false} SumAtMost(xs: seq<real>, hi: real)
    requires forall x :: x in xs ==> x <= hi
    ensures Sum(xs) <= (|xs| as real) * hi
  {
    if xs != [] {
      var tail := xs[1..];
      assert forall x :: x in tail ==> x in xs;
      SumAtMost(tail, hi);
      assert xs[0] in xs;
      MulSucc(|tail| as real, hi);
      assert Sum(xs) == xs[0] + Sum(tail);
      assert |xs| as real == |tail| as real + 1.0;
    }
  }

  lemma MulSucc(n: real, v: real)
    ensures (n + 1.0) * v == n * v + v
  {
  }

  /** The mean of numbers that all lie in [lo, hi] lies in [lo, hi]. */
  lemma MeanBounds(col: seq<Cell>, lo: real, hi: real)
    requires forall c :: c in col && c.Num? ==> lo <= c.n <= hi
    requires Mean(col).Some?
    ensures lo <= Mean(col).value <= hi
  {
    var xs := Nums(col);
    NumsMembers(col);
    SumAtLeast(xs, lo);
    SumAtMost(xs, hi);
    var n := |xs| as real;
    DivBounds(lo, Sum(xs), hi, n);
  }

  lemma DivBounds(lo: real, s: real, hi: real, n: real)
    requires n > 0.0 && n * lo <= s <= n * hi
    ensures lo <= s / n <= hi
  {
    var m := s / n;
    assert s == m * n;
  }

  /** Filling missing cells with the mean keeps the column within the numbers' bounds. */
  lemma FillMeanBounds(col: seq<Cell>, lo: real, hi: real)
    requires forall c :: c in col && c.Num? ==> lo <= c.n <= hi
    requires forall c :: c in col ==> !c.Str?
    ensures forall c :: c in FillNa(col, MeanCell(col)) && c.Num? ==> lo <= c.n <= hi
  {
    if Mean(col).Some? {
      MeanBounds(col, lo, hi);
    }
    var r := FillNa(col, MeanCell(col));
    forall c | c in r && c.Num? ensures lo <= c.n <= hi {
      var i :| 0 <= i < |r| && r[i] == c;
      assert col[i] in col;
    }
  }

  // ---------------------------------------------------------------- categories

  /**
   * The order pandas sorts categories in: numbers by value, strings by code
   * point, and (for a mixed column) numbers before strings.
   */
  predicate CellLt(a: Cell, b: Cell) {
    match (a, b)
    case (Num(x), Num(y)) => x < y
    case (Num(_), Str(_)) => true
    case (Str(x), Str(y)) => LexLe(x, y) && x != y
    case _ => false
  }

  lemma CellLtIrreflexive(a: Cell)
    ensures !CellLt(a, a)
  {
  }

  lemma CellLtTrans(a: Cell, b: Cell, c: Cell)
    requires CellLt(a, b) && CellLt(b, c)
    ensures CellLt(a, c)
  {
    if a.Str? {
      LexLeTrans(a.s, b.s, c.s);
      if a.s == c.s {
        LexLeAntisym(a.s, b.s);
      }
    }
  }

  lemma CellLtTotal(a: Cell, b: Cell)
    requires !a.Null? && !b.Null? && a != b
    ensures CellLt(a, b) || CellLt(b, a)
  {
    if a.Str? && b.Str? {
      LexLeTotal(a.s, b.s);
    }
  }

  /**
   * The category order as a total preorder on all cells, missing cells last: the
   * order `groupby` sorts its keys in.
   */
  function CellLe(): (Cell, Cell) -> bool {
    (a: Cell, b: Cell) => if a.Null? then b.Null? else b.Null? || !CellLt(b, a)
  }

  lemma CellLeTotalPreorder()
    ensures TotalPreorder(CellLe())
  {
    forall a: Cell, b: Cell ensures CellLe()(a, b) || CellLe()(b, a) {
      if CellLt(a, b) && CellLt(b, a) {
        CellLtTrans(a, b, a);
        CellLtIrreflexive(a);
      }
    }
    forall a: Cell, b: Cell, c: Cell | CellLe()(a, b) && CellLe()(b, c) ensures CellLe()(a, c) {
      if !a.Null? && !b.Null? && !c.Null? && CellLt(c, a) {
        if a == b {
        } else {
          CellLtTotal(a, b);
          CellLtTrans(c, a, b);
        }
      }
    }
  }

  /** Among present cells, sorted and distinct means strictly increasing in category order. */
  lemma SortedStrict(s: seq<Cell>)
    requires Sorted(s, CellLe()) && NoDup(s) && Null !in s
    ensures forall i, j :: 0 <= i < j < |s| ==> CellLt(s[i], s[j])
  {
    forall i, j | 0 <= i < j < |s| ensures CellLt(s[i], s[j]) {
      assert s[i] in s && s[j] in s;
      CellLtTotal(s[i], s[j]);
    }
  }

  /** The categories of a column: its distinct present values. */
  function Categories(col: seq<Cell>): set<Cell> {
    set c | c in col && !c.Null?
  }

  /** The categories that sort strictly before `x`. */
  function Below(col: seq<Cell>, x: Cell): set<Cell> {
    set c | c in col && !c.Null? && CellLt(c, x)
  }

  /** `.cat.codes` of one cell: its category's position in sorted order, -1 when missing. */
  function Code(col: seq<Cell>, x: Cell): int {
    if x.Null? then -1 else |Below(col, x)|
  }

  /** `series.astype('category').cat.codes`. */
  function CatCodes(col: seq<Cell>): (r: seq<int>)
    ensures |r| == |col|
  {
    seq(|col|, i requires 0 <= i < |col| => Code(col, col[i]))
  }

  /** A present value's code lies in 0 .. k-1 for k categories; a missing one gets -1. */
  lemma CodeRange(col: seq<Cell>, x: Cell)
    requires x in col
    ensures x.Null? ==> Code(col, x) == -1
    ensures !x.Null? ==> 0 <= Code(col, x) < |Categories(col)|
  {
    if !x.Null? {
      assert x in Categories(col);
      SubsetCard(Below(col, x), Categories(col) - {x});
    }
  }

  /** Codes follow the category order: a smaller value gets a smaller code. */
  lemma CodeOrder(col: seq<Cell>, x: Cell, y: Cell)
    requires x in col && !x.Null? && !y.Null? && CellLt(x, y)
    ensures Code(col, x) < Code(col, y)
  {
    forall c | c in Below(col, x) ensures c in Below(col, y) {
      CellLtTrans(c, x, y);
    }
    CellLtIrreflexive(x);
    assert x in Below(col, y) && x !in Below(col, x);
    SubsetCard(Below(col, x), Below(col, y) - {x});
  }

  lemma SubsetCard<T>(a: set<T>, b: set<T>)
    requires a <= b
    ensures |a| <= |b|
  {
    if a != {} {
      var x :| x in a;
      SubsetCard(a - {x}, b - {x});
    }
  }

  /** Two cells of a column get the same code exactly when they hold the same value. */
  lemma CodesInjective(col: seq<Cell>, i: int, j: int)
    requires 0 <= i < |col| && 0 <= j < |col|
    ensures CatCodes(col)[i] == CatCodes(col)[j] <==> col[i] == col[j]
  {
    var x, y := col[i], col[j];
    if x != y {
      if x.Null? {
        CodeRange(col, y);
      } else if y.Null? {
        CodeRange(col, x);
      } else {
        CellLtTotal(x, y);
        if CellLt(x, y) {
          CodeOrder(col, x, y);
        } else {
          CodeOrder(col, y, x);
        }
      }
    }
  }

  // ---------------------------------------------------------------- map

  /** `series.map(table)`: a string found in the table becomes its code, anything else NaN. */
  function MapCodes(col: seq<Cell>, table: map<string, int>): (r: seq<Cell>)
    ensures |r| == |col|
  {
    seq(|col|, i requires 0 <= i < |col| =>
      if col[i].Str? && col[i].s in table then Num(table[col[i].s] as real) else Null)
  }

  /** Each mapped cell is its string's code when the table knows the string, else missing. */
  lemma MapCodesSpec(col: seq<Cell>, table: map<string, int>, i: int)
    requires 0 <= i < |col|
    ensures (exists s :: col[i] == Str(s) && s in table) ==> MapCodes(col, table)[i] == Num(table[col[i].s] as real)
    ensures !(exists s :: col[i] == Str(s) && s in table) ==> MapCodes(col, table)[i] == Null
  {
  }

  // ---------------------------------------------------------------- projection

  /** `df[names]`: the named columns in the order given, or a KeyError. */
  function Project(f: Frame, names: seq<string>): (r: Option<Frame>)
    requires Rectangular(f)
    ensures r.None? <==> exists n :: n in names && n !in f.columns
    ensures r.Some? ==> r.value.columns == names && |r.value.rows| == |f.rows| && Rectangular(r.value)
  {
    if forall n :: n in names ==> n in f.columns then
      var idx := seq(|names|, k requires 0 <= k < |names| => IndexOf(f.columns, names[k]).value);
      Some(Frame(names, seq(|f.rows|, i requires 0 <= i < |f.rows| => Pick(f.rows[i], idx))))
    else None
  }

  /** The cells of `row` at the positions `idx`, in that order. */
  function Pick(row: Row, idx: seq<nat>): (r: Row)
    ensures |r| == |idx|
    ensures forall k :: 0 <= k < |idx| && idx[k] < |row| ==> r[k] == row[idx[k]]
  {
    seq(|idx|, k requires 0 <= k < |idx| => if idx[k] < |row| then row[idx[k]] else Null)
  }

  /** A projected column holds the source column's cells. */
  lemma ProjectColumn(f: Frame, names: seq<string>, name: string)
    requires Rectangular(f) && Project(f, names).Some? && name in names
    ensures Column(Project(f, names).value, name) == Column(f, name)
  {
    var p := Project(f, names).value;
    var k := IndexOf(names, name).value;
    var j := IndexOf(f.columns, name).value;
    forall i | 0 <= i < |f.rows| ensures p.rows[i][k] == f.rows[i][j] {
      assert names[k] in names;
    }
    assert Column(p, name).value == Column(f, name).value;
  }
  // ---------------------------------------------------------------- merge

  /** Positions of the key columns. */
  function KeyIndices(cols: seq<string>, on: seq<string>): (r: seq<nat>)
    requires forall n :: n in on ==> n in cols
    ensures |r| == |on|
    ensures forall k :: 0 <= k < |r| ==> r[k] < |cols| && cols[r[k]] == on[k]
  {
    seq(|on|, k requires 0 <= k < |on| => IndexOf(cols, on[k]).value)
  }

  /** Positions, from `i` on, of the columns that are not keys, in order. */
  function OtherIndices(cols: seq<string>, on: seq<string>, i: nat): (r: seq<nat>)
    requires i <= |cols|
    ensures forall k :: 0 <= k < |r| ==> i <= r[k] < |cols| && cols[r[k]] !in on
    decreases |cols| - i
  {
    if i == |cols| then []
    else (if cols[i] in on then [] else [i]) + OtherIndices(cols, on, i + 1)
  }

  /** A left column keeps its name unless the right frame has a non-key column of that name. */
  function LeftName(c: string, on: seq<string>, right: seq<string>): string {
    if c !in on && c in right then c + "_x" else c
  }

  /** A right column is suffixed when the left frame has a column of that name. */
  function RightName(c: string, left: seq<string>): string {
    if c in left then c + "_y" else c
  }

  /** The columns of `left.merge(right, on=on)`: left's, then right's non-key ones. */
  function MergedColumns(left: seq<string>, right: seq<string>, on: seq<string>): (r: seq<string>)
    ensures |r| == |left| + |OtherIndices(right, on, 0)|
  {
    var other := OtherIndices(right, on, 0);
    seq(|left|, i requires 0 <= i < |left| => LeftName(left[i], on, right))
      + seq(|other|, k requires 0 <= k < |other| => RightName(right[other[k]], left))
  }

  /** Every non-key column from `i` on has its position listed. */
  lemma {:induction false} OtherIndicesComplete(cols: seq<string>, on: seq<string>, i: nat)
    requires i <= |cols|
    ensures forall j :: i <= j < |cols| && cols[j] !in on ==> j in OtherIndices(cols, on, i)
    decreases |cols| - i
  {
    if i < |cols| {
      OtherIndicesComplete(cols, on, i + 1);
    }
  }

  /** When the only names the two frames share are keys, no column is renamed. */
  lemma MergedColumnsUnrenamed(left: seq<string>, right: seq<string>, on: seq<string>)
    requires forall c :: c in left && c in right ==> c in on
    ensures var other := OtherIndices(right, on, 0);
      var m := MergedColumns(left, right, on);
      (forall i :: 0 <= i < |left| ==> m[i] == left[i]) &&
      (forall k :: 0 <= k < |other| ==> m[|left| + k] == right[other[k]])
  {
    var other := OtherIndices(right, on, 0);
    var m := MergedColumns(left, right, on);
    forall i | 0 <= i < |left| ensures m[i] == left[i] {
      assert m[i] == LeftName(left[i], on, right);
    }
    forall k | 0 <= k < |other| ensures m[|left| + k] == right[other[k]] {
      assert m[|left| + k] == RightName(right[other[k]], left);
      assert right[other[k]] in right;
    }
  }

  /**
   * When the only names the two frames share are keys, the merge has exactly the
   * left columns and the right non-key columns.
   */
  lemma MergedColumnsNoClash(left: seq<string>, right: seq<string>, on: seq<string>)
    requires forall c :: c in left && c in right ==> c in on
    ensures forall c :: c in MergedColumns(left, right, on) <==> c in left || (c in right && c !in on)
  {
    MergedColumnsUnrenamed(left, right, on);
    MergedColumnsFrom(left, right, on);
    MergedColumnsHave(left, right, on);
  }

  lemma MergedColumnsFrom(left: seq<string>, right: seq<string>, on: seq<string>)
    requires var other := OtherIndices(right, on, 0);
      var m := MergedColumns(left, right, on);
      (forall i :: 0 <= i < |left| ==> m[i] == left[i]) &&
      (forall k :: 0 <= k < |other| ==> m[|left| + k] == right[other[k]])
    ensures forall c :: c in MergedColumns(left, right, on) ==> c in left || (c in right && c !in on)
  {
    var other := OtherIndices(right, on, 0);
    var m := MergedColumns(left, right, on);
    forall c | c in m ensures c in left || (c in right && c !in on) {
      var p :| 0 <= p < |m| && m[p] == c;
      if p < |left| {
        assert m[p] == left[p];
        assert left[p] in left;
      } else {
        var k := p - |left|;
        assert m[|left| + k] == right[other[k]];
        assert other[k] < |right| && right[other[k]] !in on;
        assert right[other[k]] in right;
      }
    }
  }

  lemma MergedColumnsHave(left: seq<string>, right: seq<string>, on: seq<string>)
    requires var other := OtherIndices(right, on, 0);
      var m := MergedColumns(left, right, on);
      (forall i :: 0 <= i < |left| ==> m[i] == left[i]) &&
      (forall k :: 0 <= k < |other| ==> m[|left| + k] == right[other[k]])
    ensures forall c :: c in left || (c in right && c !in on) ==> c in MergedColumns(left, right, on)
  {
    var other := OtherIndices(right, on, 0);
    var m := MergedColumns(left, right, on);
    OtherIndicesComplete(right, on, 0);
    forall c | c in left ensures c in m {
      var i :| 0 <= i < |left| && left[i] == c;
      assert m[i] == c;
    }
    forall c | c in right && c !in on ensures c in m {
      var j :| 0 <= j < |right| && right[j] == c;
      var k :| 0 <= k < |other| && other[k] == j;
      assert m[|left| + k] == c;
    }
  }

  function Nulls(n: nat): (r: Row)
    ensures |r| == n && forall c :: c in r ==> c.Null?
  {
    seq(n, _ => Null)
  }

  /** The right rows whose key cells equal `key` (missing keys match missing keys, as in pandas). */
  function Matches(rows: seq<Row>, ridx: seq<nat>, key: seq<Cell>): seq<Row> {
    Filter(rows, (rr: Row) => Pick(rr, ridx) == key)
  }

  /**
   * The output rows for one left row: one per matching right row, in right order,
   * or a single row padded with missing cells when nothing matches.
   */
  function MergeOne(lr: Row, rows: seq<Row>, lidx: seq<nat>, ridx: seq<nat>, other: seq<nat>): (r: seq<Row>)
    ensures |r| >= 1
    ensures forall o :: o in r ==> |o| == |lr| + |other| && o[..|lr|] == lr
  {
    var m := Matches(rows, ridx, Pick(lr, lidx));
    if m == [] then [lr + Nulls(|other|)]
    else seq(|m|, k requires 0 <= k < |m| => lr + Pick(m[k], other))
  }

  /**
   * The output rows of one left row: the left cells followed by each matching right
   * row's non-key cells, in right order, or by missing cells when nothing matches.
   */
  lemma MergeOneRows(lr: Row, rows: seq<Row>, lidx: seq<nat>, ridx: seq<nat>, other: seq<nat>)
    ensures var r := MergeOne(lr, rows, lidx, ridx, other); var m := Matches(rows, ridx, Pick(lr, lidx));
      |r| == (if m == [] then 1 else |m|) &&
      (m == [] ==> r[0] == lr + Nulls(|other|)) &&
      (forall k :: 0 <= k < |m| ==> r[k] == lr + Pick(m[k], other))
  {
  }

  function MergeRows(lrows: seq<Row>, rows: seq<Row>, lidx: seq<nat>, ridx: seq<nat>, other: seq<nat>): (r: seq<Row>)
    ensures |r| >= |lrows|
  {
    if lrows == [] then []
    else MergeOne(lrows[0], rows, lidx, ridx, other) + MergeRows(lrows[1..], rows, lidx, ridx, other)
  }

  /** Every key column exists in both frames (otherwise pandas raises a KeyError). */
  predicate HasKeys(l: Frame, r: Frame, on: seq<string>) {
    forall n :: n in on ==> n in l.columns && n in r.columns
  }

  /** `pd.merge(l, r, on=on, how='left')`. */
  function LeftMerge(l: Frame, r: Frame, on: seq<string>): (res: Option<Frame>)
    ensures res.Some? <==> HasKeys(l, r, on)
  {
    if HasKeys(l, r, on) then
      Some(Frame(MergedColumns(l.columns, r.columns, on),
                 MergeRows(l.rows, r.rows, KeyIndices(l.columns, on), KeyIndices(r.columns, on),
                           OtherIndices(r.columns, on, 0))))
    else None
  }

  /** No two rows of `f` share their key cells. */
  predicate UniqueKeys(f: Frame, on: seq<string>)
    requires forall n :: n in on ==> n in f.columns
  {
    var idx := KeyIndices(f.columns, on);
    forall i, j :: 0 <= i < j < |f.rows| ==> Pick(f.rows[i], idx) != Pick(f.rows[j], idx)
  }

  lemma {:induction false} MergeRowsShape(lrows: seq<Row>, rows: seq<Row>, lidx: seq<nat>, ridx: seq<nat>, other: seq<nat>, w: nat)
    requires forall i :: 0 <= i < |lrows| ==> |lrows[i]| == w
    ensures forall o :: o in MergeRows(lrows, rows, lidx, ridx, other) ==> |o| == w + |other|
  {
    if lrows != [] {
      MergeRowsShape(lrows[1..], rows, lidx, ridx, other, w);
    }
  }

  /**
   * An output row for the left row `lr`: `lr` followed by the non-key cells of a
   * right row with the same key cells, or followed by missing cells when no right
   * row has them.
   */
  predicate Joined(o: Row, lr: Row, rows: seq<Row>, lidx: seq<nat>, ridx: seq<nat>, other: seq<nat>) {
    || (exists rr :: rr in rows && Pick(rr, ridx) == Pick(lr, lidx) && o == lr + Pick(rr, other))
    || ((forall rr :: rr in rows ==> Pick(rr, ridx) != Pick(lr, lidx)) && o == lr + Nulls(|other|))
  }

  /** The shape of a left merge: rectangular, no fewer rows, each starting with a left row. */
  lemma MergeShape(l: Frame, r: Frame, on: seq<string>)
    requires Rectangular(l) && Rectangular(r) && LeftMerge(l, r, on).Some?
    ensures Rectangular(LeftMerge(l, r, on).value)
    ensures |LeftMerge(l, r, on).value.rows| >= |l.rows|
    ensures forall o :: o in LeftMerge(l, r, on).value.rows ==> o[..|l.columns|] in l.rows
  {
    var lidx, ridx, other := KeyIndices(l.columns, on), KeyIndices(r.columns, on), OtherIndices(r.columns, on, 0);
    MergeRowsShape(l.rows, r.rows, lidx, ridx, other, |l.columns|);
    MergeRowsFromLeft(l.rows, r.rows, lidx, ridx, other);
  }

  /**
   * The left merge keeps every left row: the output has at least as many rows,
   * every output row starts with a left row's cells, and the output rows are
   * exactly the joined rows of the left rows, every match included.
   */
  lemma MergeKeepsLeft(l: Frame, r: Frame, on: seq<string>)
    requires Rectangular(l) && Rectangular(r) && LeftMerge(l, r, on).Some?
    ensures Rectangular(LeftMerge(l, r, on).value)
    ensures |LeftMerge(l, r, on).value.rows| >= |l.rows|
    ensures forall o :: o in LeftMerge(l, r, on).value.rows ==> o[..|l.columns|] in l.rows
    ensures forall o :: o in LeftMerge(l, r, on).value.rows <==>
      exists i :: 0 <= i < |l.rows| &&
        Joined(o, l.rows[i], r.rows, KeyIndices(l.columns, on), KeyIndices(r.columns, on), OtherIndices(r.columns, on, 0))
  {
    var lidx, ridx, other := KeyIndices(l.columns, on), KeyIndices(r.columns, on), OtherIndices(r.columns, on, 0);
    MergeShape(l, r, on);
    MergeRowsMembers(l.rows, r.rows, lidx, ridx, other);
    forall lr ensures forall o :: o in MergeOne(lr, r.rows, lidx, ridx, other) <==> Joined(o, lr, r.rows, lidx, ridx, other) {
      MergeOneMembers(lr, r.rows, lidx, ridx, other);
    }
  }

  /** The output rows of one left row are exactly its joined rows. */
  lemma MergeOneMembers(lr: Row, rows: seq<Row>, lidx: seq<nat>, ridx: seq<nat>, other: seq<nat>)
    ensures forall o :: o in MergeOne(lr, rows, lidx, ridx, other) <==> Joined(o, lr, rows, lidx, ridx, other)
  {
    if Matches(rows, ridx, Pick(lr, lidx)) == [] {
      MergeOneNoMatch(lr, rows, lidx, ridx, other);
    } else {
      MergeOneSomeMatch(lr, rows, lidx, ridx, other);
    }
  }

  /** No right row matches: one row, padded with missing cells. */
  lemma MergeOneNoMatch(lr: Row, rows: seq<Row>, lidx: seq<nat>, ridx: seq<nat>, other: seq<nat>)
    requires Matches(rows, ridx, Pick(lr, lidx)) == []
    ensures MergeOne(lr, rows, lidx, ridx, other) == [lr + Nulls(|other|)]
    ensures forall rr :: rr in rows ==> Pick(rr, ridx) != Pick(lr, lidx)
  {
    var key := Pick(lr, lidx);
    FilterMembers(rows, (rr: Row) => Pick(rr, ridx) == key);
  }

  /** Some right row matches: one output row per matching right row, and no other. */
  lemma MergeOneSomeMatch(lr: Row, rows: seq<Row>, lidx: seq<nat>, ridx: seq<nat>, other: seq<nat>)
    requires Matches(rows, ridx, Pick(lr, lidx)) != []
    ensures exists rr :: rr in rows && Pick(rr, ridx) == Pick(lr, lidx)
    ensures forall o :: o in MergeOne(lr, rows, lidx, ridx, other) <==>
      exists rr :: rr in rows && Pick(rr, ridx) == Pick(lr, lidx) && o == lr + Pick(rr, other)
  {
    var key := Pick(lr, lidx);
    var m := Matches(rows, ridx, key);
    var out := MergeOne(lr, rows, lidx, ridx, other);
    MergeOneRows(lr, rows, lidx, ridx, other);
    FilterMembers(rows, (rr: Row) => Pick(rr, ridx) == key);
    assert m[0] in m;
    forall o ensures o in out <==> exists rr :: rr in rows && Pick(rr, ridx) == key && o == lr + Pick(rr, other) {
      if o in out {
        var k :| 0 <= k < |out| && out[k] == o;
        assert m[k] in m;
      }
      if exists rr :: rr in rows && Pick(rr, ridx) == key && o == lr + Pick(rr, other) {
        var rr :| rr in rows && Pick(rr, ridx) == key && o == lr + Pick(rr, other);
        assert rr in m;
        var k :| 0 <= k < |m| && m[k] == rr;
        assert out[k] == o;
      }
    }
  }


  /** The merged rows are the output rows of the left rows. */
  lemma {:induction false} MergeRowsMembers(lrows: seq<Row>, rows: seq<Row>, lidx: seq<nat>, ridx: seq<nat>, other: seq<nat>)
    ensures forall o :: o in MergeRows(lrows, rows, lidx, ridx, other) <==>
      exists i :: 0 <= i < |lrows| && o in MergeOne(lrows[i], rows, lidx, ridx, other)
  {
    if lrows != [] {
      var head := MergeOne(lrows[0], rows, lidx, ridx, other);
      MergeRowsMembers(lrows[1..], rows, lidx, ridx, other);
      forall o ensures o in MergeRows(lrows, rows, lidx, ridx, other) <==>
        exists i :: 0 <= i < |lrows| && o in MergeOne(lrows[i], rows, lidx, ridx, other)
      {
        if exists i :: 0 <= i < |lrows| && o in MergeOne(lrows[i], rows, lidx, ridx, other) {
          var i :| 0 <= i < |lrows| && o in MergeOne(lrows[i], rows, lidx, ridx, other);
          if i > 0 { assert lrows[1..][i - 1] == lrows[i]; }
        }
        if o in MergeRows(lrows[1..], rows, lidx, ridx, other) {
          var i :| 0 <= i < |lrows[1..]| && o in MergeOne(lrows[1..][i], rows, lidx, ridx, other);
          assert lrows[1..][i] == lrows[i + 1];
        }
      }
    }
  }

  lemma {:induction false} MergeRowsFromLeft(lrows: seq<Row>, rows: seq<Row>, lidx: seq<nat>, ridx: seq<nat>, other: seq<nat>)
    ensures forall o :: o in MergeRows(lrows, rows, lidx, ridx, other) ==>
      exists i :: 0 <= i < |lrows| && |o| >= |lrows[i]| && o[..|lrows[i]|] == lrows[i]
  {
    if lrows != [] {
      var head := MergeOne(lrows[0], rows, lidx, ridx, other);
      var tail := MergeRows(lrows[1..], rows, lidx, ridx, other);
      assert MergeRows(lrows, rows, lidx, ridx, other) == head + tail;
      MergeRowsFromLeft(lrows[1..], rows, lidx, ridx, other);
      forall o | o in head + tail
        ensures exists i :: 0 <= i < |lrows| && |o| >= |lrows[i]| && o[..|lrows[i]|] == lrows[i]
      {
        if o in head {
          assert |o| >= |lrows[0]| && o[..|lrows[0]|] == lrows[0];
        } else {
          assert o in tail;
          var i :| 0 <= i < |lrows[1..]| && |o| >= |lrows[1..][i]| && o[..|lrows[1..][i]|] == lrows[1..][i];
          assert lrows[i + 1] == lrows[1..][i];
        }
      }
    }
  }

  /** At most one element satisfies `p` when no two positions both do. */
  lemma {:induction false} FilterAtMostOne<T>(s: seq<T>, p: T -> bool)
    requires forall i, j :: 0 <= i < j < |s| && p(s[i]) ==> !p(s[j])
    ensures |Filter(s, p)| <= 1
  {
    if s != [] {
      FilterAtMostOne(s[1..], p);
      if p(s[0]) {
        forall x | x in s[1..] ensures !p(x) {
          var j :| 0 <= j < |s[1..]| && s[1..][j] == x;
          assert s[j + 1] == x;
        }
        FilterNone(s[1..], p);
      }
    }
  }

  /** On unique right keys, one output row per left row, starting with that row's cells. */
  lemma MergeUniquePrefix(l: Frame, r: Frame, on: seq<string>)
    requires Rectangular(l) && Rectangular(r) && LeftMerge(l, r, on).Some? && UniqueKeys(r, on)
    ensures |LeftMerge(l, r, on).value.rows| == |l.rows|
    ensures forall i :: 0 <= i < |l.rows| ==>
      |LeftMerge(l, r, on).value.rows[i]| >= |l.columns| &&
      LeftMerge(l, r, on).value.rows[i][..|l.columns|] == l.rows[i]
  {
    var lidx, ridx, other := KeyIndices(l.columns, on), KeyIndices(r.columns, on), OtherIndices(r.columns, on, 0);
    var out := LeftMerge(l, r, on).value.rows;
    MergeRowsUnique(l.rows, r.rows, lidx, ridx, other);
    forall i | 0 <= i < |l.rows| ensures |out[i]| >= |l.columns| && out[i][..|l.columns|] == l.rows[i] {
      var one := MergeOne(l.rows[i], r.rows, lidx, ridx, other);
      assert one[0] in one;
      assert |l.rows[i]| == |l.columns|;
    }
  }

  /**
   * When the right keys are unique, the left merge has exactly one row per left
   * row, in left order: the left row's cells followed by the matching right row's
   * non-key cells, or by missing cells when no right row matches.
   */
  lemma MergeUniqueRight(l: Frame, r: Frame, on: seq<string>)
    requires Rectangular(l) && Rectangular(r) && LeftMerge(l, r, on).Some? && UniqueKeys(r, on)
    ensures |LeftMerge(l, r, on).value.rows| == |l.rows|
    ensures forall i :: 0 <= i < |l.rows| ==>
      |LeftMerge(l, r, on).value.rows[i]| >= |l.columns| &&
      LeftMerge(l, r, on).value.rows[i][..|l.columns|] == l.rows[i]
    ensures forall i, j ::
      (0 <= i < |l.rows| && 0 <= j < |r.rows| &&
       Pick(r.rows[j], KeyIndices(r.columns, on)) == Pick(l.rows[i], KeyIndices(l.columns, on))) ==>
      LeftMerge(l, r, on).value.rows[i][|l.columns|..] == Pick(r.rows[j], OtherIndices(r.columns, on, 0))
    ensures forall i ::
      (0 <= i < |l.rows| &&
       forall j :: 0 <= j < |r.rows| ==> Pick(r.rows[j], KeyIndices(r.columns, on)) != Pick(l.rows[i], KeyIndices(l.columns, on))) ==>
      LeftMerge(l, r, on).value.rows[i][|l.columns|..] == Nulls(|OtherIndices(r.columns, on, 0)|)
  {
    var lidx, ridx, other := KeyIndices(l.columns, on), KeyIndices(r.columns, on), OtherIndices(r.columns, on, 0);
    var out := LeftMerge(l, r, on).value.rows;
    MergeRowsUnique(l.rows, r.rows, lidx, ridx, other);
    forall i | 0 <= i < |l.rows|
      ensures |out[i]| >= |l.columns| && out[i][..|l.columns|] == l.rows[i]
      ensures forall j :: 0 <= j < |r.rows| && Pick(r.rows[j], ridx) == Pick(l.rows[i], lidx) ==>
        out[i][|l.columns|..] == Pick(r.rows[j], other)
      ensures (forall j :: 0 <= j < |r.rows| ==> Pick(r.rows[j], ridx) != Pick(l.rows[i], lidx)) ==>
        out[i][|l.columns|..] == Nulls(|other|)
    {
      MergeOneUnique(l.rows[i], r.rows, lidx, ridx, other);
      assert |l.rows[i]| == |l.columns|;
      var o := MergeOne(l.rows[i], r.rows, lidx, ridx, other)[0];
      assert out[i] == o;
      forall j | 0 <= j < |r.rows| && Pick(r.rows[j], ridx) == Pick(l.rows[i], lidx)
        ensures out[i][|l.columns|..] == Pick(r.rows[j], other)
      {
        assert o == l.rows[i] + Pick(r.rows[j], other);
      }
      if forall j :: 0 <= j < |r.rows| ==> Pick(r.rows[j], ridx) != Pick(l.rows[i], lidx) {
        assert o == l.rows[i] + Nulls(|other|);
      }
    }
  }

  lemma MergeRowsUnique(lrows: seq<Row>, rows: seq<Row>, lidx: seq<nat>, ridx: seq<nat>, other: seq<nat>)
    requires forall i, j :: 0 <= i < j < |rows| ==> Pick(rows[i], ridx) != Pick(rows[j], ridx)
    ensures |MergeRows(lrows, rows, lidx, ridx, other)| == |lrows|
    ensures forall i :: 0 <= i < |lrows| ==>
      MergeRows(lrows, rows, lidx, ridx, other)[i] == MergeOne(lrows[i], rows, lidx, ridx, other)[0]
  {
    forall i | 0 <= i < |lrows| ensures |MergeOne(lrows[i], rows, lidx, ridx, other)| == 1 {
      MergeOneUnique(lrows[i], rows, lidx, ridx, other);
    }
    MergeRowsSingles(lrows, rows, lidx, ridx, other);
  }

  /** When every left row has one output row, the merged rows are those, in left order. */
  lemma {:induction false} MergeRowsSingles(lrows: seq<Row>, rows: seq<Row>, lidx: seq<nat>, ridx: seq<nat>, other: seq<nat>)
    requires forall i :: 0 <= i < |lrows| ==> |MergeOne(lrows[i], rows, lidx, ridx, other)| == 1
    ensures |MergeRows(lrows, rows, lidx, ridx, other)| == |lrows|
    ensures forall i :: 0 <= i < |lrows| ==>
      MergeRows(lrows, rows, lidx, ridx, other)[i] == MergeOne(lrows[i], rows, lidx, ridx, other)[0]
  {
    if lrows != [] {
      var tail := lrows[1..];
      assert forall i :: 0 <= i < |tail| ==> tail[i] == lrows[i + 1];
      MergeRowsSingles(tail, rows, lidx, ridx, other);
      var one := MergeOne(lrows[0], rows, lidx, ridx, other);
      var rest := MergeRows(tail, rows, lidx, ridx, other);
      var out := MergeRows(lrows, rows, lidx, ridx, other);
      assert out == one + rest;
      forall i | 0 < i < |lrows| ensures out[i] == MergeOne(lrows[i], rows, lidx, ridx, other)[0] {
        assert out[i] == rest[i - 1];
        assert tail[i - 1] == lrows[i];
      }
    }
  }


  /** In a list without repeated names, a name's position is the one it sits at. */
  lemma IndexOfNoDup(names: seq<string>, p: nat)
    requires NoDup(names) && p < |names|
    ensures IndexOf(names, names[p]) == Some(p)
  {
  }

  /** A name of the first part is found where it sits in the first part. */
  lemma {:induction false} IndexOfConcat(a: seq<string>, b: seq<string>, name: string)
    requires name in a
    ensures IndexOf(a + b, name) == IndexOf(a, name)
  {
    if a[0] != name {
      assert (a + b)[1..] == a[1..] + b;
      IndexOfConcat(a[1..], b, name);
    }
  }

  /** The merged position of a right non-key column, when only key names are shared. */
  lemma MergedIndex(left: seq<string>, right: seq<string>, on: seq<string>, c: string) returns (k: nat)
    requires forall x :: x in left && x in right ==> x in on
    requires NoDup(right) && c in right && c !in on
    ensures k < |OtherIndices(right, on, 0)|
    ensures OtherIndices(right, on, 0)[k] == IndexOf(right, c).value
    ensures IndexOf(MergedColumns(left, right, on), c) == Some(|left| + k)
  {
    var m := MergedColumns(left, right, on);
    var other := OtherIndices(right, on, 0);
    MergedColumnsUnrenamed(left, right, on);
    OtherIndicesComplete(right, on, 0);
    var p := IndexOf(right, c).value;
    assert p in other;
    k := IndexAfterPrefix(m, left, right, other, c);
    IndexOfNoDup(right, other[k]);
  }

  /** In a sequence that starts with `left`, a name outside `left` is found after it. */
  lemma IndexAfterPrefix(m: seq<string>, left: seq<string>, right: seq<string>, other: seq<nat>, c: string) returns (k: nat)
    requires |m| == |left| + |other|
    requires forall i :: 0 <= i < |left| ==> m[i] == left[i]
    requires forall k :: 0 <= k < |other| ==> other[k] < |right| && m[|left| + k] == right[other[k]]
    requires c !in left && exists k :: 0 <= k < |other| && right[other[k]] == c
    ensures k < |other| && right[other[k]] == c && IndexOf(m, c) == Some(|left| + k)
  {
    var k0 :| 0 <= k0 < |other| && right[other[k0]] == c;
    assert m[|left| + k0] == c;
    var q := IndexOf(m, c).value;
    assert forall i :: 0 <= i < |left| ==> m[i] != c;
    k := q - |left|;
    assert m[|left| + k] == right[other[k]];
  }


  /**
   * On unique right keys, when the frames share only key names, a left column comes
   * through the left merge unchanged.
   */
  lemma MergeLeftColumn(l: Frame, r: Frame, on: seq<string>, c: string)
    requires Rectangular(l) && Rectangular(r) && LeftMerge(l, r, on).Some? && UniqueKeys(r, on)
    requires forall x :: x in l.columns && x in r.columns ==> x in on
    requires c in l.columns
    ensures Rectangular(LeftMerge(l, r, on).value)
    ensures Column(LeftMerge(l, r, on).value, c) == Column(l, c)
  {
    var m := LeftMerge(l, r, on).value;
    MergeShape(l, r, on);
    MergeUniquePrefix(l, r, on);
    MergeLeftNames(l, r, on, c);
    var q := IndexOf(l.columns, c).value;
    var a, b := Column(m, c).value, Column(l, c).value;
    forall i | 0 <= i < |l.rows| ensures a[i] == b[i] {
      assert a[i] == m.rows[i][q] && b[i] == l.rows[i][q];
      assert m.rows[i][q] == m.rows[i][..|l.columns|][q];
    }
    assert |a| == |b|;
    assert a == b;
  }

  /** Without clashes, every merged name is a left name or a right non-key name. */
  lemma MergeNames(l: Frame, r: Frame, on: seq<string>)
    requires LeftMerge(l, r, on).Some?
    requires forall x :: x in l.columns && x in r.columns ==> x in on
    ensures forall x :: x in LeftMerge(l, r, on).value.columns ==> x in l.columns || (x in r.columns && x !in on)
  {
    MergedColumnsUnrenamed(l.columns, r.columns, on);
    MergedColumnsFrom(l.columns, r.columns, on);
  }

  /** A left name keeps its position in the merged columns. */
  lemma MergeLeftNames(l: Frame, r: Frame, on: seq<string>, c: string)
    requires LeftMerge(l, r, on).Some?
    requires forall x :: x in l.columns && x in r.columns ==> x in on
    requires c in l.columns
    ensures IndexOf(LeftMerge(l, r, on).value.columns, c) == IndexOf(l.columns, c)
  {
    var m := LeftMerge(l, r, on).value;
    MergedColumnsUnrenamed(l.columns, r.columns, on);
    var w := |l.columns|;
    assert m.columns == l.columns + m.columns[w..];
    IndexOfConcat(l.columns, m.columns[w..], c);
  }



  /** Likewise a left row's cells under any left names, such as the next merge's keys. */
  lemma MergeLeftKey(l: Frame, r: Frame, on: seq<string>, keys: seq<string>, i: int)
    requires Rectangular(l) && Rectangular(r) && LeftMerge(l, r, on).Some? && UniqueKeys(r, on)
    requires forall x :: x in l.columns && x in r.columns ==> x in on
    requires forall n :: n in keys ==> n in l.columns
    requires 0 <= i < |l.rows|
    ensures var m := LeftMerge(l, r, on).value;
      (forall n :: n in keys ==> n in m.columns) && 0 <= i < |m.rows| &&
      Pick(m.rows[i], KeyIndices(m.columns, keys)) == Pick(l.rows[i], KeyIndices(l.columns, keys))
  {
    var m := LeftMerge(l, r, on).value;
    MergeLeftCell(l, r, on, [], i);
    forall n | n in keys ensures n in m.columns {
      MergeLeftCell(l, r, on, [n], i);
    }
    var a, b := Pick(m.rows[i], KeyIndices(m.columns, keys)), Pick(l.rows[i], KeyIndices(l.columns, keys));
    forall k | 0 <= k < |keys| ensures a[k] == b[k] {
      assert keys[k] in keys;
      MergeLeftCell(l, r, on, [keys[k]], i);
    }
  }

  /** One left row's cells under the names `ns`, through the merge. */
  lemma MergeLeftCell(l: Frame, r: Frame, on: seq<string>, ns: seq<string>, i: int)
    requires Rectangular(l) && Rectangular(r) && LeftMerge(l, r, on).Some? && UniqueKeys(r, on)
    requires forall x :: x in l.columns && x in r.columns ==> x in on
    requires forall n :: n in ns ==> n in l.columns
    requires 0 <= i < |l.rows|
    ensures var m := LeftMerge(l, r, on).value;
      Rectangular(m) && i < |m.rows| && (forall n :: n in ns ==> n in m.columns) &&
      forall n :: n in ns ==> m.rows[i][IndexOf(m.columns, n).value] == l.rows[i][IndexOf(l.columns, n).value]
  {
    var m := LeftMerge(l, r, on).value;
    MergeShape(l, r, on);
    MergeUniquePrefix(l, r, on);
    forall n | n in ns
      ensures IndexOf(m.columns, n) == IndexOf(l.columns, n)
      ensures m.rows[i][IndexOf(l.columns, n).value] == l.rows[i][IndexOf(l.columns, n).value]
    {
      MergeLeftNames(l, r, on, n);
      var q := IndexOf(l.columns, n).value;
      assert m.rows[i][q] == m.rows[i][..|l.columns|][q];
    }
  }


  /**
   * On unique right keys, when the frames share only key names and the right frame
   * repeats no name, a right non-key column holds for each left row the value of the
   * right row with the same key cells, or a missing cell when there is none.
   */
  lemma MergeRightColumn(l: Frame, r: Frame, on: seq<string>, c: string)
    requires Rectangular(l) && Rectangular(r) && LeftMerge(l, r, on).Some? && UniqueKeys(r, on)
    requires forall x :: x in l.columns && x in r.columns ==> x in on
    requires NoDup(r.columns) && c in r.columns && c !in on
    ensures Rectangular(LeftMerge(l, r, on).value) && |LeftMerge(l, r, on).value.rows| == |l.rows|
    ensures Column(LeftMerge(l, r, on).value, c).Some?
    ensures forall i, j ::
      (0 <= i < |l.rows| && 0 <= j < |r.rows| &&
       Pick(r.rows[j], KeyIndices(r.columns, on)) == Pick(l.rows[i], KeyIndices(l.columns, on))) ==>
      Column(LeftMerge(l, r, on).value, c).value[i] == Column(r, c).value[j]
    ensures forall i ::
      (0 <= i < |l.rows| &&
       forall j :: 0 <= j < |r.rows| ==> Pick(r.rows[j], KeyIndices(r.columns, on)) != Pick(l.rows[i], KeyIndices(l.columns, on))) ==>
      Column(LeftMerge(l, r, on).value, c).value[i] == Null
  {
    var m := LeftMerge(l, r, on).value;
    var lidx, ridx, other := KeyIndices(l.columns, on), KeyIndices(r.columns, on), OtherIndices(r.columns, on, 0);
    MergeShape(l, r, on);
    MergeUniqueRight(l, r, on);
    var w := |l.columns|;
    var k := MergedIndex(l.columns, r.columns, on, c);
    var q := w + k;
    var col := Column(m, c).value;
    forall i, j | 0 <= i < |l.rows| && 0 <= j < |r.rows| && Pick(r.rows[j], ridx) == Pick(l.rows[i], lidx)
      ensures col[i] == Column(r, c).value[j]
    {
      assert m.rows[i][q] == m.rows[i][w..][k] == Pick(r.rows[j], other)[k];
      assert other[k] < |r.rows[j]|;
    }
    forall i | 0 <= i < |l.rows| && (forall j :: 0 <= j < |r.rows| ==> Pick(r.rows[j], ridx) != Pick(l.rows[i], lidx))
      ensures col[i] == Null
    {
      assert m.rows[i][q] == m.rows[i][w..][k] == Nulls(|other|)[k];
    }
  }

  /**
   * With unique right keys a left row produces exactly one output row: itself
   * followed by the matching right row's non-key cells, or by missing cells.
   */
  lemma MergeOneUnique(lr: Row, rows: seq<Row>, lidx: seq<nat>, ridx: seq<nat>, other: seq<nat>)
    requires forall i, j :: 0 <= i < j < |rows| ==> Pick(rows[i], ridx) != Pick(rows[j], ridx)
    ensures |MergeOne(lr, rows, lidx, ridx, other)| == 1
    ensures forall j :: 0 <= j < |rows| && Pick(rows[j], ridx) == Pick(lr, lidx) ==>
      MergeOne(lr, rows, lidx, ridx, other)[0] == lr + Pick(rows[j], other)
    ensures (forall j :: 0 <= j < |rows| ==> Pick(rows[j], ridx) != Pick(lr, lidx)) ==>
      MergeOne(lr, rows, lidx, ridx, other)[0] == lr + Nulls(|other|)
  {
    var key := Pick(lr, lidx);
    var p := (rr: Row) => Pick(rr, ridx) == key;
    var m := Matches(rows, ridx, key);
    MergeOneRows(lr, rows, lidx, ridx, other);
    assert m == Filter(rows, p);
    FilterAtMostOne(rows, p);
    FilterMembers(rows, p);
    forall j | 0 <= j < |rows| && Pick(rows[j], ridx) == key
      ensures MergeOne(lr, rows, lidx, ridx, other)[0] == lr + Pick(rows[j], other)
    {
      assert rows[j] in m;
      assert m[0] == rows[j];
    }
    if forall j :: 0 <= j < |rows| ==> Pick(rows[j], ridx) != key {
      FilterNone(rows, p);
    }
  }
}

=== FILE: grouping.dfy ===
/**
 * `df.groupby(keys)[value].mean().reset_index()`: one row per distinct complete key
 * tuple, holding the tuple and the mean of its rows' values.
 */
module Grouping {
  import opened Wrappers
  import opened Seqs
  import opened Frames

  /** The key cells of every row, in row order. */
  function KeyTuples(rows: seq<Row>, kidx: seq<nat>): (r: seq<Row>)
    ensures |r| == |rows|
    ensures forall i :: 0 <= i < |rows| ==> r[i] == Pick(rows[i], kidx)
  {
    seq(|rows|, i requires 0 <= i < |rows| => Pick(rows[i], kidx))
  }

  /**
   * The groups: the distinct key tuples without a missing cell (`groupby` drops
   * rows with a missing key).  pandas lists them sorted; this model lists them in
   * order of first appearance, which no result here depends on: the grouped tables
   * are only read through left merges on their unique keys.
   */
  function Groups(rows: seq<Row>, kidx: seq<nat>): (g: seq<Row>)
    ensures NoDup(g)
    ensures forall t :: t in g ==> |t| == |kidx|
    ensures forall t :: t in g <==> Null !in t && t in KeyTuples(rows, kidx)
  {
    var tuples := KeyTuples(rows, kidx);
    var complete := Filter(tuples, (t: Row) => Null !in t);
    FilterMembers(tuples, (t: Row) => Null !in t);
    DistinctSpec(complete);
    Distinct(complete)
  }

  /** The value cells of the rows whose key tuple is `t`, in row order. */
  function GroupValues(rows: seq<Row>, kidx: seq<nat>, vi: nat, t: Row): (vs: seq<Cell>)
    ensures |vs| == |Matches(rows, kidx, t)|
  {
    var m := Matches(rows, kidx, t);
    seq(|m|, k requires 0 <= k < |m| => Pick(m[k], [vi])[0])
  }

  /** Every name of `on` is a column of `f`. */
  predicate HasAll(f: Frame, on: seq<string>) {
    forall n :: n in on ==> n in f.columns
  }

  /** `groupby(on)[value].mean().reset_index()`; None stands for the KeyError of an absent column. */
  function GroupMean(f: Frame, on: seq<string>, value: string): (r: Option<Frame>)
    requires Rectangular(f)
    ensures r.Some? <==> value in f.columns && HasAll(f, on)
    ensures r.Some? ==> r.value.columns == on + [value] && Rectangular(r.value)
    ensures r.Some? ==> |r.value.rows| == |Groups(f.rows, KeyIndices(f.columns, on))|
  {
    if !(value in f.columns && HasAll(f, on)) then None
    else
      var kidx := KeyIndices(f.columns, on);
      var vi := IndexOf(f.columns, value).value;
      var g := Groups(f.rows, kidx);
      var rows := seq(|g|, j requires 0 <= j < |g| => g[j] + [MeanCell(GroupValues(f.rows, kidx, vi, g[j]))]);
      assert forall j :: 0 <= j < |g| ==> g[j] in g;
      Some(Frame(on + [value], rows))
  }

  /**
   * Each output row starts with a complete key tuple that occurs in the input, every
   * such tuple has a row, and the row's value is the mean of that group's values.
   */
  lemma GroupMeanRows(f: Frame, on: seq<string>, value: string)
    requires Rectangular(f) && GroupMean(f, on, value).Some?
    ensures var r := GroupMean(f, on, value).value; var kidx := KeyIndices(f.columns, on);
      forall j :: 0 <= j < |r.rows| ==>
        r.rows[j][..|on|] in KeyTuples(f.rows, kidx) && Null !in r.rows[j][..|on|] &&
        r.rows[j][|on|] == MeanCell(GroupValues(f.rows, kidx, IndexOf(f.columns, value).value, r.rows[j][..|on|]))
    ensures var r := GroupMean(f, on, value).value; var kidx := KeyIndices(f.columns, on);
      forall t :: t in KeyTuples(f.rows, kidx) && Null !in t ==> exists j :: 0 <= j < |r.rows| && r.rows[j][..|on|] == t
  {
    var r := GroupMean(f, on, value).value;
    var kidx := KeyIndices(f.columns, on);
    var g := Groups(f.rows, kidx);
    forall j | 0 <= j < |r.rows| ensures r.rows[j][..|on|] == g[j] {
      assert g[j] in g;
    }
    forall t | t in KeyTuples(f.rows, kidx) && Null !in t
      ensures exists j :: 0 <= j < |r.rows| && r.rows[j][..|on|] == t
    {
      var j :| 0 <= j < |g| && g[j] == t;
      assert r.rows[j][..|on|] == g[j];
    }
  }

  /** With distinct key names, the key columns of `on + [value]` are its first positions. */
  lemma KeyIndicesPrefix(on: seq<string>, value: string)
    requires NoDup(on) && value !in on
    ensures forall k :: 0 <= k < |on| ==> KeyIndices(on + [value], on)[k] == k
  {
    var cols := on + [value];
    forall k | 0 <= k < |on| ensures KeyIndices(cols, on)[k] == k {
      var r := KeyIndices(cols, on)[k];
      assert cols[r] == on[k];
    }
  }

  /**
   * The grouped table has one row per key tuple, so a left merge onto it on the same
   * keys keeps the left row count.
   */
  lemma GroupMeanUnique(f: Frame, on: seq<string>, value: string)
    requires Rectangular(f) && GroupMean(f, on, value).Some?
    requires NoDup(on) && value !in on
    ensures UniqueKeys(GroupMean(f, on, value).value, on)
  {
    var r := GroupMean(f, on, value).value;
    var kidx := KeyIndices(f.columns, on);
    var g := Groups(f.rows, kidx);
    var idx := KeyIndices(r.columns, on);
    KeyIndicesPrefix(on, value);
    forall j | 0 <= j < |r.rows| ensures Pick(r.rows[j], idx) == g[j] {
      assert g[j] in g;
      assert |r.rows[j]| == |on| + 1;
    }
  }

  /**
   * The mean `value` of the rows of `f` whose key cells are `key`, as the grouped
   * table holds it: missing when `key` has a missing cell or no row has that key.
   */
  function GroupedValue(f: Frame, on: seq<string>, value: string, key: Row): Cell
    requires Rectangular(f) && value in f.columns && HasAll(f, on)
  {
    var kidx := KeyIndices(f.columns, on);
    if Null !in key && key in KeyTuples(f.rows, kidx) then
      MeanCell(GroupValues(f.rows, kidx, IndexOf(f.columns, value).value, key))
    else Null
  }

  /** A row of the grouped table: its key cells are its first cells, and its value the last. */
  lemma GroupMeanCells(f: Frame, on: seq<string>, value: string, j: int)
    requires Rectangular(f) && GroupMean(f, on, value).Some? && NoDup(on) && value !in on
    requires 0 <= j < |GroupMean(f, on, value).value.rows|
    ensures var g := GroupMean(f, on, value).value;
      Pick(g.rows[j], KeyIndices(g.columns, on)) == g.rows[j][..|on|] &&
      Column(g, value).value[j] == g.rows[j][|on|]
  {
    var g := GroupMean(f, on, value).value;
    KeyIndicesPrefix(on, value);
    assert |g.rows[j]| == |on| + 1;
    assert g.columns[|on|] == value;
  }

  /**
   * Merging a table on to the grouped means of `f` (lines like
   * `df.merge(f.groupby(on)[value].mean().reset_index(), on=on, how='left')`) gives
   * each left row the mean `value` of the rows of `f` with the same key cells, or a
   * missing cell when there are none.
   */
  lemma MergeGroupMean(l: Frame, f: Frame, on: seq<string>, value: string, i: int)
    requires Rectangular(l) && Rectangular(f) && GroupMean(f, on, value).Some?
    requires NoDup(on) && value !in on && HasAll(l, on) && value !in l.columns
    requires 0 <= i < |l.rows|
    ensures LeftMerge(l, GroupMean(f, on, value).value, on).Some?
    ensures var m := LeftMerge(l, GroupMean(f, on, value).value, on).value;
      Rectangular(m) && |m.rows| == |l.rows| && Column(m, value).Some? &&
      Column(m, value).value[i] == GroupedValue(f, on, value, Pick(l.rows[i], KeyIndices(l.columns, on)))
  {
    var g := GroupMean(f, on, value).value;
    assert HasKeys(l, g, on);
    GroupMeanUnique(f, on, value);
    assert NoDup(g.columns) by {
      forall a, b | 0 <= a < b < |g.columns| ensures g.columns[a] != g.columns[b] {
        if b == |on| { assert g.columns[a] in on; }
      }
    }
    assert forall x :: x in l.columns && x in g.columns ==> x in on;
    MergeRightColumn(l, g, on, value);
    var m := LeftMerge(l, g, on).value;
    var col := Column(m, value).value;
    var key := Pick(l.rows[i], KeyIndices(l.columns, on));
    var kidx := KeyIndices(f.columns, on);
    var gkey := KeyIndices(g.columns, on);
    if Null !in key && key in KeyTuples(f.rows, kidx) {
      var j := GroupMeanHasRow(f, on, value, key);
      GroupMeanCells(f, on, value, j);
      assert Pick(g.rows[j], gkey) == key;
      assert col[i] == Column(g, value).value[j];
    } else {
      forall j | 0 <= j < |g.rows| ensures Pick(g.rows[j], gkey) != key {
        GroupMeanCells(f, on, value, j);
        GroupMeanRow(f, on, value, j);
      }
      assert col[i] == Null;
    }
  }

  /** One row of the grouped table: a complete input key tuple with its group's mean. */
  lemma GroupMeanRow(f: Frame, on: seq<string>, value: string, j: int)
    requires Rectangular(f) && GroupMean(f, on, value).Some?
    requires 0 <= j < |GroupMean(f, on, value).value.rows|
    ensures var r := GroupMean(f, on, value).value; var kidx := KeyIndices(f.columns, on);
      r.rows[j][..|on|] in KeyTuples(f.rows, kidx) && Null !in r.rows[j][..|on|]
  {
    GroupMeanRows(f, on, value);
  }

  /** The grouped table's row for a complete key tuple that occurs in the input. */
  lemma GroupMeanHasRow(f: Frame, on: seq<string>, value: string, t: Row) returns (j: nat)
    requires Rectangular(f) && GroupMean(f, on, value).Some?
    requires Null !in t && t in KeyTuples(f.rows, KeyIndices(f.columns, on))
    ensures var r := GroupMean(f, on, value).value;
      j < |r.rows| && r.rows[j][..|on|] == t &&
      r.rows[j][|on|] == MeanCell(GroupValues(f.rows, KeyIndices(f.columns, on), IndexOf(f.columns, value).value, t))
  {
    GroupMeanRows(f, on, value);
    var r := GroupMean(f, on, value).value;
    j :| 0 <= j < |r.rows| && r.rows[j][..|on|] == t;
  }

  /** The merge onto a grouped table adds only the grouped value's column. */
  lemma MergeGroupMeanColumns(l: Frame, f: Frame, on: seq<string>, value: string)
    requires Rectangular(f) && GroupMean(f, on, value).Some?
    requires HasAll(l, on) && value !in l.columns
    ensures LeftMerge(l, GroupMean(f, on, value).value, on).Some?
    ensures forall x :: x in LeftMerge(l, GroupMean(f, on, value).value, on).value.columns ==> x in l.columns || x == value
  {
    var g := GroupMean(f, on, value).value;
    var gc := g.columns;
    assert gc == on + [value];
    assert HasKeys(l, g, on);
    MergeNames(l, g, on);
    forall x | x in gc && x !in on ensures x == value {
      assert x in on + [value];
    }
  }
}

=== FILE: phl_credit_pipeline.dfy ===
// The credit/PHL integration script: left merge of the loan-repayment table with
// the PHL risk table on farmer_id, fill defaults, categorical encoding, the
// classifier's probability vector with its single-class fallback, and the export
// of integrated_results.csv.  The random forest and the train/test split are not
// modelled: the fitted classifier and the test rows are parameters.

module PhlCreditPipeline {
  import opened Wrappers
  import opened Seqs
  import opened Frames

  const FarmerId: string := "farmer_id"
  const RiskScore: string := "phl_risk_score"
  const AnnualLoss: string := "avg_annual_phl_loss"
  const Interventions: string := "interventions_adopted"
  const CreditScore: string := "predicted_credit_score"
  const Repayment: string := "repayment_status"

  /** The columns replaced by their category codes, in the order the script encodes them. */
  const EncodedColumns: seq<string> := ["education", "crop_type", "region", "financial_access", "tech_literacy"]

  const Features: seq<string> := [
    "age", "education", "farm_size", "crop_type", "region", "tech_literacy",
    "financial_access", "prev_loan", "phl_risk_score", "avg_annual_phl_loss", "interventions_adopted"
  ]

  const OutputCols: seq<string> := [
    "farmer_id", "region", "crop_type", "age", "education", "farm_size", "tech_literacy",
    "financial_access", "prev_loan", "predicted_credit_score", "phl_risk_score",
    "avg_annual_phl_loss", "interventions_adopted"
  ]

  // ---------------------------------------------------------------- fills

  /** Lines 15-17: the risk score gets its mean, the loss and the interventions get 0. */
  function FillDefaults(df: Frame): (r: Option<Frame>)
    requires Rectangular(df)
    ensures r.Some? <==> RiskScore in df.columns && AnnualLoss in df.columns && Interventions in df.columns
    ensures r.Some? ==> Rectangular(r.value) && r.value.columns == df.columns && |r.value.rows| == |df.rows|
  {
    var a :- FillMean(df, RiskScore);
    var b :- FillColumn(a, AnnualLoss, Num(0.0));
    FillColumn(b, Interventions, Num(0.0))
  }

  /**
   * After the fills, a risk score that was present is unchanged, a missing one is the
   * mean of the present ones, and none is left missing when at least one was present.
   */
  lemma RiskScoreFilled(df: Frame)
    requires Rectangular(df) && FillDefaults(df).Some?
    ensures |Column(FillDefaults(df).value, RiskScore).value| == |Column(df, RiskScore).value|
    ensures forall i :: 0 <= i < |Column(df, RiskScore).value| ==>
      var before, after := Column(df, RiskScore).value[i], Column(FillDefaults(df).value, RiskScore).value[i];
      (!before.Null? ==> after == before) &&
      (before.Null? ==> after == MeanCell(Column(df, RiskScore).value))
    ensures Mean(Column(df, RiskScore).value).Some? ==> Null !in Column(FillDefaults(df).value, RiskScore).value
  {
    var col := Column(df, RiskScore).value;
    var a := FillMean(df, RiskScore).value;
    var b := FillColumn(a, AnnualLoss, Num(0.0)).value;
    FillColumnOthers(a, AnnualLoss, Num(0.0), RiskScore);
    FillColumnOthers(b, Interventions, Num(0.0), RiskScore);
    assert Column(a, RiskScore) == Some(FillNa(col, MeanCell(col)));
    assert Column(FillDefaults(df).value, RiskScore) == Column(b, RiskScore) == Column(a, RiskScore);
    if Mean(col).Some? {
      FillNaComplete(col, MeanCell(col));
    }
  }

  /**
   * If every present risk score lies in [lo, hi] (and the column holds no text),
   * every risk score after the fill does too.
   */
  lemma RiskScoreBounded(df: Frame, lo: real, hi: real)
    requires Rectangular(df) && FillDefaults(df).Some?
    requires forall c :: c in Column(df, RiskScore).value ==> !c.Str? && (c.Num? ==> lo <= c.n <= hi)
    ensures forall c :: c in Column(FillDefaults(df).value, RiskScore).value && c.Num? ==> lo <= c.n <= hi
  {
    var col := Column(df, RiskScore).value;
    var a := FillMean(df, RiskScore).value;
    var b := FillColumn(a, AnnualLoss, Num(0.0)).value;
    FillColumnOthers(a, AnnualLoss, Num(0.0), RiskScore);
    FillColumnOthers(b, Interventions, Num(0.0), RiskScore);
    assert Column(FillDefaults(df).value, RiskScore) == Column(b, RiskScore) == Column(a, RiskScore);
    FillMeanBounds(col, lo, hi);
  }

  /** The annual loss and the interventions: present values unchanged, missing ones 0. */
  lemma ZeroFilled(df: Frame, name: string)
    requires Rectangular(df) && FillDefaults(df).Some?
    requires name == AnnualLoss || name == Interventions
    ensures Column(FillDefaults(df).value, name) == Some(FillNa(Column(df, name).value, Num(0.0)))
    ensures Null !in Column(FillDefaults(df).value, name).value
  {
    var a := FillMean(df, RiskScore).value;
    FillMeanOthers(df, RiskScore, name);
    var b := FillColumn(a, AnnualLoss, Num(0.0)).value;
    if name == Interventions {
      FillColumnOthers(a, AnnualLoss, Num(0.0), Interventions);
    } else {
      FillColumnOthers(b, Interventions, Num(0.0), AnnualLoss);
    }
    FillNaComplete(Column(df, name).value, Num(0.0));
  }

  // ---------------------------------------------------------------- encoding

  function CodeCells(codes: seq<int>): (r: seq<Cell>)
    ensures |r| == |codes|
  {
    seq(|codes|, i requires 0 <= i < |codes| => Num(codes[i] as real))
  }

  /** `df[name] = df[name].astype('category').cat.codes`. */
  function Encode(df: Frame, name: string): (r: Option<Frame>)
    requires Rectangular(df)
    ensures r.Some? <==> name in df.columns
    ensures r.Some? ==> Rectangular(r.value) && r.value.columns == df.columns && |r.value.rows| == |df.rows|
    ensures r.Some? ==> Column(r.value, name) == Some(CodeCells(CatCodes(Column(df, name).value)))
  {
    var col :- Column(df, name);
    var codes := CodeCells(CatCodes(col));
    SetColumnRead(df, name, codes);
    Some(SetColumn(df, name, codes))
  }

  /** Encoding one column leaves every other column as it was. */
  lemma EncodeOthers(df: Frame, name: string, other: string)
    requires Rectangular(df) && name in df.columns && other != name
    ensures Column(Encode(df, name).value, other) == Column(df, other)
  {
    SetColumnOthers(df, name, CodeCells(CatCodes(Column(df, name).value)), other);
  }

  /** Lines 20-24: each listed column in turn. */
  function EncodeAll(df: Frame, names: seq<string>): (r: Option<Frame>)
    requires Rectangular(df)
    ensures r.Some? <==> forall n :: n in names ==> n in df.columns
    ensures r.Some? ==> Rectangular(r.value) && r.value.columns == df.columns && |r.value.rows| == |df.rows|
    decreases |names|
  {
    if names == [] then Some(df)
    else
      var first :- Encode(df, names[0]);
      EncodeAll(first, names[1..])
  }

  /** Columns that are not encoded come out as they went in. */
  lemma {:induction false} EncodeAllOthers(df: Frame, names: seq<string>, other: string)
    requires Rectangular(df) && EncodeAll(df, names).Some? && other !in names
    ensures Column(EncodeAll(df, names).value, other) == Column(df, other)
    decreases |names|
  {
    if names != [] {
      var first := Encode(df, names[0]).value;
      EncodeOthers(df, names[0], other);
      assert other !in names[1..];
      EncodeAllOthers(first, names[1..], other);
    }
  }

  /**
   * An encoded column holds the category codes of the column before encoding:
   * equal values share a code, distinct values get distinct codes.
   */
  lemma {:induction false} EncodedColumn(df: Frame, names: seq<string>, k: nat)
    requires Rectangular(df) && EncodeAll(df, names).Some? && k < |names|
    requires forall i, j :: 0 <= i < j < |names| ==> names[i] != names[j]
    ensures Column(EncodeAll(df, names).value, names[k]) == Some(CodeCells(CatCodes(Column(df, names[k]).value)))
    decreases k
  {
    var first := Encode(df, names[0]).value;
    if k == 0 {
      assert names[0] !in names[1..];
      EncodeAllOthers(first, names[1..], names[0]);
    } else {
      EncodedColumn(first, names[1..], k - 1);
      EncodeOthers(df, names[0], names[k]);
    }
  }

  /** The cleaned table of lines 12-24. */
  function Prepare(credit: Frame, phl: Frame): (r: Option<Frame>)
    requires Rectangular(credit) && Rectangular(phl)
  {
    var df :- LeftMerge(credit, phl, [FarmerId]);
    MergeShape(credit, phl, [FarmerId]);
    var filled :- FillDefaults(df);
    EncodeAll(filled, EncodedColumns)
  }

  /**
   * Merge, fills and encoding keep every credit row; with unique farmer ids in the
   * PHL table the cleaned table has exactly one row per credit row, in credit order.
   */
  lemma PrepareKeepsCredit(credit: Frame, phl: Frame)
    requires Rectangular(credit) && Rectangular(phl) && Prepare(credit, phl).Some?
    ensures Rectangular(Prepare(credit, phl).value)
    ensures |Prepare(credit, phl).value.rows| >= |credit.rows|
    ensures UniqueKeys(phl, [FarmerId]) ==> |Prepare(credit, phl).value.rows| == |credit.rows|
  {
    MergeShape(credit, phl, [FarmerId]);
    if UniqueKeys(phl, [FarmerId]) {
      MergeUniquePrefix(credit, phl, [FarmerId]);
    }
  }

  /** The columns the PHL file contributes besides `farmer_id`. */
  const PhlColumns: seq<string> := [RiskScore, AnnualLoss, Interventions]

  /** In a table with a farmer_id column, a row's merge key is its farmer_id cell. */
  lemma FarmerKey(f: Frame, i: int)
    requires Rectangular(f) && FarmerId in f.columns && 0 <= i < |f.rows|
    ensures Pick(f.rows[i], KeyIndices(f.columns, [FarmerId])) == [Column(f, FarmerId).value[i]]
  {
  }

  lemma PhlNames()
    ensures forall n :: n in PhlColumns ==> n !in EncodedColumns && n != FarmerId
    ensures RiskScore in PhlColumns && AnnualLoss in PhlColumns && Interventions in PhlColumns
    ensures forall n :: n in PhlColumns ==> n == RiskScore || n == AnnualLoss || n == Interventions
  {
    assert PhlColumns == [RiskScore, AnnualLoss, Interventions];
  }

  /** A column that is not encoded reads the same in the cleaned table as after the fills. */
  lemma PreparedColumn(credit: Frame, phl: Frame, n: string)
    requires Rectangular(credit) && Rectangular(phl) && Prepare(credit, phl).Some?
    requires n in PhlColumns
    ensures LeftMerge(credit, phl, [FarmerId]).Some?
    ensures Rectangular(LeftMerge(credit, phl, [FarmerId]).value)
    ensures FillDefaults(LeftMerge(credit, phl, [FarmerId]).value).Some?
    ensures Column(Prepare(credit, phl).value, n) == Column(FillDefaults(LeftMerge(credit, phl, [FarmerId]).value).value, n)
  {
    var df := LeftMerge(credit, phl, [FarmerId]).value;
    MergeShape(credit, phl, [FarmerId]);
    var filled := FillDefaults(df).value;
    assert Prepare(credit, phl) == EncodeAll(filled, EncodedColumns);
    PhlNames();
    EncodeAllOthers(filled, EncodedColumns, n);
  }

  /**
   * After the merge, a PHL column holds for each credit row the value of the PHL row
   * with the same farmer_id, or a missing cell when no PHL row has it (PHL farmer
   * ids unique, and `farmer_id` the only name the two files share).
   */
  lemma MergedFromPhl(credit: Frame, phl: Frame, n: string)
    requires Rectangular(credit) && Rectangular(phl) && LeftMerge(credit, phl, [FarmerId]).Some?
    requires UniqueKeys(phl, [FarmerId]) && NoDup(phl.columns) && n in phl.columns && n != FarmerId
    requires forall x :: x in credit.columns && x in phl.columns ==> x == FarmerId
    ensures Rectangular(LeftMerge(credit, phl, [FarmerId]).value)
    ensures |LeftMerge(credit, phl, [FarmerId]).value.rows| == |credit.rows|
    ensures Column(LeftMerge(credit, phl, [FarmerId]).value, n).Some?
    ensures forall i, j ::
      (0 <= i < |credit.rows| && 0 <= j < |phl.rows| &&
       Column(credit, FarmerId).value[i] == Column(phl, FarmerId).value[j]) ==>
      Column(LeftMerge(credit, phl, [FarmerId]).value, n).value[i] == Column(phl, n).value[j]
    ensures forall i ::
      (0 <= i < |credit.rows| &&
       forall j :: 0 <= j < |phl.rows| ==> Column(credit, FarmerId).value[i] != Column(phl, FarmerId).value[j]) ==>
      Column(LeftMerge(credit, phl, [FarmerId]).value, n).value[i] == Null
  {
    MergeRightColumn(credit, phl, [FarmerId], n);
    var m := LeftMerge(credit, phl, [FarmerId]).value;
    var ck, pk := KeyIndices(credit.columns, [FarmerId]), KeyIndices(phl.columns, [FarmerId]);
    var cid, pid := Column(credit, FarmerId).value, Column(phl, FarmerId).value;
    forall i, j | 0 <= i < |credit.rows| && 0 <= j < |phl.rows| && cid[i] == pid[j]
      ensures Column(m, n).value[i] == Column(phl, n).value[j]
    {
      FarmerKey(credit, i);
      FarmerKey(phl, j);
    }
    forall i | 0 <= i < |credit.rows| && forall j :: 0 <= j < |phl.rows| ==> cid[i] != pid[j]
      ensures Column(m, n).value[i] == Null
    {
      forall j | 0 <= j < |phl.rows| ensures Pick(phl.rows[j], pk) != Pick(credit.rows[i], ck) {
        FarmerKey(credit, i);
        FarmerKey(phl, j);
      }
    }
  }


  /**
   * The PHL columns of the cleaned table come from the farmer's own PHL row: a
   * farmer whose id has a PHL row gets that row's risk score, annual loss and
   * interventions wherever the row has them.
   */
  lemma MatchedPhl(credit: Frame, phl: Frame, i: int, j: int, n: string)
    requires Rectangular(credit) && Rectangular(phl) && Prepare(credit, phl).Some?
    requires UniqueKeys(phl, [FarmerId]) && NoDup(phl.columns) && n in PhlColumns && n in phl.columns
    requires forall x :: x in credit.columns && x in phl.columns ==> x == FarmerId
    requires 0 <= i < |credit.rows| && 0 <= j < |phl.rows|
    requires Column(credit, FarmerId).value[i] == Column(phl, FarmerId).value[j]
    requires !Column(phl, n).value[j].Null?
    ensures Rectangular(Prepare(credit, phl).value) && |Prepare(credit, phl).value.rows| == |credit.rows|
    ensures Column(Prepare(credit, phl).value, n).Some? && Column(Prepare(credit, phl).value, n).value[i] == Column(phl, n).value[j]
  {
    PrepareKeepsCredit(credit, phl);
    PhlNames();
    MergedFromPhl(credit, phl, n);
    PreparedColumn(credit, phl, n);
    var df := LeftMerge(credit, phl, [FarmerId]).value;
    var before := Column(df, n).value;
    assert before[i] == Column(phl, n).value[j];
    if n == RiskScore {
      RiskScoreFilled(df);
    } else {
      ZeroFilled(df, n);
    }
  }

  /**
   * A farmer whose id has no PHL row gets the mean of the merged risk scores, an
   * annual loss of 0 and 0 interventions.
   */
  lemma UnmatchedPhl(credit: Frame, phl: Frame, i: int)
    requires Rectangular(credit) && Rectangular(phl) && Prepare(credit, phl).Some?
    requires UniqueKeys(phl, [FarmerId]) && NoDup(phl.columns) && forall n :: n in PhlColumns ==> n in phl.columns
    requires forall x :: x in credit.columns && x in phl.columns ==> x == FarmerId
    requires 0 <= i < |credit.rows|
    requires forall j :: 0 <= j < |phl.rows| ==> Column(credit, FarmerId).value[i] != Column(phl, FarmerId).value[j]
    ensures Rectangular(Prepare(credit, phl).value) && |Prepare(credit, phl).value.rows| == |credit.rows|
    ensures LeftMerge(credit, phl, [FarmerId]).Some? && Rectangular(LeftMerge(credit, phl, [FarmerId]).value)
    ensures Column(Prepare(credit, phl).value, RiskScore).Some? &&
      Column(Prepare(credit, phl).value, RiskScore).value[i] == MeanCell(Column(LeftMerge(credit, phl, [FarmerId]).value, RiskScore).value)
    ensures Column(Prepare(credit, phl).value, AnnualLoss).Some? && Column(Prepare(credit, phl).value, AnnualLoss).value[i] == Num(0.0)
    ensures Column(Prepare(credit, phl).value, Interventions).Some? && Column(Prepare(credit, phl).value, Interventions).value[i] == Num(0.0)
  {
    PrepareKeepsCredit(credit, phl);
    PhlNames();
    UnmatchedRisk(credit, phl, i);
    UnmatchedZero(credit, phl, i, AnnualLoss);
    UnmatchedZero(credit, phl, i, Interventions);
  }

  /** An unmatched farmer's merged cell under a PHL column is missing. */
  lemma UnmatchedMerged(credit: Frame, phl: Frame, i: int, n: string)
    requires Rectangular(credit) && Rectangular(phl) && Prepare(credit, phl).Some?
    requires UniqueKeys(phl, [FarmerId]) && NoDup(phl.columns) && n in PhlColumns && n in phl.columns
    requires forall x :: x in credit.columns && x in phl.columns ==> x == FarmerId
    requires 0 <= i < |credit.rows|
    requires forall j :: 0 <= j < |phl.rows| ==> Column(credit, FarmerId).value[i] != Column(phl, FarmerId).value[j]
    ensures LeftMerge(credit, phl, [FarmerId]).Some? && Rectangular(LeftMerge(credit, phl, [FarmerId]).value)
    ensures Column(LeftMerge(credit, phl, [FarmerId]).value, n).Some?
    ensures i < |Column(LeftMerge(credit, phl, [FarmerId]).value, n).value|
    ensures Column(LeftMerge(credit, phl, [FarmerId]).value, n).value[i] == Null
  {
    PhlNames();
    PreparedColumn(credit, phl, n);
    MergedFromPhl(credit, phl, n);
  }

  lemma UnmatchedRisk(credit: Frame, phl: Frame, i: int)
    requires Rectangular(credit) && Rectangular(phl) && Prepare(credit, phl).Some?
    requires UniqueKeys(phl, [FarmerId]) && NoDup(phl.columns) && forall n :: n in PhlColumns ==> n in phl.columns
    requires forall x :: x in credit.columns && x in phl.columns ==> x == FarmerId
    requires 0 <= i < |credit.rows|
    requires forall j :: 0 <= j < |phl.rows| ==> Column(credit, FarmerId).value[i] != Column(phl, FarmerId).value[j]
    ensures LeftMerge(credit, phl, [FarmerId]).Some? && Rectangular(LeftMerge(credit, phl, [FarmerId]).value)
    ensures Column(Prepare(credit, phl).value, RiskScore).Some? && i < |Column(Prepare(credit, phl).value, RiskScore).value|
    ensures Column(Prepare(credit, phl).value, RiskScore).value[i] == MeanCell(Column(LeftMerge(credit, phl, [FarmerId]).value, RiskScore).value)
  {
    assert RiskScore in PhlColumns;
    UnmatchedMerged(credit, phl, i, RiskScore);
    PreparedColumn(credit, phl, RiskScore);
    RiskScoreFilled(LeftMerge(credit, phl, [FarmerId]).value);
  }

  lemma UnmatchedZero(credit: Frame, phl: Frame, i: int, n: string)
    requires Rectangular(credit) && Rectangular(phl) && Prepare(credit, phl).Some?
    requires UniqueKeys(phl, [FarmerId]) && NoDup(phl.columns) && forall n :: n in PhlColumns ==> n in phl.columns
    requires forall x :: x in credit.columns && x in phl.columns ==> x == FarmerId
    requires 0 <= i < |credit.rows| && (n == AnnualLoss || n == Interventions)
    requires forall j :: 0 <= j < |phl.rows| ==> Column(credit, FarmerId).value[i] != Column(phl, FarmerId).value[j]
    ensures Column(Prepare(credit, phl).value, n).Some? && i < |Column(Prepare(credit, phl).value, n).value|
    ensures Column(Prepare(credit, phl).value, n).value[i] == Num(0.0)
  {
    assert n in PhlColumns;
    UnmatchedMerged(credit, phl, i, n);
    PreparedColumn(credit, phl, n);
    ZeroFilled(LeftMerge(credit, phl, [FarmerId]).value, n);
  }


  // ---------------------------------------------------------------- classifier

  /**
   * A fitted classifier, left abstract: its class labels in sorted order and, for
   * each feature row, one probability per class.
   */
  datatype Classifier = Classifier(classes: seq<int>, proba: Row -> seq<real>)

  ghost predicate Fitted(clf: Classifier) {
    |clf.classes| >= 1 && forall x :: |clf.proba(x)| == |clf.classes|
  }

  /**
   * Lines 48-53: the class-1 column when there are two classes; otherwise a
   * constant vector, all 0 when the only class is 1 and all 1 when it is not.
   */
  function YProba(clf: Classifier, xtest: seq<Row>): (r: seq<real>)
    requires Fitted(clf)
    ensures |r| == |xtest|
  {
    if |clf.classes| == 2 then seq(|xtest|, i requires 0 <= i < |xtest| => clf.proba(xtest[i])[1])
    else if clf.classes[0] == 1 then seq(|xtest|, _ => 0.0)
    else seq(|xtest|, _ => 1.0)
  }

  /** With a single class the probability vector is constant: 0 for class 1, else 1. */
  lemma YProbaSingleClass(clf: Classifier, xtest: seq<Row>)
    requires Fitted(clf) && |clf.classes| == 1
    ensures forall i, j :: 0 <= i < |xtest| && 0 <= j < |xtest| ==> YProba(clf, xtest)[i] == YProba(clf, xtest)[j]
    ensures forall i :: 0 <= i < |xtest| ==> YProba(clf, xtest)[i] == if clf.classes[0] == 1 then 0.0 else 1.0
  {
  }

  /** Line 78: the class-1 probability with two classes, else the first column. */
  function PredictedScores(clf: Classifier, x: seq<Row>): (r: seq<Cell>)
    requires Fitted(clf)
    ensures |r| == |x|
    ensures forall i :: 0 <= i < |x| ==> r[i] == Num(clf.proba(x[i])[if |clf.classes| == 2 then 1 else 0])
  {
    seq(|x|, i requires 0 <= i < |x| => Num(clf.proba(x[i])[if |clf.classes| == 2 then 1 else 0]))
  }

  /**
   * Lines 78-79: the score column is set and the output columns are written; the
   * projection fails (a KeyError) exactly when one of the other output columns is
   * absent, and each of those columns is copied unchanged from the prepared table.
   */
  function Export(df: Frame, scores: seq<Cell>): (r: Option<Frame>)
    requires Rectangular(df) && |scores| == |df.rows|
    ensures r.Some? <==> forall n :: n in OutputCols && n != CreditScore ==> n in df.columns
    ensures r.Some? ==> Rectangular(r.value) && r.value.columns == OutputCols && |r.value.rows| == |df.rows|
    ensures r.Some? ==> Column(r.value, CreditScore) == Some(scores)
    ensures r.Some? ==> forall n :: n in OutputCols && n != CreditScore ==> Column(r.value, n) == Column(df, n)
  {
    var scored := SetColumn(df, CreditScore, scores);
    SetColumnRead(df, CreditScore, scores);
    var out :- Project(scored, OutputCols);
    ProjectColumn(scored, OutputCols, CreditScore);
    forall n | n in OutputCols && n != CreditScore ensures Column(out, n) == Column(df, n) {
      ProjectColumn(scored, OutputCols, n);
      SetColumnOthers(df, CreditScore, scores, n);
    }
    Some(out)
  }

  /**
   * The whole script after training: prepare, select the features and the label
   * (line 32 raises a KeyError when the label column is absent), score every row,
   * export.
   */
  function Pipeline(credit: Frame, phl: Frame, clf: Classifier): (r: Option<Frame>)
    requires Rectangular(credit) && Rectangular(phl) && Fitted(clf)
    ensures r.Some? ==> Prepare(credit, phl).Some? && Project(Prepare(credit, phl).value, Features).Some?
    ensures r.Some? ==> Repayment in Prepare(credit, phl).value.columns
    ensures r.Some? ==> r.value.columns == OutputCols && |r.value.rows| == |Prepare(credit, phl).value.rows|
  {
    var df :- Prepare(credit, phl);
    PrepareKeepsCredit(credit, phl);
    var x :- Project(df, Features);
    var y :- Column(df, Repayment);
    Export(df, PredictedScores(clf, x.rows))
  }

  /**
   * The export has exactly the output columns, in order, at least one row per credit
   * row, and exactly one per credit row when the PHL farmer ids are unique.
   */
  lemma PipelineOutput(credit: Frame, phl: Frame, clf: Classifier)
    requires Rectangular(credit) && Rectangular(phl) && Fitted(clf) && Pipeline(credit, phl, clf).Some?
    ensures Pipeline(credit, phl, clf).value.columns == OutputCols
    ensures |Pipeline(credit, phl, clf).value.rows| >= |credit.rows|
    ensures UniqueKeys(phl, [FarmerId]) ==> |Pipeline(credit, phl, clf).value.rows| == |credit.rows|
  {
    PrepareKeepsCredit(credit, phl);
  }

  /** The exported score column is the classifier's score for each cleaned row's features. */
  lemma PipelineScores(credit: Frame, phl: Frame, clf: Classifier)
    requires Rectangular(credit) && Rectangular(phl) && Fitted(clf) && Pipeline(credit, phl, clf).Some?
    ensures Column(Pipeline(credit, phl, clf).value, CreditScore) ==
      Some(PredictedScores(clf, Project(Prepare(credit, phl).value, Features).value.rows))
  {
    var df := Prepare(credit, phl).value;
    PrepareKeepsCredit(credit, phl);
    var x := Project(df, Features).value;
    assert Column(df, Repayment).Some?;
    assert Pipeline(credit, phl, clf) == Export(df, PredictedScores(clf, x.rows));
  }
}

=== FILE: schema_repair.dfy ===
/**
 * `add_missing_columns`: the column list of the `farmers` table is read once, then
 * each required column that list lacks is added with `ALTER TABLE ... ADD COLUMN`,
 * in the declared order.  A failing `ALTER` is reported and the loop goes on.  The
 * database is a class whose one field maps each table name to its columns, in
 * declaration order; SQLite refuses an `ALTER` on a table that does not exist and
 * one that adds a name equal, ignoring ASCII case, to a column the table has.
 */
module SchemaRepair {
  import opened Text
  import opened Seqs

  datatype Column = Column(name: string, ctype: string)

  /** Lines 3-10, in the dictionary's insertion order. */
  const Required: seq<Column> := [
    Column("region", "TEXT"),
    Column("predicted_credit_score", "REAL"),
    Column("phl_risk_score", "REAL"),
    Column("interventions_adopted", "TEXT"),
    Column("latitude", "REAL"),
    Column("longitude", "REAL")
  ]

  const Table: string := "farmers"

  /** One printed line of the loop. */
  datatype Report =
    | Added(name: string, ctype: string)   // "Added column: ..."
    | Failed(name: string)                 // "Error adding column ...": the OperationalError
    | AlreadyExists(name: string)          // "Column already exists: ..."

  function ColumnNames(cols: seq<Column>): (r: seq<string>)
    ensures |r| == |cols| && forall k :: 0 <= k < |cols| ==> r[k] == cols[k].name
  {
    seq(|cols|, k requires 0 <= k < |cols| => cols[k].name)
  }

  lemma ColumnNamesAppend(a: seq<Column>, b: seq<Column>)
    ensures ColumnNames(a + b) == ColumnNames(a) + ColumnNames(b)
  {
    assert |ColumnNames(a + b)| == |ColumnNames(a) + ColumnNames(b)|;
  }

  /** `get_existing_columns`: `PRAGMA table_info` yields no rows for a table that does not exist. */
  function Existing(tables: map<string, seq<Column>>, table: string): (r: seq<string>)
    ensures table in tables ==> r == ColumnNames(tables[table])
    ensures table !in tables ==> r == []
  {
    if table in tables then ColumnNames(tables[table]) else []
  }

  /** Some column of `cols` has the name `name` up to ASCII case. */
  predicate HasNameIgnoringCase(cols: seq<Column>, name: string) {
    exists k :: 0 <= k < |cols| && EqualIgnoringCase(cols[k].name, name)
  }

  /** The state of the run after some of the required columns. */
  datatype Outcome = Outcome(tables: map<string, seq<Column>>, added: seq<string>, reports: seq<Report>)

  /** One pass of the loop body for column `c`. */
  function Step(o: Outcome, table: string, existing: seq<string>, c: Column): Outcome {
    if c.name in existing then o.(reports := o.reports + [AlreadyExists(c.name)])
    else if table in o.tables && !HasNameIgnoringCase(o.tables[table], c.name) then
      Outcome(o.tables[table := o.tables[table] + [c]], o.added + [c.name], o.reports + [Added(c.name, c.ctype)])
    else o.(reports := o.reports + [Failed(c.name)])
  }

  /** The loop over `req`, started from `tables` with the column list `existing` read before it. */
  function Run(tables: map<string, seq<Column>>, table: string, existing: seq<string>, req: seq<Column>): Outcome
    decreases |req|
  {
    if req == [] then Outcome(tables, [], [])
    else Step(Run(tables, table, existing, req[..|req| - 1]), table, existing, req[|req| - 1])
  }

  class Database {
    var tables: map<string, seq<Column>>

    constructor (tables0: map<string, seq<Column>>)
      ensures tables == tables0
    {
      tables := tables0;
    }

    /** `get_existing_columns(cursor, table)`. */
    method ExistingColumns(table: string) returns (names: seq<string>)
      ensures table in tables ==>
        (|names| == |tables[table]| && forall k :: 0 <= k < |names| ==> names[k] == tables[table][k].name)
      ensures table !in tables ==> names == []
    {
      names := Existing(tables, table);
    }

    /**
     * `ALTER TABLE table ADD COLUMN c.name c.ctype`: the column is appended to the
     * table unless the table is absent or already has that name up to case, in
     * which case nothing changes and the statement fails.
     */
    method AddColumn(table: string, c: Column) returns (ok: bool)
      modifies this
      ensures ok <==> table in old(tables) && !HasNameIgnoringCase(old(tables)[table], c.name)
      ensures ok ==> tables == old(tables)[table := old(tables)[table] + [c]]
      ensures !ok ==> tables == old(tables)
    {
      if table in tables && !HasNameIgnoringCase(tables[table], c.name) {
        tables := tables[table := tables[table] + [c]];
        ok := true;
      } else {
        ok := false;
      }
    }

    /**
     * `add_missing_columns()`: the new schema, the `added` list and the printed
     * lines are those of `Run` over the required columns.
     */
    method AddMissingColumns() returns (added: seq<string>, reports: seq<Report>)
      modifies this
      ensures var o := Run(old(tables), Table, Existing(old(tables), Table), Required);
        tables == o.tables && added == o.added && reports == o.reports
    {
      var existing := ExistingColumns(Table);
      assert existing == Existing(old(tables), Table);
      added, reports := AddEach(Table, existing, Required);
    }

    /** The loop of lines 24-33 over `req`, with the list `existing` read before it. */
    method AddEach(table: string, existing: seq<string>, req: seq<Column>) returns (added: seq<string>, reports: seq<Report>)
      modifies this
      ensures var o := Run(old(tables), table, existing, req);
        tables == o.tables && added == o.added && reports == o.reports
    {
      added, reports := [], [];
      for i := 0 to |req|
        invariant var o := Run(old(tables), table, existing, req[..i]);
          tables == o.tables && added == o.added && reports == o.reports
      {
        assert req[..i + 1][..i] == req[..i];
        added, reports := AddOne(table, existing, req[i], added, reports);
      }
      assert req[..|req|] == req;
    }

    /** One pass of the loop body. */
    method AddOne(table: string, existing: seq<string>, c: Column, added0: seq<string>, reports0: seq<Report>)
      returns (added: seq<string>, reports: seq<Report>)
      modifies this
      ensures Outcome(tables, added, reports) == Step(Outcome(old(tables), added0, reports0), table, existing, c)
    {
      added, reports := added0, reports0;
      if c.name !in existing {
        var ok := AddColumn(table, c);
        if ok {
          reports := reports + [Added(c.name, c.ctype)];
          added := added + [c.name];
        } else {
          reports := reports + [Failed(c.name)];
        }
      } else {
        reports := reports + [AlreadyExists(c.name)];
      }
    }
  }

  // ---------------------------------------------------------------- the loop, whatever happens

  /**
   * Every required column gets exactly one printed line, in order, even after a
   * failure; it is "already exists" exactly when its name was in the list read
   * before the loop, and "added" only when it was not.
   */
  lemma {:induction false} RunReports(tables: map<string, seq<Column>>, table: string, existing: seq<string>, req: seq<Column>)
    ensures var o := Run(tables, table, existing, req);
      |o.reports| == |req| &&
      forall k :: 0 <= k < |req| ==>
        o.reports[k].name == req[k].name &&
        (o.reports[k].AlreadyExists? <==> req[k].name in existing) &&
        (o.reports[k].Added? ==> o.reports[k].ctype == req[k].ctype)
    decreases |req|
  {
    if req != [] {
      var front := req[..|req| - 1];
      RunReports(tables, table, existing, front);
      forall k | 0 <= k < |front| ensures front[k] == req[k] { }
    }
  }

  /** Other tables are untouched, and no table is created or dropped. */
  lemma {:induction false} RunOtherTables(tables: map<string, seq<Column>>, table: string, existing: seq<string>, req: seq<Column>)
    ensures var o := Run(tables, table, existing, req);
      o.tables.Keys == tables.Keys && forall t :: t in tables && t != table ==> o.tables[t] == tables[t]
    decreases |req|
  {
    if req != [] {
      RunOtherTables(tables, table, existing, req[..|req| - 1]);
    }
  }

  /**
   * The table keeps its columns in their order and is followed by the new columns,
   * whose names are the `added` list and each of which is a required column with
   * its declared type; a name is added only when it was absent from the list read
   * before the loop.
   */
  lemma {:induction false} RunTables(tables: map<string, seq<Column>>, table: string, existing: seq<string>, req: seq<Column>)
    requires table in tables
    ensures var o := Run(tables, table, existing, req);
      table in o.tables && |o.tables[table]| >= |tables[table]| &&
      var appended := o.tables[table][|tables[table]|..];
      o.tables[table] == tables[table] + appended && ColumnNames(appended) == o.added &&
      forall x :: x in appended ==> x in req
    ensures var o := Run(tables, table, existing, req);
      forall c :: c in o.added ==> c !in existing
    decreases |req|
  {
    if req != [] {
      var front, c := req[..|req| - 1], req[|req| - 1];
      var p := Run(tables, table, existing, front);
      RunTables(tables, table, existing, front);
      var n := |tables[table]|;
      var before := p.tables[table][n..];
      assert c in req;
      forall x | x in front ensures x in req { }
      if c.name !in existing && !HasNameIgnoringCase(p.tables[table], c.name) {
        var o := Run(tables, table, existing, req);
        assert o.tables[table] == p.tables[table] + [c];
        assert o.tables[table][n..] == before + [c];
        assert ColumnNames(before + [c]) == ColumnNames(before) + [c.name];
      }
    }
  }

  /**
   * When the table does not exist, every column the (empty) list lacks fails, and
   * nothing is added or changed.
   */
  lemma {:induction false} MissingTableFails(tables: map<string, seq<Column>>, table: string, existing: seq<string>, req: seq<Column>)
    requires table !in tables
    ensures var o := Run(tables, table, existing, req);
      o.tables == tables && o.added == [] && |o.reports| == |req| &&
      forall k :: 0 <= k < |req| && req[k].name !in existing ==> o.reports[k] == Failed(req[k].name)
    decreases |req|
  {
    if req != [] {
      var front := req[..|req| - 1];
      MissingTableFails(tables, table, existing, front);
      RunReports(tables, table, existing, front);
      forall k | 0 <= k < |front| ensures front[k] == req[k] { }
    }
  }

  // ---------------------------------------------------------------- the loop without failures

  function ColumnAbsent(existing: seq<string>): Column -> bool {
    (c: Column) => c.name !in existing
  }

  /**
   * The conditions under which no `ALTER` fails: the table exists, the list read is
   * its columns, no absent required name matches one of its columns up to case, and
   * the required names differ from each other up to case.
   */
  predicate NoFailures(tables: map<string, seq<Column>>, table: string, existing: seq<string>, req: seq<Column>) {
    && table in tables
    && existing == ColumnNames(tables[table])
    && (forall k :: 0 <= k < |req| && req[k].name !in existing ==> !HasNameIgnoringCase(tables[table], req[k].name))
    && (forall j, k :: 0 <= j < k < |req| ==> !EqualIgnoringCase(req[j].name, req[k].name))
  }

  /**
   * Without failures, the run appends exactly the required columns that were
   * absent, in the declared order and with their declared types, and `added` lists
   * exactly their names.
   */
  lemma {:induction false} RunWithoutFailures(tables: map<string, seq<Column>>, table: string, existing: seq<string>, req: seq<Column>)
    requires NoFailures(tables, table, existing, req)
    ensures var o := Run(tables, table, existing, req);
      var missing := Filter(req, ColumnAbsent(existing));
      table in o.tables && o.tables[table] == tables[table] + missing && o.added == ColumnNames(missing)
    decreases |req|
  {
    if req != [] {
      var front := req[..|req| - 1];
      NoFailuresPrefix(tables, table, existing, req);
      RunWithoutFailures(tables, table, existing, front);
      if req[|req| - 1].name !in existing {
        FilterMembers(front, ColumnAbsent(existing));
        NoClashWithEarlier(tables, table, existing, req, Filter(front, ColumnAbsent(existing)));
      }
      assert req == front + [req[|req| - 1]];
      LastStep(tables, table, existing, front, req[|req| - 1]);
    }
  }

  /** The step from all columns but the last to all of them, without failures. */
  lemma LastStep(tables: map<string, seq<Column>>, table: string, existing: seq<string>, front: seq<Column>, c: Column)
    requires table in tables
    requires c.name !in existing ==>
      !HasNameIgnoringCase(tables[table] + Filter(front, ColumnAbsent(existing)), c.name)
    requires var p := Run(tables, table, existing, front);
      var before := Filter(front, ColumnAbsent(existing));
      table in p.tables && p.tables[table] == tables[table] + before && p.added == ColumnNames(before)
    ensures var o := Run(tables, table, existing, front + [c]);
      var missing := Filter(front + [c], ColumnAbsent(existing));
      table in o.tables && o.tables[table] == tables[table] + missing && o.added == ColumnNames(missing)
  {
    var p := Run(tables, table, existing, front);
    var before := Filter(front, ColumnAbsent(existing));
    assert (front + [c])[..|front|] == front;
    assert Run(tables, table, existing, front + [c]) == Step(p, table, existing, c);
    FilterSnoc(front, c, ColumnAbsent(existing));
    if c.name !in existing {
      assert p.tables[table] + [c] == tables[table] + (before + [c]);
      ColumnNamesAppend(before, [c]);
    } else {
      assert before + [] == before;
    }
  }

  lemma NoFailuresPrefix(tables: map<string, seq<Column>>, table: string, existing: seq<string>, req: seq<Column>)
    requires NoFailures(tables, table, existing, req) && req != []
    ensures NoFailures(tables, table, existing, req[..|req| - 1])
  {
    var front := req[..|req| - 1];
    forall k | 0 <= k < |front| ensures front[k] == req[k] { }
  }

  /**
   * Without failures, the last required column clashes neither with the table's
   * columns nor with the columns added before it.
   */
  lemma NoClashWithEarlier(tables: map<string, seq<Column>>, table: string, existing: seq<string>, req: seq<Column>, before: seq<Column>)
    requires NoFailures(tables, table, existing, req) && req != []
    requires req[|req| - 1].name !in existing
    requires forall x :: x in before ==> x in req[..|req| - 1]
    ensures !HasNameIgnoringCase(tables[table] + before, req[|req| - 1].name)
  {
    var last := |req| - 1;
    var cols := tables[table] + before;
    forall k | 0 <= k < |cols| ensures !EqualIgnoringCase(cols[k].name, req[last].name) {
      if k >= |tables[table]| {
        assert cols[k] in before;
        var j :| 0 <= j < last && req[..last][j] == cols[k];
        assert req[j] == cols[k];
      } else {
        assert cols[k] == tables[table][k];
      }
    }
  }

  /** Without failures, every required column is in the table afterwards. */
  lemma AllPresentAfterRun(tables: map<string, seq<Column>>, table: string, existing: seq<string>, req: seq<Column>)
    requires NoFailures(tables, table, existing, req)
    ensures var o := Run(tables, table, existing, req);
      table in o.tables && forall c :: c in req ==> c.name in ColumnNames(o.tables[table])
  {
    RunWithoutFailures(tables, table, existing, req);
    var missing := Filter(req, ColumnAbsent(existing));
    FilterMembers(req, ColumnAbsent(existing));
    var after := tables[table] + missing;
    forall c | c in req ensures c.name in ColumnNames(after) {
      if c.name !in existing {
        var j :| 0 <= j < |missing| && missing[j] == c;
        assert ColumnNames(after)[|tables[table]| + j] == c.name;
      } else {
        var j :| 0 <= j < |existing| && existing[j] == c.name;
        assert ColumnNames(after)[j] == c.name;
      }
    }
  }

  /** A run over columns that are all in the list read changes nothing and adds nothing. */
  lemma {:induction false} RunAllExisting(tables: map<string, seq<Column>>, table: string, existing: seq<string>, req: seq<Column>)
    requires forall c :: c in req ==> c.name in existing
    ensures var o := Run(tables, table, existing, req);
      o.tables == tables && o.added == [] &&
      |o.reports| == |req| && forall k :: 0 <= k < |req| ==> o.reports[k] == AlreadyExists(req[k].name)
    decreases |req|
  {
    if req != [] {
      var front := req[..|req| - 1];
      forall x | x in front ensures x in req { }
      RunAllExisting(tables, table, existing, front);
      assert req[|req| - 1] in req;
      forall k | 0 <= k < |front| ensures front[k] == req[k] { }
    }
  }

  /**
   * Running the script twice: when the first run has no failures, the second one
   * reads a list holding every required column, adds nothing, leaves the schema as
   * the first run left it and reports every column as already existing.
   */
  lemma SecondRunAddsNothing(tables: map<string, seq<Column>>, table: string, req: seq<Column>)
    requires NoFailures(tables, table, Existing(tables, table), req)
    ensures var first := Run(tables, table, Existing(tables, table), req);
      var second := Run(first.tables, table, Existing(first.tables, table), req);
      second.tables == first.tables && second.added == [] && |second.reports| == |req| &&
      forall k :: 0 <= k < |req| ==> second.reports[k] == AlreadyExists(req[k].name)
  {
    var first := Run(tables, table, Existing(tables, table), req);
    AllPresentAfterRun(tables, table, Existing(tables, table), req);
    RunAllExisting(first.tables, table, Existing(first.tables, table), req);
  }

  // ---------------------------------------------------------------- the script's own columns

  /** The six required names differ from each other even ignoring case. */
  lemma RequiredNamesDistinct()
    ensures forall j, k :: 0 <= j < k < |Required| ==> !EqualIgnoringCase(Required[j].name, Required[k].name)
  {
    forall j, k | 0 <= j < k < |Required| ensures |Required[j].name| != |Required[k].name| { }
  }

  /**
   * On a `farmers` table that has no column differing from a required one only in
   * case, the script adds exactly the required columns it lacks and afterwards
   * every required column is present.
   */
  lemma ScriptAddsMissing(tables: map<string, seq<Column>>)
    requires Table in tables
    requires forall c :: c in Required && c.name !in ColumnNames(tables[Table]) ==> !HasNameIgnoringCase(tables[Table], c.name)
    ensures var o := Run(tables, Table, Existing(tables, Table), Required);
      var missing := Filter(Required, ColumnAbsent(Existing(tables, Table)));
      Table in o.tables && o.tables[Table] == tables[Table] + missing && o.added == ColumnNames(missing) &&
      forall c :: c in Required ==> c.name in ColumnNames(o.tables[Table])
  {
    RequiredNamesDistinct();
    var existing := Existing(tables, Table);
    assert NoFailures(tables, Table, existing, Required) by {
      forall k | 0 <= k < |Required| && Required[k].name !in existing
        ensures !HasNameIgnoringCase(tables[Table], Required[k].name)
      {
        assert Required[k] in Required;
      }
    }
    RunWithoutFailures(tables, Table, existing, Required);
    AllPresentAfterRun(tables, Table, existing, Required);
  }
}

=== FILE: seqs.dfy ===
/**
 * Generic sequence operations the pandas and SQL code relies on: filtering
 * (`df[mask]`, `WHERE`), first-appearance distinct values (`Series.unique()`),
 * a stable sort under a total preorder (`ORDER BY`, `sort_values`, `sorted`)
 * and taking the first k after sorting (`LIMIT`, `nlargest`, `nsmallest`).
 */
module Seqs {

  // ---------------------------------------------------------------- filter

  function Filter<T>(s: seq<T>, p: T -> bool): (r: seq<T>)
    ensures |r| <= |s|
    ensures forall x :: x in r ==> x in s && p(x)
  {
    if s == [] then [] else (if p(s[0]) then [s[0]] else []) + Filter(s[1..], p)
  }

  /** `r` can be obtained from `s` by deleting elements: order is kept. */
  predicate IsSubseq<T(==)>(r: seq<T>, s: seq<T>)
    decreases |s|
  {
    r == [] || (s != [] && ((r[0] == s[0] && IsSubseq(r[1..], s[1..])) || IsSubseq(r, s[1..])))
  }

  lemma {:induction false} FilterSubseq<T>(s: seq<T>, p: T -> bool)
    ensures IsSubseq(Filter(s, p), s)
  {
    if s != [] {
      FilterSubseq(s[1..], p);
      var r := Filter(s, p);
      if p(s[0]) {
        assert r[0] == s[0] && r[1..] == Filter(s[1..], p);
      } else {
        assert r == Filter(s[1..], p);
      }
    }
  }

  /**
   * A filter keeps exactly the elements that satisfy the predicate, each as often
   * as it occurs, in their original order.
   */
  lemma {:induction false} FilterSpec<T>(s: seq<T>, p: T -> bool)
    ensures IsSubseq(Filter(s, p), s)
    ensures forall x :: multiset(Filter(s, p))[x] == if p(x) then multiset(s)[x] else 0
    ensures forall x :: x in Filter(s, p) <==> x in s && p(x)
  {
    FilterSubseq(s, p);
    FilterCount(s, p);
    forall x ensures x in Filter(s, p) <==> x in s && p(x) {
      assert x in Filter(s, p) <==> multiset(Filter(s, p))[x] > 0;
      assert x in s <==> multiset(s)[x] > 0;
    }
  }

  /** Membership alone, without the counting argument. */
  lemma {:induction false} FilterMembers<T>(s: seq<T>, p: T -> bool)
    ensures forall x :: x in Filter(s, p) <==> x in s && p(x)
  {
    if s != [] {
      FilterMembers(s[1..], p);
      assert s == [s[0]] + s[1..];
    }
  }

  /** Nothing passes the filter when no element satisfies the predicate. */
  lemma {:induction false} FilterNone<T>(s: seq<T>, p: T -> bool)
    requires forall x :: x in s ==> !p(x)
    ensures Filter(s, p) == []
  {
    if s != [] {
      assert s[0] in s;
      assert forall x :: x in s[1..] ==> x in s;
      FilterNone(s[1..], p);
    }
  }

  lemma {:induction false} FilterCount<T>(s: seq<T>, p: T -> bool)
    ensures forall x :: multiset(Filter(s, p))[x] == if p(x) then multiset(s)[x] else 0
  {
    if s != [] {
      FilterCount(s[1..], p);
      assert s == [s[0]] + s[1..];
      assert multiset(s) == multiset{s[0]} + multiset(s[1..]);
      var head := if p(s[0]) then [s[0]] else [];
      assert Filter(s, p) == head + Filter(s[1..], p);
      assert multiset(Filter(s, p)) == multiset(head) + multiset(Filter(s[1..], p));
    }
  }

  lemma {:induction false} FilterAppend<T>(a: seq<T>, b: seq<T>, p: T -> bool)
    ensures Filter(a + b, p) == Filter(a, p) + Filter(b, p)
  {
    if a != [] {
      FilterAppend(a[1..], b, p);
      assert (a + b)[1..] == a[1..] + b;
    } else {
      assert a + b == b;
    }
  }

  /** Filtering a sequence extended by one element. */
  lemma FilterSnoc<T>(s: seq<T>, x: T, p: T -> bool)
    ensures Filter(s + [x], p) == Filter(s, p) + (if p(x) then [x] else [])
  {
    FilterAppend(s, [x], p);
    assert [x][1..] == [];
  }

  /** Predicates that agree on every element of `s` filter it alike. */
  lemma {:induction false} FilterCongruent<T>(s: seq<T>, p: T -> bool, q: T -> bool)
    requires forall x :: x in s ==> p(x) == q(x)
    ensures Filter(s, p) == Filter(s, q)
  {
    if s != [] {
      assert s[0] in s;
      assert forall x :: x in s[1..] ==> x in s;
      FilterCongruent(s[1..], p, q);
    }
  }

  /**
   * When `p` holds exactly where one of two exclusive predicates `q`, `r` holds,
   * `p` keeps as many elements as `q` and `r` together.
   */
  lemma {:induction false} FilterCountSplit<T>(s: seq<T>, p: T -> bool, q: T -> bool, r: T -> bool)
    requires forall x :: x in s ==> (p(x) <==> q(x) || r(x)) && !(q(x) && r(x))
    ensures |Filter(s, p)| == |Filter(s, q)| + |Filter(s, r)|
  {
    if s != [] {
      assert s[0] in s;
      assert forall x :: x in s[1..] ==> x in s;
      FilterCountSplit(s[1..], p, q, r);
    }
  }

  // ---------------------------------------------------------------- distinct

  predicate NoDup<T(==)>(s: seq<T>) {
    forall i, j :: 0 <= i < j < |s| ==> s[i] != s[j]
  }

  /** The distinct elements of `s` in order of first appearance (`Series.unique()`). */
  function Distinct<T(==)>(s: seq<T>): (r: seq<T>)
    ensures |r| <= |s|
  {
    if s == [] then []
    else
      var d := Distinct(s[..|s| - 1]);
      if s[|s| - 1] in d then d else d + [s[|s| - 1]]
  }

  lemma {:induction false} DistinctSpec<T>(s: seq<T>)
    ensures NoDup(Distinct(s))
    ensures forall x :: x in Distinct(s) <==> x in s
  {
    if s != [] {
      var init := s[..|s| - 1];
      DistinctSpec(init);
      assert s == init + [s[|s| - 1]];
    }
  }

  lemma NoDupMultiset<T>(s: seq<T>, x: T)
    requires NoDup(s)
    ensures multiset(s)[x] <= 1
  {
    if s != [] {
      var t := s[1..];
      assert s == [s[0]] + t;
      assert NoDup(t) by {
        forall i, j | 0 <= i < j < |t| ensures t[i] != t[j] { assert t[i] == s[i + 1] && t[j] == s[j + 1]; }
      }
      NoDupMultiset(t, x);
      assert forall k :: 0 <= k < |t| ==> t[k] == s[k + 1] && s[k + 1] != s[0];
      assert s[0] !in t;
    }
  }

  lemma RepeatCount<T>(s: seq<T>, i: int, j: int)
    requires 0 <= i < j < |s|
    ensures multiset(s)[s[i]] >= if s[i] == s[j] then 2 else 1
  {
    assert s == s[..i] + [s[i]] + s[i + 1..j] + [s[j]] + s[j + 1..];
  }

  lemma MultisetNoDup<T>(s: seq<T>)
    requires forall x :: multiset(s)[x] <= 1
    ensures NoDup(s)
  {
    forall i, j | 0 <= i < j < |s| ensures s[i] != s[j] {
      RepeatCount(s, i, j);
    }
  }

  // ---------------------------------------------------------------- sorting

  /** `le` orders every pair and is transitive (ties allowed). */
  ghost predicate TotalPreorder<T(!new)>(le: (T, T) -> bool) {
    && (forall a, b :: le(a, b) || le(b, a))
    && (forall a, b, c :: le(a, b) && le(b, c) ==> le(a, c))
  }

  predicate Sorted<T>(s: seq<T>, le: (T, T) -> bool) {
    forall i, j :: 0 <= i < j < |s| ==> le(s[i], s[j])
  }

  /** Inserts `x` before the first element it may precede, so earlier equals stay first. */
  function Insert<T>(x: T, s: seq<T>, le: (T, T) -> bool): (r: seq<T>)
    ensures |r| == |s| + 1
    ensures multiset(r) == multiset(s) + multiset{x}
  {
    if s == [] then [x]
    else if le(x, s[0]) then [x] + s
    else
      assert s == [s[0]] + s[1..];
      [s[0]] + Insert(x, s[1..], le)
  }

  /** Stable insertion sort. */
  function Sort<T>(s: seq<T>, le: (T, T) -> bool): (r: seq<T>)
    ensures |r| == |s|
    ensures multiset(r) == multiset(s)
  {
    if s == [] then []
    else
      assert s == [s[0]] + s[1..];
      Insert(s[0], Sort(s[1..], le), le)
  }

  lemma {:induction false} InsertSorted<T(!new)>(x: T, s: seq<T>, le: (T, T) -> bool)
    requires TotalPreorder(le) && Sorted(s, le)
    ensures Sorted(Insert(x, s, le), le)
  {
    if s != [] && !le(x, s[0]) {
      InsertSorted(x, s[1..], le);
      var r := Insert(x, s, le);
      assert le(s[0], x);
      forall j | 0 < j < |r| ensures le(r[0], r[j]) {
        assert r[j] in multiset(s[1..]) + multiset{x} by { assert r[j] in r[1..]; }
        if r[j] != x {
          assert r[j] in s[1..];
          var k :| 0 <= k < |s[1..]| && s[1..][k] == r[j];
          assert s[k + 1] == r[j];
        }
      }
    }
  }

  lemma {:induction false} SortSorted<T(!new)>(s: seq<T>, le: (T, T) -> bool)
    requires TotalPreorder(le)
    ensures Sorted(Sort(s, le), le)
  {
    if s != [] {
      SortSorted(s[1..], le);
      InsertSorted(s[0], Sort(s[1..], le), le);
    }
  }

  // ---------------------------------------------------------------- top k

  /** The first `k` elements, or all of them when there are fewer (`LIMIT k`, `head(k)`). */
  function Take<T>(s: seq<T>, k: nat): (r: seq<T>)
    ensures |r| == if k < |s| then k else |s|
  {
    if k < |s| then s[..k] else s
  }

  /** The first `k` elements in `le` order. */
  function TopK<T>(s: seq<T>, k: nat, le: (T, T) -> bool): seq<T> {
    Take(Sort(s, le), k)
  }

  /**
   * `TopK` returns min(k, |s|) elements of `s`, in `le` order, and every element it
   * leaves out comes no earlier in that order than every element it keeps.
   */
  lemma TopKSpec<T(!new)>(s: seq<T>, k: nat, le: (T, T) -> bool)
    requires TotalPreorder(le)
    ensures |TopK(s, k, le)| == if k < |s| then k else |s|
    ensures multiset(TopK(s, k, le)) <= multiset(s)
    ensures Sorted(TopK(s, k, le), le)
    ensures forall x, y :: x in TopK(s, k, le) && y in multiset(s) - multiset(TopK(s, k, le)) ==> le(x, y)
  {
    var t := Sort(s, le);
    SortSorted(s, le);
    var m := if k < |s| then k else |s|;
    assert t == t[..m] + t[m..];
    assert TopK(s, k, le) == t[..m];
    assert multiset(s) - multiset(t[..m]) == multiset(t[m..]);
    forall x, y | x in t[..m] && y in multiset(t[m..]) ensures le(x, y) {
      var i :| 0 <= i < m && t[i] == x;
      assert y in t[m..];
      var j :| 0 <= j < |t| - m && t[m..][j] == y;
      assert t[m + j] == y;
    }
  }
}

=== FILE: text.dfy ===
/**
 * Strings as `seq<char>`: the byte-wise (BINARY collation) order that SQLite and
 * Python use to compare ASCII text, ASCII case folding, whitespace stripping,
 * `str.join`, and fixed-width zero-padded decimal digits as printed by strftime.
 */
module Text {

  /** `a <= b` in lexicographic order: a proper prefix sorts first. */
  predicate LexLe(a: string, b: string)
    decreases |a|
  {
    |a| == 0 || (|b| > 0 && (a[0] < b[0] || (a[0] == b[0] && LexLe(a[1..], b[1..]))))
  }

  lemma {:induction false} LexLeRefl(a: string)
    ensures LexLe(a, a)
    decreases |a|
  {
    if |a| > 0 { LexLeRefl(a[1..]); }
  }

  lemma {:induction false} LexLeTotal(a: string, b: string)
    ensures LexLe(a, b) || LexLe(b, a)
    decreases |a|
  {
    if |a| > 0 && |b| > 0 && a[0] == b[0] { LexLeTotal(a[1..], b[1..]); }
  }

  lemma {:induction false} LexLeAntisym(a: string, b: string)
    requires LexLe(a, b) && LexLe(b, a)
    ensures a == b
    decreases |a|
  {
    if |a| > 0 {
      LexLeAntisym(a[1..], b[1..]);
      assert a == [a[0]] + a[1..] && b == [b[0]] + b[1..];
    }
  }

  lemma {:induction false} LexLeTrans(a: string, b: string, c: string)
    requires LexLe(a, b) && LexLe(b, c)
    ensures LexLe(a, c)
    decreases |a|
  {
    if |a| > 0 && a[0] == b[0] && b[0] == c[0] { LexLeTrans(a[1..], b[1..], c[1..]); }
  }

  /** Comparing two strings that start with equally long heads: heads first, then tails. */
  lemma {:induction false} LexLeConcat(h1: string, t1: string, h2: string, t2: string)
    requires |h1| == |h2|
    ensures LexLe(h1 + t1, h2 + t2) <==> (h1 != h2 && LexLe(h1, h2)) || (h1 == h2 && LexLe(t1, t2))
    decreases |h1|
  {
    if |h1| > 0 {
      assert (h1 + t1)[0] == h1[0] && (h2 + t2)[0] == h2[0];
      assert (h1 + t1)[1..] == h1[1..] + t1 && (h2 + t2)[1..] == h2[1..] + t2;
      LexLeConcat(h1[1..], t1, h2[1..], t2);
      assert h1 == [h1[0]] + h1[1..] && h2 == [h2[0]] + h2[1..];
      if h1[0] == h2[0] && h1[1..] != h2[1..] {
        assert h1 != h2;
      }
    } else {
      assert h1 == [] && h2 == [] && h1 + t1 == t1 && h2 + t2 == t2;
    }
  }

  // ---------------------------------------------------------------- ASCII case

  function LowerChar(c: char): (r: char)
    ensures 'A' <= c <= 'Z' ==> r == c - 'A' + 'a'
    ensures !('A' <= c <= 'Z') ==> r == c
  {
    if 'A' <= c <= 'Z' then (c as int - 'A' as int + 'a' as int) as char else c
  }

  /** `str.lower()` restricted to ASCII letters. */
  function Lower(s: string): (r: string)
    ensures |r| == |s|
    ensures forall i :: 0 <= i < |s| ==> r[i] == LowerChar(s[i])
  {
    if s == [] then [] else [LowerChar(s[0])] + Lower(s[1..])
  }

  /** Equality up to ASCII case, the way SQLite compares column names. */
  predicate EqualIgnoringCase(a: string, b: string) {
    Lower(a) == Lower(b)
  }

  // ---------------------------------------------------------------- whitespace

  /**
   * The ASCII characters Python's `str.isspace` accepts: blank, tab, line feed,
   * vertical tab, form feed, carriage return and the four separators 0x1C-0x1F.
   */
  predicate IsSpace(c: char) {
    c == ' ' || c == '\t' || c == '\n' || c == '\r' || c == '\U{B}' || c == '\U{C}' ||
    ('\U{1C}' <= c <= '\U{1F}')
  }

  function StripLeft(s: string): (r: string)
    ensures |r| <= |s| && r == s[|s| - |r|..]
    ensures r == [] || !IsSpace(r[0])
    ensures forall i :: 0 <= i < |s| - |r| ==> IsSpace(s[i])
  {
    if s != [] && IsSpace(s[0]) then StripLeft(s[1..]) else s
  }

  function StripRight(s: string): (r: string)
    ensures |r| <= |s| && r == s[..|r|]
    ensures r == [] || !IsSpace(r[|r| - 1])
    ensures forall i :: |r| <= i < |s| ==> IsSpace(s[i])
  {
    if s != [] && IsSpace(s[|s| - 1]) then StripRight(s[..|s| - 1]) else s
  }

  /**
   * `str.strip()` with the ASCII whitespace set: the slice of `s` left after
   * removing every leading and every trailing blank, and no more.
   */
  function Strip(s: string): (r: string)
    ensures r == [] || (!IsSpace(r[0]) && !IsSpace(r[|r| - 1]))
    ensures exists i, j ::
      0 <= i <= j <= |s| && r == s[i..j] &&
      (forall k :: 0 <= k < i ==> IsSpace(s[k])) && (forall k :: j <= k < |s| ==> IsSpace(s[k]))
  {
    var l := StripLeft(s);
    var r := StripRight(l);
    assert r != [] ==> r[0] == l[0];
    var i := |s| - |l|;
    assert r == s[i..i + |r|];
    assert forall k :: i + |r| <= k < |s| ==> s[k] == l[k - i];
    r
  }

  /** A string without outer blanks is its own strip. */
  lemma StripUnchanged(s: string)
    requires s == [] || (!IsSpace(s[0]) && !IsSpace(s[|s| - 1]))
    ensures Strip(s) == s
  {
    assert StripLeft(s) == s;
    assert StripRight(s) == s;
  }

  /** Stripping an already stripped string changes nothing. */
  lemma StripIdempotent(s: string)
    ensures Strip(Strip(s)) == Strip(s)
  {
    var r := Strip(s);
    assert StripLeft(r) == r;
    assert StripRight(r) == r;
  }

  // ---------------------------------------------------------------- join

  /** `sep.join(parts)`. */
  function Join(parts: seq<string>, sep: string): string
  {
    if parts == [] then "" else if |parts| == 1 then parts[0] else parts[0] + sep + Join(parts[1..], sep)
  }

  /** A join starts with its first part. */
  lemma JoinStartsWith(parts: seq<string>, sep: string)
    requires parts != []
    ensures |Join(parts, sep)| >= |parts[0]| && Join(parts, sep)[..|parts[0]|] == parts[0]
  {
    if |parts| > 1 {
      assert Join(parts, sep) == parts[0] + (sep + Join(parts[1..], sep));
    }
  }

  // ---------------------------------------------------------------- digits

  function Pow10(w: nat): (p: nat)
    ensures p >= 1
  {
    if w == 0 then 1 else 10 * Pow10(w - 1)
  }

  function Digit(d: nat): char
    requires d < 10
  {
    ('0' as int + d) as char
  }

  /** The last `w` decimal digits of `n`, zero-padded on the left (strftime's `%m`, `%d`, ...). */
  function Pad(n: nat, w: nat): (r: string)
    ensures |r| == w
  {
    if w == 0 then [] else Pad(n / 10, w - 1) + [Digit(n % 10)]
  }

  /** For numbers that fit in `w` digits, comparing the padded strings compares the numbers. */
  lemma {:induction false} PadOrder(n: nat, m: nat, w: nat)
    requires n < Pow10(w) && m < Pow10(w)
    ensures LexLe(Pad(n, w), Pad(m, w)) <==> n <= m
    ensures Pad(n, w) == Pad(m, w) <==> n == m
  {
    if w > 0 {
      var hn, hm := Pad(n / 10, w - 1), Pad(m / 10, w - 1);
      var dn, dm := Digit(n % 10), Digit(m % 10);
      PadOrder(n / 10, m / 10, w - 1);
      LexLeConcat(hn, [dn], hm, [dm]);
      assert LexLe([dn], [dm]) <==> n % 10 <= m % 10 by {
        assert [dn][1..] == [] && [dm][1..] == [];
      }
      assert n == 10 * (n / 10) + n % 10 && m == 10 * (m / 10) + m % 10;
      assert Pad(n, w) == hn + [dn] && Pad(m, w) == hm + [dm];
      if Pad(n, w) == Pad(m, w) {
        assert hn == Pad(n, w)[..w - 1] == Pad(m, w)[..w - 1] == hm;
        assert dn == Pad(n, w)[w - 1] == dm;
      }
    }
  }
}

=== FILE: timestamps.dfy ===
/**
 * Wall-clock timestamps as Python's `datetime` holds them (to the second), the
 * "%Y-%m-%d %H:%M:%S" text the portal stores in `temp_logs.log_time`, and
 * `now - timedelta(days=k)`.  The clock itself is never read: callers pass `now`.
 */
module Timestamps {
  import opened Wrappers
  import opened Text

  datatype DateTime = DateTime(year: int, month: int, day: int, hour: int, minute: int, second: int)

  predicate IsLeap(y: int) {
    y % 4 == 0 && (y % 100 != 0 || y % 400 == 0)
  }

  function DaysInMonth(y: int, m: int): (d: int)
    requires 1 <= m <= 12
    ensures 28 <= d <= 31
  {
    if m == 2 then (if IsLeap(y) then 29 else 28)
    else if m == 4 || m == 6 || m == 9 || m == 11 then 30
    else 31
  }

  /** The range Python's `datetime` accepts (years 1 to 9999). */
  predicate Valid(t: DateTime) {
    && 1 <= t.year <= 9999
    && 1 <= t.month <= 12
    && 1 <= t.day <= DaysInMonth(t.year, t.month)
    && 0 <= t.hour < 24 && 0 <= t.minute < 60 && 0 <= t.second < 60
  }

  /** Chronological order: `a` is not later than `b`. */
  predicate NotAfter(a: DateTime, b: DateTime) {
    a.year < b.year || (a.year == b.year &&
    (a.month < b.month || (a.month == b.month &&
    (a.day < b.day || (a.day == b.day &&
    (a.hour < b.hour || (a.hour == b.hour &&
    (a.minute < b.minute || (a.minute == b.minute && a.second <= b.second)))))))))
  }

  predicate Before(a: DateTime, b: DateTime) {
    NotAfter(a, b) && a != b
  }

  /** `t.strftime("%Y-%m-%d %H:%M:%S")`: every field zero-padded to a fixed width. */
  function Format(t: DateTime): (s: string)
    requires Valid(t)
    ensures |s| == 19
  {
    Pad(t.year, 4) + ("-" + MonthOn(t))
  }

  // The text after each field's separator, innermost first.
  function MinuteOn(t: DateTime): string requires Valid(t) { Pad(t.minute, 2) + (":" + Pad(t.second, 2)) }
  function HourOn(t: DateTime): string requires Valid(t) { Pad(t.hour, 2) + (":" + MinuteOn(t)) }
  function DayOn(t: DateTime): string requires Valid(t) { Pad(t.day, 2) + (" " + HourOn(t)) }
  function MonthOn(t: DateTime): string requires Valid(t) { Pad(t.month, 2) + ("-" + DayOn(t)) }

  lemma SepThen(c: char, r1: string, r2: string)
    ensures LexLe([c] + r1, [c] + r2) <==> LexLe(r1, r2)
    ensures [c] + r1 == [c] + r2 <==> r1 == r2
  {
    assert ([c] + r1)[1..] == r1 && ([c] + r2)[1..] == r2;
  }

  lemma PadThen(n: nat, m: nat, w: nat, r1: string, r2: string)
    requires n < Pow10(w) && m < Pow10(w)
    ensures LexLe(Pad(n, w) + r1, Pad(m, w) + r2) <==> n < m || (n == m && LexLe(r1, r2))
    ensures Pad(n, w) + r1 == Pad(m, w) + r2 <==> n == m && r1 == r2
  {
    PadOrder(n, m, w);
    LexLeConcat(Pad(n, w), r1, Pad(m, w), r2);
    if Pad(n, w) + r1 == Pad(m, w) + r2 {
      assert Pad(n, w) == (Pad(n, w) + r1)[..w] && Pad(m, w) == (Pad(m, w) + r2)[..w];
      assert r1 == (Pad(n, w) + r1)[w..] && r2 == (Pad(m, w) + r2)[w..];
    }
  }

  lemma Pow10Values()
    ensures Pow10(2) == 100 && Pow10(4) == 10000
  {
    assert Pow10(1) == 10;
    assert Pow10(3) == 1000;
  }

  lemma MinuteOrder(a: DateTime, b: DateTime)
    requires Valid(a) && Valid(b)
    ensures LexLe(MinuteOn(a), MinuteOn(b)) <==> a.minute < b.minute || (a.minute == b.minute && a.second <= b.second)
    ensures MinuteOn(a) == MinuteOn(b) <==> a.minute == b.minute && a.second == b.second
  {
    Pow10Values();
    PadOrder(a.second, b.second, 2);
    SepThen(':', Pad(a.second, 2), Pad(b.second, 2));
    PadThen(a.minute, b.minute, 2, ":" + Pad(a.second, 2), ":" + Pad(b.second, 2));
  }

  lemma HourOrder(a: DateTime, b: DateTime)
    requires Valid(a) && Valid(b)
    ensures LexLe(HourOn(a), HourOn(b)) <==> (a.hour < b.hour || (a.hour == b.hour &&
      (a.minute < b.minute || (a.minute == b.minute && a.second <= b.second))))
    ensures HourOn(a) == HourOn(b) <==> a.hour == b.hour && a.minute == b.minute && a.second == b.second
  {
    Pow10Values();
    MinuteOrder(a, b);
    SepThen(':', MinuteOn(a), MinuteOn(b));
    PadThen(a.hour, b.hour, 2, ":" + MinuteOn(a), ":" + MinuteOn(b));
  }

  lemma DayOrder(a: DateTime, b: DateTime)
    requires Valid(a) && Valid(b)
    ensures LexLe(DayOn(a), DayOn(b)) <==> (a.day < b.day || (a.day == b.day &&
      (a.hour < b.hour || (a.hour == b.hour &&
      (a.minute < b.minute || (a.minute == b.minute && a.second <= b.second))))))
    ensures DayOn(a) == DayOn(b) <==>
      a.day == b.day && a.hour == b.hour && a.minute == b.minute && a.second == b.second
  {
    Pow10Values();
    HourOrder(a, b);
    SepThen(' ', HourOn(a), HourOn(b));
    PadThen(a.day, b.day, 2, " " + HourOn(a), " " + HourOn(b));
  }

  lemma MonthOrder(a: DateTime, b: DateTime)
    requires Valid(a) && Valid(b)
    ensures LexLe(MonthOn(a), MonthOn(b)) <==> (a.month < b.month || (a.month == b.month &&
      (a.day < b.day || (a.day == b.day &&
      (a.hour < b.hour || (a.hour == b.hour &&
      (a.minute < b.minute || (a.minute == b.minute && a.second <= b.second))))))))
    ensures MonthOn(a) == MonthOn(b) <==> (a.month == b.month &&
      a.day == b.day && a.hour == b.hour && a.minute == b.minute && a.second == b.second)
  {
    Pow10Values();
    DayOrder(a, b);
    SepThen('-', DayOn(a), DayOn(b));
    PadThen(a.month, b.month, 2, "-" + DayOn(a), "-" + DayOn(b));
  }

  /**
   * Because every field has a fixed width, the text order of formatted timestamps
   * (the order `ORDER BY log_time` uses) is their chronological order, and
   * formatting loses nothing.
   */
  lemma FormatOrder(a: DateTime, b: DateTime)
    requires Valid(a) && Valid(b)
    ensures LexLe(Format(a), Format(b)) <==> NotAfter(a, b)
    ensures Format(a) == Format(b) <==> a == b
  {
    Pow10Values();
    MonthOrder(a, b);
    SepThen('-', MonthOn(a), MonthOn(b));
    PadThen(a.year, b.year, 4, "-" + MonthOn(a), "-" + MonthOn(b));
  }

  /** `t - timedelta(days=1)`; `None` when Python raises `OverflowError` (before year 1). */
  function PrevDay(t: DateTime): (r: Option<DateTime>)
    requires Valid(t)
    ensures r.Some? ==> Valid(r.value) && Before(r.value, t)
    ensures r.Some? ==> r.value.hour == t.hour && r.value.minute == t.minute && r.value.second == t.second
    ensures r.None? <==> t.year == 1 && t.month == 1 && t.day == 1
  {
    if t.day > 1 then Some(t.(day := t.day - 1))
    else if t.month > 1 then Some(t.(month := t.month - 1, day := DaysInMonth(t.year, t.month - 1)))
    else if t.year > 1 then Some(t.(year := t.year - 1, month := 12, day := 31))
    else None
  }

  /** `t - timedelta(days=k)`, day by day. */
  function DaysBefore(t: DateTime, k: nat): (r: Option<DateTime>)
    requires Valid(t)
    ensures r.Some? ==> Valid(r.value)
  {
    if k == 0 then Some(t)
    else match DaysBefore(t, k - 1)
      case None => None
      case Some(u) => PrevDay(u)
  }

  /**
   * If going back `k` days succeeds, so does going back any `j <= k` days, and each
   * extra day back gives a strictly earlier timestamp.
   */
  lemma {:induction false} DaysBeforeOrdered(t: DateTime, j: nat, k: nat)
    requires Valid(t) && j < k
    requires DaysBefore(t, k).Some?
    ensures DaysBefore(t, j).Some?
    ensures Before(DaysBefore(t, k).value, DaysBefore(t, j).value)
    decreases k
  {
    var prev := DaysBefore(t, k - 1);
    assert prev.Some?;
    assert Before(DaysBefore(t, k).value, prev.value);
    if j < k - 1 {
      DaysBeforeOrdered(t, j, k - 1);
      BeforeTrans(DaysBefore(t, k).value, prev.value, DaysBefore(t, j).value);
    }
  }

  /** Going further back in days gives a strictly smaller timestamp string. */
  lemma DaysBeforeFormatted(t: DateTime, j: nat, k: nat)
    requires Valid(t) && j < k
    requires DaysBefore(t, k).Some?
    ensures DaysBefore(t, j).Some?
    ensures LexLe(Format(DaysBefore(t, k).value), Format(DaysBefore(t, j).value))
    ensures Format(DaysBefore(t, k).value) != Format(DaysBefore(t, j).value)
  {
    DaysBeforeOrdered(t, j, k);
    var earlier, later := DaysBefore(t, k).value, DaysBefore(t, j).value;
    FormatOrder(earlier, later);
  }

  lemma BeforeTrans(a: DateTime, b: DateTime, c: DateTime)
    requires Before(a, b) && Before(b, c)
    ensures Before(a, c)
  {
  }
}

=== FILE: train_export.dfy ===
/**
 * The training script's data preparation: header names are stripped, categorical
 * columns are mapped through fixed lookup tables (an unmapped or missing value gives
 * a missing code), a synthetic `creditworthy` label is derived from four codes, and
 * the feature columns are picked in a fixed order.  Training and export of the
 * classifier are not modelled.
 */
module TrainExport {
  import opened Wrappers
  import opened Text

  // ---------------------------------------------------------------- headers

  /** `df.columns = df.columns.str.strip()`: each header is replaced by its strip, in place. */
  function StripColumns(cols: seq<string>): (r: seq<string>)
    ensures |r| == |cols|
    ensures forall k :: 0 <= k < |cols| ==> r[k] == Strip(cols[k])
  {
    seq(|cols|, k requires 0 <= k < |cols| => Strip(cols[k]))
  }

  /** Stripping the headers again changes nothing, and no header keeps outer blanks. */
  lemma StripColumnsIdempotent(cols: seq<string>)
    ensures StripColumns(StripColumns(cols)) == StripColumns(cols)
    ensures forall k :: 0 <= k < |cols| ==> var h := StripColumns(cols)[k];
      h == [] || (!IsSpace(h[0]) && !IsSpace(h[|h| - 1]))
  {
    var once := StripColumns(cols);
    forall k | 0 <= k < |cols| ensures StripColumns(once)[k] == once[k] {
      StripIdempotent(cols[k]);
    }
  }

  // ---------------------------------------------------------------- encodings

  const GenderCodes: map<string, int> := map["Male" := 0, "Female" := 1, "Other" := 2]
  const EducationCodes: map<string, int> := map["Primary" := 0, "Secondary" := 1, "Tertiary" := 2]
  const PhoneCodes: map<string, int> := map["Basic phone" := 0, "Feature phone" := 1, "Smartphone" := 2]
  const FinanceCodes: map<string, int> := map["None" := 0, "Limited" := 1, "Some" := 2, "Full" := 3]
  const YesNoCodes: map<string, int> := map["No" := 0, "Yes" := 1]

  /** One row of `youth_farmers.csv`; None is an empty cell. */
  datatype Farmer = Farmer(
    age: Option<real>, gender: Option<string>, education: Option<string>, farmSize: Option<real>,
    phone: Option<string>, financial: Option<string>, experience: Option<real>,
    extension: Option<string>, cooperative: Option<string>, irrigation: Option<string>,
    dependents: Option<real>)

  /** `Series.map(table)` on one cell: the code, or missing (NaN) when the table lacks the value. */
  function Lookup(table: map<string, int>, v: Option<string>): (r: Option<int>)
    ensures r.Some? <==> v.Some? && v.value in table
  {
    if v.Some? && v.value in table then Some(table[v.value]) else None
  }

  /** The seven `*_code` columns of one row. */
  datatype Codes = Codes(
    gender: Option<int>, education: Option<int>, phone: Option<int>, financial: Option<int>,
    extension: Option<int>, cooperative: Option<int>, irrigation: Option<int>)

  /** Lines 12-30 with the phone table as a parameter. */
  function EncodeWith(f: Farmer, phones: map<string, int>): Codes {
    Codes(
      Lookup(GenderCodes, f.gender), Lookup(EducationCodes, f.education), Lookup(phones, f.phone),
      Lookup(FinanceCodes, f.financial), Lookup(YesNoCodes, f.extension),
      Lookup(YesNoCodes, f.cooperative), Lookup(YesNoCodes, f.irrigation))
  }

  /** Lines 12-30 as written. */
  function Encode(f: Farmer): Codes {
    EncodeWith(f, PhoneCodes)
  }

  /**
   * Only 'Basic phone', 'Feature phone' and 'Smartphone' get a phone code (0, 1, 2);
   * any other phone type, and a missing one, leaves the code missing.
   */
  lemma PhoneCodeSpec(f: Farmer)
    ensures Encode(f).phone.Some? <==> f.phone in {Some("Basic phone"), Some("Feature phone"), Some("Smartphone")}
    ensures Encode(f).phone == Some(2) <==> f.phone == Some("Smartphone")
  {
  }

  // ---------------------------------------------------------------- label

  /**
   * Lines 38-43: 1 when the education code is 2, the phone code 2, the financial
   * code 3 and the cooperative code 1, else 0.  A missing code compares unequal.
   */
  function Creditworthy(c: Codes): (y: int)
    ensures y == 0 || y == 1
  {
    if c.education == Some(2) && c.phone == Some(2) && c.financial == Some(3) && c.cooperative == Some(1) then 1 else 0
  }

  /**
   * In terms of the raw row: a farmer is creditworthy exactly when tertiary-educated,
   * with a smartphone, full financial access and cooperative membership.
   */
  lemma CreditworthyIff(f: Farmer)
    ensures Creditworthy(Encode(f)) == 1 <==>
      f.education == Some("Tertiary") && f.phone == Some("Smartphone") &&
      f.financial == Some("Full") && f.cooperative == Some("Yes")
  {
    var c := Encode(f);
    if c.education == Some(2) {
      assert f.education.value in EducationCodes;
    }
    if c.financial == Some(3) {
      assert f.financial.value in FinanceCodes;
    }
    if c.cooperative == Some(1) {
      assert f.cooperative.value in YesNoCodes;
    }
    if c.phone == Some(2) {
      assert f.phone.value in PhoneCodes;
    }
  }

  /** A missing code in any of the four fields makes the label 0. */
  lemma MissingCodeNotCreditworthy(f: Farmer)
    requires Encode(f).education.None? || Encode(f).phone.None? || Encode(f).financial.None? || Encode(f).cooperative.None?
    ensures Creditworthy(Encode(f)) == 0
  {
  }

  /** The label column over the whole table. */
  function Labels(rows: seq<Farmer>): (ys: seq<int>)
    ensures |ys| == |rows|
    ensures forall i :: 0 <= i < |rows| ==> ys[i] == Creditworthy(Encode(rows[i]))
  {
    seq(|rows|, i requires 0 <= i < |rows| => Creditworthy(Encode(rows[i])))
  }

  // ---------------------------------------------------------------- features

  const FeatureCols: seq<string> := [
    "age", "education_level_code", "farm_size", "phone_type_code", "financial_access_code",
    "experience_years", "extension_access_code", "cooperative_member_code",
    "irrigation_access_code", "dependents", "gender_code"
  ]

  function CodeValue(c: Option<int>): Option<real> {
    if c.Some? then Some(c.value as real) else None
  }

  /**
   * `df[name]` on one prepared row: the value of the numeric column `name` (one
   * of the four read from the file, the seven `*_code` columns or the label), or
   * None (a KeyError) for any other name.
   */
  function ColumnValue(f: Farmer, name: string): (v: Option<Option<real>>)
  {
    var c := Encode(f);
    if name == "age" then Some(f.age)
    else if name == "education_level_code" then Some(CodeValue(c.education))
    else if name == "farm_size" then Some(f.farmSize)
    else if name == "phone_type_code" then Some(CodeValue(c.phone))
    else if name == "financial_access_code" then Some(CodeValue(c.financial))
    else if name == "experience_years" then Some(f.experience)
    else if name == "extension_access_code" then Some(CodeValue(c.extension))
    else if name == "cooperative_member_code" then Some(CodeValue(c.cooperative))
    else if name == "irrigation_access_code" then Some(CodeValue(c.irrigation))
    else if name == "dependents" then Some(f.dependents)
    else if name == "gender_code" then Some(CodeValue(c.gender))
    else if name == "creditworthy" then Some(Some(Creditworthy(c) as real))
    else None
  }

  /** `df[feature_cols]` for one row: position k holds the row's value in column `feature_cols[k]`. */
  function Features(f: Farmer): (x: seq<Option<real>>)
    ensures |x| == |FeatureCols|
    ensures forall k :: 0 <= k < |FeatureCols| ==> ColumnValue(f, FeatureCols[k]) == Some(x[k])
  {
    var c := Encode(f);
    [f.age, CodeValue(c.education), f.farmSize, CodeValue(c.phone), CodeValue(c.financial),
     f.experience, CodeValue(c.extension), CodeValue(c.cooperative), CodeValue(c.irrigation),
     f.dependents, CodeValue(c.gender)]
  }

  /**
   * The feature vector holds the raw numeric columns and the codes, never the raw
   * category strings, and never the label: `creditworthy` is a column of the
   * prepared row but not a feature column.
   */
  lemma FeaturesExcludeLabel(f: Farmer)
    ensures ColumnValue(f, "creditworthy").Some? && "creditworthy" !in FeatureCols
    ensures forall k :: 0 <= k < |FeatureCols| ==> FeatureCols[k] != "phone_type" && FeatureCols[k] != "education_level"
  {
  }

  /** The label the feature vector is trained against is the row's `creditworthy` column. */
  lemma LabelColumn(rows: seq<Farmer>, i: int)
    requires 0 <= i < |rows|
    ensures ColumnValue(rows[i], "creditworthy") == Some(Some(Labels(rows)[i] as real))
  {
  }

  // ---------------------------------------------------------------- the phone vocabulary

  /** The phone types the data generator writes into `youth_farmers.csv`. */
  const GeneratedPhones: set<string> := {"Basic", "Feature", "Smart"}

  /**
   * As written: no generated phone type is in the phone table, so no generated
   * farmer is ever labelled creditworthy and the training labels are all 0.
   */
  lemma GeneratedNeverCreditworthy(rows: seq<Farmer>)
    requires forall i :: 0 <= i < |rows| ==> rows[i].phone.Some? && rows[i].phone.value in GeneratedPhones
    ensures forall i :: 0 <= i < |rows| ==> Labels(rows)[i] == 0
  {
    forall i | 0 <= i < |rows| ensures Encode(rows[i]).phone.None? {
      var p := rows[i].phone.value;
      assert p == "Basic" || p == "Feature" || p == "Smart";
      assert p !in PhoneCodes;
    }
  }

  /** The phone table for the generator's vocabulary, the one the scoring script also uses. */
  const GeneratedPhoneCodes: map<string, int> := map["Basic" := 0, "Feature" := 1, "Smart" := 2]

  function EncodeGenerated(f: Farmer): Codes {
    EncodeWith(f, GeneratedPhoneCodes)
  }

  /**
   * Corrected: with the generator's vocabulary a generated farmer is creditworthy
   * exactly when tertiary-educated, with a smart phone, full financial access and
   * cooperative membership, so both labels occur.
   */
  lemma GeneratedCreditworthyIff(f: Farmer)
    requires f.phone.Some? && f.phone.value in GeneratedPhones
    ensures Creditworthy(EncodeGenerated(f)) == 1 <==>
      f.education == Some("Tertiary") && f.phone == Some("Smart") &&
      f.financial == Some("Full") && f.cooperative == Some("Yes")
  {
    var c := EncodeGenerated(f);
    if c.education == Some(2) {
      assert f.education.value in EducationCodes;
    }
    if c.financial == Some(3) {
      assert f.financial.value in FinanceCodes;
    }
    if c.cooperative == Some(1) {
      assert f.cooperative.value in YesNoCodes;
    }
  }
}

=== FILE: wrappers.dfy ===
/** Failure-compatible wrapper used across the model: a value that may be absent. */
module Wrappers {
  datatype Option<+T> = None | Some(value: T) {
    predicate IsFailure() { None? }

    function PropagateFailure<U>(): Option<U>
      requires None?
    {
      None
    }

    function Extract(): T
      requires Some?
    {
      value
    }

    function GetOr(default: T): T {
      match this
      case Some(v) => v
      case None => default
    }
  }
}
